=== FILE: README.md ===
# Prompt review and validation tools, modelled in Dafny

The repository holds a few command-line tools for a course on prompt
engineering. This project models their decision logic:

- **The code-review script** (`src/code_review.py`).
  - For a Python file it runs seven checks. Five of them look at one line at
    a time:
    - hard-coded credentials
    - generic variable names
    - LangSmith `hub.pull` and `Client()` usage
    - missing return-type hints
    - over-broad `except` clauses

    The other two look at the whole file: import-group order and missing
    docstrings.
  - For a prompt YAML file it runs four checks: required fields, few-shot
    examples, versioning and listed prompt techniques.
  - It dispatches a path on its suffix and walks a directory in three glob
    passes.
  - Every finding is a `ReviewIssue` with one of five priorities. The
    findings are summarised per priority in a JSON report and grouped most
    severe first in a text report.
  - The process exits with the number of CRITICAL findings.
- **The prompt validators.** `PromptValidator.validate` and
  `validate_prompt_structure` are in `src/utils.py`. The simplified
  `validate_prompt` is in `src/push_prompts.py`.
- **`check_env_vars` and `extract_json_from_response`** (`src/utils.py`).
  For the second, the model covers choosing the slice from the first `{` to
  the last `}`.
- **The provider configuration script** (`config_provider.py`):
  - provider validation
  - the default models
  - the `.env` line rewrite
  - the argument checks of `main`
  - the shortened API key it displays

## How the model is laid out

| module | file | models |
|---|---|---|
| `Wrappers` | wrappers.dfy | `Option` and `Result` |
| `Text` | text.dfy | `str.strip`, `str.split("\n")`, `in`, `startswith`, `lower`, `find`/`rfind` and path suffixes |
| `PyValue` | pyvalue.dfy | a parsed YAML/JSON value, Python truthiness, `len` and `str()` |
| `Issues` | issues.dfy | `ReviewPriority`, `ReviewIssue`, and selecting and counting by priority |
| `LineChecks` | line_checks.dfy | the five per-line Python checks; the regular expressions are written out as predicates over characters |
| `ImportOrder` | imports.dfy | `_check_imports` |
| `Docstrings` | docstrings.dfy | `_check_docstrings`; the walk and an independent quantified description of what it reports |
| `PromptChecks` | prompt_checks.dfy | the four YAML checks |
| `Reporting` | reporting.dfy | `generate_report` grouping and counts, and `save_report_json` |
| `Review` | review.dfy | the per-file analyses, dispatch, directory walk and `main`'s exit status |
| `Utils` | utils.dfy | `PromptValidator.validate`, `validate_prompt_structure`, `check_env_vars` and `extract_json_from_response` |
| `PushPrompts` | push_prompts.dfy | `validate_prompt` |
| `ConfigProvider` | config_provider.dfy | `config_provider.py` |

Inputs that come from the outside world are passed in as parameters:

- **The file system** is a map from normalised path (`str(Path(p))`) to node:
  - a file node holds the outcome of reading it and of parsing it as YAML;
  - a directory node holds the paths its three glob patterns return, which
    `pathlib` produces already normalised.
- **The environment** is a map from variable name to value.
- **`json.loads`** is a function parameter.
- **The `.env` file** is its list of lines, or nothing when it does not
  exist.
- **`sys.argv`** is the full argument list, including the program name.

Where the code does something an operation's description does not quite
say, the model follows the code:

- **The docstring check** skips a report when the *next* definition line
  mentions `test_`. It does not look at the name of the definition being
  reported.
- **A prompt without `version`** gets two findings: a CRITICAL
  missing-field finding from the structure check and a HIGH finding from
  the versioning check.
- **`PromptValidator.validate`** raises when `system_prompt` is not a
  string. It also raises when `techniques_applied` is neither a list nor
  anything else with a length. Both are `Failure` results in the model.
- **A YAML document that is not a mapping** makes the analysis raise, so
  `main` exits with 1. So does an `examples` value that cannot be iterated.
- **The `hub.pull` guard** is run as written: only a line that is exactly
  `try` counts, so a `hub.pull` inside a `try:` block is still reported.
  The guard evidently intended is modelled beside it (see "Findings").
- **Paths** are taken as `Path(filepath)` takes them: `a.py/` names the
  Python file `a.py`, and `./x.py` is reported as `x.py`.

## Model

| member | source | states |
|---|---|---|
| Issues.SeverityOrderIsRanking | src/code_review.py:39-46 | The five priorities, CRITICAL first, are listed once each in rank order, and rank identifies a priority. |
| Issues.OfSeverityMembers | src/code_review.py:585-589 | The issues grouped under a priority are exactly the issues that have that priority. |
| Issues.OfSeverityAppend | src/code_review.py:585-589 | Grouping the concatenation of two issue lists gives the two groups concatenated, so the counts add up. |
| Issues.OfSeverityMultiplicity | src/code_review.py:585-589 | A group keeps every occurrence of an issue of its priority and none of any other. |
| Issues.SeverityPartition | src/code_review.py:585-601 | The five priority groups together are a permutation of the issue list. |
| Issues.SeverityCountsSum | src/code_review.py:595-609 | The five per-priority counts add up to the total number of issues. |
| Issues.UniformSeverity | src/code_review.py:585-601 | When all issues share one priority, its group is the whole list and every other count is zero. |
| Issues.NoneOfSeverity | src/code_review.py:595-601 | A priority no issue has gets a zero count. |
| Reporting.SummaryOf | src/code_review.py:640-646 | Each summary entry counts the issues of its priority, the entries sum to the total, and the summary is all zeros exactly when there are no issues. |
| Reporting.SeverityOfLabel | src/code_review.py:39-46 | A label read back names a priority whose label is that text. |
| Reporting.IssueOfRecord | src/code_review.py:60-70 | A record read back gives an issue whose `to_dict` record is that record. |
| Reporting.LabelRoundTrip | src/code_review.py:39-46 | Each priority's label reads back as that priority, so the labels are distinct. |
| Reporting.RecordRoundTrip | src/code_review.py:60-70 | `to_dict` loses nothing: every issue is recovered from its record. |
| Reporting.JsonReportOf | src/code_review.py:636-652 | `total_issues` is the number of issues and of records, the summary counts each priority, and record `i` reads back as issue `i`. |
| Reporting.Present | src/code_review.py:613-614 | The priorities given a section are exactly those of the order that have at least one issue. |
| Reporting.SectionsOf | src/code_review.py:613-616 | Section `i` is titled with the `i`-th priority and lists that priority's issues in input order. |
| Reporting.PresentSelectsAll | src/code_review.py:613-614 | Skipping the priorities without issues selects the same issues as walking every priority. |
| Reporting.SectionsHoldSelection | src/code_review.py:613-618 | The sections together list the issues of their priorities, each occurrence once. |
| Reporting.PresentRanked | src/code_review.py:592-614 | Skipping empty priorities keeps a ranked order ranked. |
| Reporting.SeverityOrderRanked | src/code_review.py:592-593 | The report's priority order names every priority and is strictly ranked, CRITICAL first. |
| Reporting.SelectedByMultiplicity | src/code_review.py:613-618 | Walking a ranked list of priorities selects each issue whose priority is listed, as often as it occurs, and no other issue. |
| Reporting.SeverityOrderSelectsAll | src/code_review.py:592-618 | Walking the report's priority order selects every issue exactly as often as it occurs. |
| Reporting.PresentSections | src/code_review.py:592-618 | For an order that ranks every priority, no section is empty, every priority with issues has a section, sections are most severe first, and together they hold every issue once. |
| Reporting.ReportSections | src/code_review.py:585-618 | The text report's sections hold the issues of their priority, are non-empty, cover every priority present, are most severe first, and are a permutation of the issues. |
| Reporting.GenerateReport | src/code_review.py:573-634 | The clean message is given exactly when there are no issues. Otherwise the summary counts each priority and the total, and the sections are as in `ReportSections`. |
| Text.Strip | src/code_review.py:241 | `strip()` returns the middle slice of its input: only whitespace is removed, and what remains neither starts nor ends with whitespace. |
| Text.StripEmptyIffBlank | src/code_review.py:423 | A string strips to empty exactly when every character is whitespace. |
| Text.StripFindsOccurrence | src/utils.py:56-59 | A substring that does not start or end with whitespace is still found after `strip()`. |
| Text.SplitLines | src/code_review.py:119 | `split("\n")` gives at least one piece, and no piece holds a newline. |
| Text.JoinSplitLines | src/code_review.py:119 | Joining the pieces of `split("\n")` with newlines gives back the text. |
| Text.SplitJoinLines | src/code_review.py:119 | Splitting newline-joined lines that hold no newline gives back the lines. |
| Text.ParseNatToString | src/utils.py:66-67 | Reading back the decimal rendering of a count gives the count. |
| Text.NatToStringInjective | src/utils.py:66-67 | Different counts render differently. |
| Text.Parts | src/code_review.py:82 | `PurePath` splits a path on `/` and keeps only the non-empty pieces other than `.`, none of which holds a `/`. |
| Text.PartsSingle | src/code_review.py:82 | A path without `/` has itself as its one component, or none when it is empty or `.`. |
| Text.PartsAppend | src/code_review.py:82 | The components of `a/b` are those of `a` followed by those of `b`. With `PartsSingle`, this fixes the components of every path: each kept piece appears, in order, and nothing else does. |
| Text.PartsOfJoin | src/code_review.py:82 | Joining such components with `/` and splitting again gives them back. |
| Text.NormPathKeepsParts | src/code_review.py:82 | `str(Path(p))` has the same root and the same components as `p`. |
| Text.NormPathIdempotent | src/code_review.py:82 | Normalising a path a second time changes nothing. |
| Text.NormPathOfName | src/code_review.py:82 | A single component other than `.` is its own normal form. |
| Text.NormPathTrailingSlash | src/code_review.py:82 | A trailing `/` on a relative path does not change its normal form, so `a.py/` names `a.py`. |
| Text.NormPathDotSlash | src/code_review.py:82 | A leading `./` on a relative path does not change its normal form, so `./x.py` names `x.py`. |
| Text.BaseName | src/code_review.py:488 | `Path.name` holds no `/` and is never `.`. |
| Text.BaseNameSpec | src/code_review.py:488 | The name is empty exactly when the path has no component. Otherwise it is one of the path's components. |
| Text.BaseNameEndsNormPath | src/code_review.py:488 | A non-empty name is either the whole normalised path or the part of it after its last `/`. |
| Text.BaseNameOfChild | src/code_review.py:488 | The name of `dir/name` is `name`, for every directory `dir`. |
| Text.BaseNameOfNormPath | src/code_review.py:82-87 | A path and its normal form have the same name. |
| Text.SuffixOfNormPath | src/code_review.py:82-89 | A path and its normal form have the same suffix, so `a.py/` is dispatched as a Python file. |
| Text.Suffix | src/code_review.py:87-89 | `Path.suffix` is empty, or a dot followed by at least one character and no other dot that ends the name and is shorter than it. |
| Text.SuffixSpec | src/code_review.py:87-89 | The suffix is non-empty exactly when the name's last dot is neither its first nor its last character. It is then the name from that dot on. |
| Text.SuffixExamples | src/code_review.py:87-89 | `a.py` has the suffix `.py`. A dot-file such as `.env` has no suffix. |
| Text.SuffixOfChild | src/code_review.py:87-89 | A file under any directory has the suffix of its own name. |
| PyValue.Len | src/utils.py:64-67 | `len` is defined exactly on strings, lists and mappings, and gives the number of characters, items or entries. |
| LineChecks.SecurityAtSpec | src/code_review.py:208-229 | On one line, each credential pattern that matches gives exactly one CRITICAL finding, provided the line mentions no example or placeholder. Nothing else is reported. |
| LineChecks.SecuritySpec | src/code_review.py:204-235 | Every security finding is CRITICAL and names a pattern found on its line. Each pattern found on a line that is not allow-listed is reported once. |
| LineChecks.NamingFromMultiplicity | src/code_review.py:318-332 | Each listed name assigned on a line is reported once, and an unassigned one never. |
| LineChecks.NamingSpec | src/code_review.py:314-334 | Every naming finding is LOW and names a generic name assigned on its line. Each such assignment is reported once, unless the line mentions `__`. |
| LineChecks.HubUsageSpec | src/code_review.py:336-365 | A HIGH finding is reported exactly on the lines with `hub.pull` where none of that line and the two before it is exactly `try` (the list membership of line 342). A MEDIUM finding is reported exactly on the lines with `Client()`. There are no other findings. |
| LineChecks.IntendedHubUsageSpec | src/code_review.py:342 | With the intended guard, the HIGH finding is reported exactly on the lines with `hub.pull` where none of that line and the two before it contains `try`; the `Client()` findings are unchanged. |
| LineChecks.CorrectedGuardIsWeaker | src/code_review.py:342 | The intended guard accepts every window the written guard accepts, so it only removes findings. |
| LineChecks.GuardAsWrittenMissesTryBlock | src/code_review.py:342 | Counterexample: in `from langchain import hub`, `try:`, `    p = hub.pull(name)`, the scan as written reports line 3, and the scan with the intended guard does not. |
| LineChecks.TypeHintsSpec | src/code_review.py:367-385 | Each finding is the type-hint finding of a `def` line without `->` or `test_` and not a typed method. The findings are in line order, and each such line is reported. |
| LineChecks.ErrorHandlingSpec | src/code_review.py:387-404 | Each finding is MEDIUM, on a line with `except:` or `except Exception:`. The findings are in line order, and each such line is reported. |
| LineChecks.FlattenMultiplicity | src/code_review.py:217-218 | Walking `enumerate(lines, 1)` reports a finding of line `k` as often as the per-line check gives it. |
| LineChecks.FlattenStrict | src/code_review.py:370-385 | When each line gives at most one finding, the walk's findings are on strictly increasing lines. |
| ImportOrder.ImportLines | src/code_review.py:241 | The import lines are exactly the lines whose stripped text starts with `import ` or `from `. |
| ImportOrder.ImportLinesMultiplicity | src/code_review.py:241 | Each import line is collected as often as it occurs in the file, and no other line is collected. |
| ImportOrder.ImportLinesAppend | src/code_review.py:241 | The imports of two stretches of a file are those of the first followed by those of the second, so file order is kept. |
| ImportOrder.ImportLinesSingle | src/code_review.py:241 | A single line is collected exactly when it is an import. |
| ImportOrder.GroupedIsPermutation | src/code_review.py:264-273 | Regrouping imports into stdlib, third-party and local keeps every line, each as often as before. |
| ImportOrder.GroupedIsOrdered | src/code_review.py:264-273 | The regrouped imports are in group order. |
| ImportOrder.GroupedIffOrdered | src/code_review.py:273 | The regrouped list equals the original exactly when the original is already in group order. |
| ImportOrder.CheckImports | src/code_review.py:237-283 | One LOW finding exactly when the imports are out of group order, otherwise none. A file without imports gets no finding. |
| Docstrings.Kinds | src/code_review.py:294-309 | Each line is classified by whether it starts a definition, holds a docstring marker and mentions `test_`. |
| Docstrings.UndocumentedFromSpec | src/code_review.py:285-312 | The reference list holds exactly the undocumented definitions, in increasing line order. |
| Docstrings.DocScanMatchesReference | src/code_review.py:290-310 | The walk with `in_def`, `has_docstring` and `def_line` reports exactly the reference list. |
| Docstrings.LastDefinitionNeverReported | src/code_review.py:295-306 | A definition with no later definition line is never reported, whatever follows it. |
| Docstrings.DocstringsSpec | src/code_review.py:285-312 | Each finding is MEDIUM, for a definition with no marker before the next definition line, which does not mention `test_`. Findings are in line order, and each such definition is reported. |
| PromptChecks.StructureNamesFields | src/code_review.py:412-431 | Every structure finding is the missing-field or empty-field finding of one of the fields walked. |
| PromptChecks.MissingFieldMultiplicity | src/code_review.py:413-422 | Over distinct fields, each absent field is reported missing exactly once, and a present one never. |
| PromptChecks.EmptyFieldMultiplicity | src/code_review.py:423-431 | Over distinct fields, each present but falsy or blank field is reported empty exactly once, and no other field is. |
| PromptChecks.CheckPromptStructure | src/code_review.py:408-433 | At most four findings. Each required field gets one CRITICAL finding when absent and one HIGH finding when blank, and nothing else is reported. |
| PromptChecks.StructureCriticals | src/code_review.py:413-422 | The structure check's CRITICAL findings are as many as the missing fields. |
| PromptChecks.MalformedMultiplicity | src/code_review.py:461-470 | Each example that is not a mapping is reported malformed exactly once. |
| PromptChecks.IncompleteMultiplicity | src/code_review.py:461-479 | Each mapping example without both `input` and `output` is reported incomplete exactly once. |
| PromptChecks.ExampleListCounts | src/code_review.py:449-479 | With `examples` present: no missing-examples finding, and one count finding exactly when it is not a list of at least two. Each example is reported malformed or incomplete as its shape requires. |
| PromptChecks.CheckFewShotExamples | src/code_review.py:435-481 | Without `examples`, exactly one HIGH finding. Otherwise the check succeeds exactly when the value can be iterated, and then gives the list findings. |
| PromptChecks.CheckPromptVersioning | src/code_review.py:483-520 | The missing-version finding occurs once when the version is falsy, and otherwise not at all. The format finding occurs once when the version is present but has no `v`, and otherwise not at all. The mismatch finding occurs once when the file name has `v1` and the version `v2`, and otherwise not at all. Nothing else is reported. |
| PromptChecks.VersioningCounts | src/code_review.py:490-518 | One HIGH finding exactly when the version is missing. One MEDIUM finding for each failing format or file-name test. |
| PromptChecks.VersionMismatchIsOneSided | src/code_review.py:510-518 | A `v1` file holding version `v2` is reported, but a `v2` file holding version `v1` is not. |
| PromptChecks.Unrecognised | src/code_review.py:547-559 | The unknown techniques are exactly the entries whose lower-cased text contains no known technique name. |
| PromptChecks.UnrecognisedMultiplicity | src/code_review.py:558-559 | Each unknown entry is kept as often as it occurs in the list, and no recognised entry is kept. |
| PromptChecks.UnrecognisedAppend | src/code_review.py:558-559 | The unknown entries of two stretches of the list are those of the first followed by those of the second, so list order is kept. |
| PromptChecks.TechniqueListIssues | src/code_review.py:537-567 | For a list: the MEDIUM finding occurs once exactly when the list has fewer than two entries. All other findings are LOW, and the LOW ones follow the unknown entries one for one, in order. |
| PromptChecks.ListIssuesShape | src/code_review.py:537-567 | The optional MEDIUM finding followed by one LOW finding per unknown entry: the MEDIUM finding occurs once exactly when asked for, and the LOW findings are the entries' findings in order. |
| PromptChecks.UnknownFindings | src/code_review.py:558-567 | Each unknown technique gives one LOW finding, and every finding names an unknown technique. |
| PromptChecks.CheckTechniques | src/code_review.py:522-569 | Falsy techniques give exactly one HIGH finding. A truthy non-list gives none. A list gives the list findings of `TechniqueListIssues`. |
| PromptChecks.AnalyzePromptDocument | src/code_review.py:153-200 | A non-mapping document fails. A mapping succeeds exactly when its examples can be iterated, and the findings are those of the four checks in order. |
| PromptChecks.DocumentCriticals | src/code_review.py:188-200 | A mapping whose examples can be iterated is analysed without raising, and its CRITICAL findings are as many as its missing required fields. |
| Review.ReadOf | src/code_review.py:116-119 | Only an existing file can be read. |
| Review.StepSeverities | src/code_review.py:121-148 | Only the security step gives CRITICAL findings. Only the LangSmith step gives HIGH findings, and only when the content mentions `langchain` or `langsmith`. |
| Review.PythonSeverities | src/code_review.py:112-151 | A Python file's CRITICAL findings are exactly its security findings. Without a LangChain mention it has no HIGH finding. |
| Review.AnalyzePython | src/code_review.py:112-151 | An unreadable file gives one HIGH read-error finding. A readable one gets as many CRITICAL findings as security findings, and none HIGH unless it mentions LangChain or LangSmith. The LangChain step runs the `hub.pull` guard as written. |
| Review.AnalyzeYaml | src/code_review.py:153-200 | Covers the missing-PyYAML LOW finding, the read error and the CRITICAL syntax finding. A parsed document succeeds exactly when it is a mapping with iterable examples. Its CRITICAL count is its number of missing fields. |
| Review.PromptCriticals | src/code_review.py:188-200 | A successfully analysed document is a mapping, and its CRITICAL findings are its missing required fields. |
| Review.AnalyzeFile | src/code_review.py:80-93 | The path is taken in its normal form `Path(filepath)`. A missing path fails. `.py` files get the Python analysis, `.yml` and `.yaml` files the YAML analysis, and any other suffix no findings; findings name the normalised path. |
| Review.AnalyzeFileNormalForm | src/code_review.py:82-93 | A path and its normal form succeed together and then give the same findings. |
| Review.PythonPass | src/code_review.py:99-102 | The Python pass reports exactly the findings of the globbed files outside `__pycache__`. |
| Review.YamlPass | src/code_review.py:104-108 | A YAML pass succeeds exactly when every file's analysis does, and then reports exactly their findings. |
| Review.PythonPassSingle | src/code_review.py:100-102 | One globbed file contributes its own analysis, or nothing when it lies under `__pycache__`. |
| Review.PythonPassAppend | src/code_review.py:100-102 | The pass over two stretches of the glob is the first stretch's findings followed by the second's. With `PythonPassSingle`, this fixes the findings file by file, in glob order, with every count. |
| Review.YamlPassSingle | src/code_review.py:104-108 | One globbed file gives exactly its own analysis, or its exception. |
| Review.YamlPassAppend | src/code_review.py:104-108 | The pass over two stretches succeeds exactly when both do, and then gives the first stretch's findings followed by the second's. An exception in the first stretch is the one that escapes. |
| Review.AnalyzeDirectory | src/code_review.py:95-110 | A directory succeeds exactly when both YAML passes do. Its findings are the Python pass's, then the `.yml` pass's, then the `.yaml` pass's. |
| Review.ReviewMain | src/code_review.py:657-693 | Exit status 1 when no target is given, when the analysis raises or when the report cannot be written. Otherwise it is the number of CRITICAL findings, so 0 means a successful run with none. |
| Review.PythonFileExitCode | src/code_review.py:675-689 | Reviewing a readable Python file exits with its number of security findings. |
| Review.PromptFileExitCode | src/code_review.py:675-689 | Reviewing a prompt YAML file exits with its number of missing required fields. |
| Utils.MissingFieldCount | src/utils.py:51-53 | Each field is reported missing once per listing when absent, and never when present. |
| Utils.MissingFieldErrorSource | src/utils.py:51-53 | Every missing-field message names a listed field that is absent. |
| Utils.Validate | src/utils.py:38-70 | Succeeds exactly when `system_prompt` is a string and the techniques have a length. Valid exactly when there are no errors, and there are at most five errors. |
| Utils.ValidateGroups | src/utils.py:48-70 | The errors are the missing-field errors, then the system-prompt errors, then the techniques error. |
| Utils.ValidateMissingFields | src/utils.py:51-53 | Each required field is reported once when absent and never when present. |
| Utils.ValidateSystemPrompt | src/utils.py:55-60 | An "empty" error exactly when the prompt is blank. A TODO error exactly when it is not blank and its stripped text contains `TODO`. Never both. |
| Utils.SystemPromptVerdict | src/utils.py:55-60 | The system-prompt step on its own gives its empty or TODO error exactly under those conditions. |
| Utils.ValidateTechniques | src/utils.py:62-68 | A list of at least two techniques gives no techniques error. Anything else gives exactly one, carrying its length. |
| Utils.NoTechniquesError | src/utils.py:48-70 | A missing-field or system-prompt error is never mistaken for a techniques error. |
| Utils.ValidatePromptStructure | src/utils.py:314-326 | The compatibility entry point answers as `PromptValidator.validate`. It raises exactly when the system prompt is not a string or the techniques have no length. Otherwise it calls the prompt valid exactly when every required field is present, the system prompt is neither blank nor holds `TODO`, and at least two techniques are listed. |
| Utils.CheckEnvVars | src/utils.py:140-160 | True exactly when every required variable is set to a non-empty value. |
| Utils.BraceSlice | src/utils.py:204-210 | A slice exists exactly when some `{` comes before some `}`. It runs from the first `{` to the last `}`, with no `{` before it and no `}` after it. |
| Utils.BraceSliceWitness | src/utils.py:205-208 | The guard `start != -1 and end > start` holds exactly when some `{` precedes some `}`. |
| Utils.ExtractJson | src/utils.py:179-215 | Empty text gives nothing. Text that parses whole is returned as parsed. Otherwise, when there is a brace slice, the result is that slice's parse; without one, nothing. |
| Utils.ExtractEmbeddedObject | src/utils.py:204-211 | An object embedded between brace-free prose and a brace-free trailer is extracted as the parse of the object alone. |
| PushPrompts.ValidatePrompt | src/push_prompts.py:78-103 | A non-mapping gives only the "must be a dictionary" error. For a mapping, each absent required key is reported once, and one techniques error appears exactly when the techniques are not a list of two or more. No other message is produced. The prompt is valid exactly when every key is present and there are enough techniques. |
| PushPrompts.PushErrors | src/push_prompts.py:93-103 | Over four distinct keys: at most five errors, each missing key once, the techniques error once exactly when needed, and no other message. |
| ConfigProvider.IsValidIgnoresCase | config_provider.py:40-43 | Validity does not depend on letter case. |
| ConfigProvider.DefaultModels | config_provider.py:45-57 | `google` gets the Gemini model twice. Any other name, including an unknown one, gets `gpt-4o-mini` and `gpt-4o`. |
| ConfigProvider.DefaultModelsCaseSensitive | config_provider.py:45-57 | `Google` is valid but is looked up case-sensitively, so it gets the OpenAI defaults, while its lower-cased form gets Gemini. |
| ConfigProvider.UpdateLines | config_provider.py:104-114 | The rewrite keeps the number of lines. Each line is rewritten as the provider line, the selected provider's key line, or left alone, in that priority. |
| ConfigProvider.RewriteLinesIdempotent | config_provider.py:104-114 | Rewriting an already rewritten file changes nothing. |
| ConfigProvider.UpdateProvider | config_provider.py:85-127 | Fails exactly when the `.env` file is missing. Otherwise it writes as many lines as it read, each rewritten as `UpdateLines` states. |
| ConfigProvider.ConfigMain | config_provider.py:160-194 | Status 1, writing nothing, when there are fewer than two arguments, the provider is invalid, the key is shorter than ten characters or `.env` is missing. Otherwise status 0, writing the rewrite for the lower-cased provider. |
| ConfigProvider.ConfigMainSelectsProvider | config_provider.py:168-190 | On success the provider line is rewritten to the lower-cased provider, and for `openai` a Google key line is left untouched. |
| ConfigProvider.DisplayKey | config_provider.py:134 | A key of at most 25 characters is shown whole. A longer one is shown as its first 25 characters followed by `...`. |
| ConfigProvider.DisplayKeyHidesTail | config_provider.py:134 | Two long keys with the same first 25 characters are displayed identically. |

## Left out

- File reading, writing and globbing: their outcomes are parameters. The order in which `Path.glob` yields files is taken as given.
- The unused-import loop of `_check_imports`: its body is `pass`, so it has no effect on the findings.
- The regular-expression engine: the few patterns used are written out as predicates over characters. `\w` is taken as ASCII letters, digits and `_`. `\s` is the set of characters for which `str.isspace()` holds, Unicode whitespace included.
- Text.Lower: lower-cases ASCII letters only; Unicode case mapping is not modelled.
- Timestamps (`datetime.now()`), emoji, and the exact text layout of `generate_report`: the report is modelled as a summary plus ordered sections.
- The JSON encoder and `json.loads`: the parser is a function parameter, and the report is a datatype of records.
- Logging and printing: they do not affect results.
- Review.ReviewMain: the exit status is the argument given to `sys.exit`. The operating system keeps only its low 8 bits, which is not modelled.
- Utils.Validate: `REQUIRED_FIELDS` is a Python set, so its iteration order is unspecified. The model walks it in a fixed order, and its contracts are stated per field and per count, not per position.
- Utils.Validate: `prompt_data` is taken to be a mapping, as its type annotation says. A non-mapping argument raising on `.get` is not modelled.
- ConfigProvider.UpdateProvider: any failure to read or write `.env`, other than its absence, is not modelled. The I/O error branches return `False` like the missing-file branch.
- PyValue.PyStr: Python's `str()` of a mapping, a float and similar values is rendered approximately. A non-empty mapping prints as `{...}`, without its keys and values, because a Dafny `map` does not keep the insertion order that `str(dict)` follows. This affects the version text, the unknown-technique titles, and which technique entries are recognised (next line).
- Unrecognised: a technique entry that is a mapping is never recognised (lemma `PromptChecks.MappingNeverRecognised`), so it always gets a LOW finding. `_check_techniques` searches `str(tech)`, which holds the mapping's keys and values, so the script recognises an entry such as `{name: ReAct}`. String, boolean and integer entries are searched as the script searches them. A list that holds a mapping inherits the same gap.
- PyValue.Value: the value domain is narrower than what `yaml.safe_load` returns. Mapping keys are strings only, so a mapping such as `{1: a, "1": b}` cannot be written, and `len()` and the per-key findings are not modelled for non-string keys. There is no case for sets (`!!set`) or bytes (`!!binary`). Dates and timestamps are stood in for by `Str` or `Int`.
- `format_score`, `mock_metrics`, `get_llm` and the LangSmith hub push and pull: they are not part of this model.

## Findings

| source | as written | input that shows it | evidently intended | confidence | as-written member | corrected member |
|---|---|---|---|---|---|---|
| src/code_review.py:342 | `"try" not in lines[max(0, i-3):i]` tests list membership, so only a line that is exactly `try` counts as a guard | the lines `from langchain import hub`, `try:` and `    p = hub.pull(name)`: line 3 is reported although it is inside a `try` block | a `hub.pull` is guarded when one of the window's lines contains `try` | not executed | LineChecks.GuardAsWrittenMissesTryBlock | LineChecks.IntendedHubUsageSpec |

=== FILE: config_provider.dfy ===
/** The command-line tool that switches the LLM provider: it checks its
    arguments, rewrites the provider and API-key lines of the `.env` file and
    reports the new configuration with the key shortened. */
module ConfigProvider {
  import opened Wrappers
  import opened Text

  // --------------------------------------------------------------- provider

  /** The values of the `LLMProvider` enumeration. */
  const OpenAI: string := "openai"
  const Google: string := "google"

  /** `LLMProvider.is_valid`: the lower-cased value names a provider. */
  function IsValid(value: string): (r: bool)
    ensures r <==> Lower(value) in [OpenAI, Google]
  {
    var v := Lower(value);
    v == OpenAI || v == Google
  }

  /** Lower-casing twice changes nothing more. */
  lemma LowerIdempotent(s: string)
    ensures Lower(Lower(s)) == Lower(s)
  {
    forall i | 0 <= i < |s|
      ensures Lower(Lower(s))[i] == Lower(s)[i]
    {
      var c := s[i];
      if 'A' <= c <= 'Z' {
        assert !('A' <= LowerChar(c) <= 'Z');
      }
    }
  }

  /** Validity ignores case: a value and its lower-cased form agree. */
  lemma IsValidIgnoresCase(value: string)
    ensures IsValid(value) <==> IsValid(Lower(value))
  {
    LowerIdempotent(value);
  }

  /** Spelling a provider with capitals still names it. */
  lemma CapitalisedProvidersValid()
    ensures IsValid("OpenAI") && IsValid("GOOGLE")
    ensures !IsValid("anthropic") && !IsValid("")
  {
    assert Lower("OpenAI") == OpenAI;
    assert Lower("GOOGLE") == Google;
    assert Lower("anthropic") == "anthropic";
  }

  const DefaultLlmModel: string := "gpt-4o-mini"
  const DefaultEvalModel: string := "gpt-4o"
  const GeminiModel: string := "gemini-2.5-flash"

  /** `LLMProvider.get_default_models`: the (LLM_MODEL, EVAL_MODEL) pair of a
      provider. The lookup is exact, and every name other than "google" falls
      back to the OpenAI pair. */
  function DefaultModels(provider: string): (r: (string, string))
    ensures provider == Google ==> r == (GeminiModel, GeminiModel)
    ensures provider != Google ==> r == (DefaultLlmModel, DefaultEvalModel)
  {
    var models := map[OpenAI := (DefaultLlmModel, DefaultEvalModel), Google := (GeminiModel, GeminiModel)];
    if provider in models then models[provider] else (DefaultLlmModel, DefaultEvalModel)
  }

  /** The Gemini pair is chosen only for the exact lower-case name: the
      lookup is not case-insensitive, unlike `IsValid`. */
  lemma DefaultModelsCaseSensitive()
    ensures IsValid("Google") && DefaultModels("Google") == (DefaultLlmModel, DefaultEvalModel)
    ensures DefaultModels(Lower("Google")) == (GeminiModel, GeminiModel)
  {
    assert Lower("Google") == Google;
  }

  // ------------------------------------------------------------- .env lines

  const ProviderKey: string := "LLM_PROVIDER="
  const OpenAIKey: string := "OPENAI_API_KEY="
  const GoogleKey: string := "GOOGLE_API_KEY="

  /** The line a rewrite writes for a variable: `NAME=value` and a newline. */
  function ProviderLine(provider: string): string {
    ProviderKey + provider + "\n"
  }

  /** The key lines quote the key. */
  function KeyLine(name: string, apiKey: string): string {
    name + "\"" + apiKey + "\"\n"
  }

  /** One step of the rewrite loop of `EnvConfigManager.update_provider`. */
  function RewriteLine(line: string, provider: string, apiKey: string): string {
    if StartsWith(line, ProviderKey) then ProviderLine(provider)
    else if provider == OpenAI && StartsWith(line, OpenAIKey) then KeyLine(OpenAIKey, apiKey)
    else if provider == Google && StartsWith(line, GoogleKey) then KeyLine(GoogleKey, apiKey)
    else line
  }

  /** What the rewrite does to the `i`-th line, case by case. */
  predicate Rewritten(line: string, written: string, provider: string, apiKey: string) {
    var replacesProvider := StartsWith(line, ProviderKey);
    var replacesOpenAI := !replacesProvider && provider == OpenAI && StartsWith(line, OpenAIKey);
    var replacesGoogle := !replacesProvider && provider == Google && StartsWith(line, GoogleKey);
    && (replacesProvider ==> written == ProviderLine(provider))
    && (replacesOpenAI ==> written == KeyLine(OpenAIKey, apiKey))
    && (replacesGoogle ==> written == KeyLine(GoogleKey, apiKey))
    && (!replacesProvider && !replacesOpenAI && !replacesGoogle ==> written == line)
  }

  /** The rewrite loop of `update_provider` over the lines `readlines`
      returned (each still ending in its newline): one line out per line in,
      the provider line and the chosen provider's key line replaced, every
      other line copied. */
  method UpdateLines(lines: seq<string>, provider: string, apiKey: string) returns (written: seq<string>)
    ensures |written| == |lines|
    ensures forall i :: 0 <= i < |lines| ==> Rewritten(lines[i], written[i], provider, apiKey)
    ensures written == RewriteLines(lines, provider, apiKey)
  {
    written := [];
    for k := 0 to |lines|
      invariant |written| == k
      invariant forall i :: 0 <= i < k ==> Rewritten(lines[i], written[i], provider, apiKey)
      invariant forall i :: 0 <= i < k ==> written[i] == RewriteLine(lines[i], provider, apiKey)
    {
      var line := lines[k];
      if StartsWith(line, ProviderKey) {
        written := written + [ProviderLine(provider)];
      } else if provider == OpenAI && StartsWith(line, OpenAIKey) {
        written := written + [KeyLine(OpenAIKey, apiKey)];
      } else if provider == Google && StartsWith(line, GoogleKey) {
        written := written + [KeyLine(GoogleKey, apiKey)];
      } else {
        written := written + [line];
      }
    }
  }

  /** The rewrite as a function, line by line. */
  function RewriteLines(lines: seq<string>, provider: string, apiKey: string): (r: seq<string>)
    ensures |r| == |lines|
    ensures forall i :: 0 <= i < |lines| ==> Rewritten(lines[i], r[i], provider, apiKey)
  {
    seq(|lines|, i requires 0 <= i < |lines| => RewriteLine(lines[i], provider, apiKey))
  }

  /** A rewritten line starts with the variable it sets, so a second rewrite
      with the same arguments leaves it as it is. */
  lemma RewriteLineIdempotent(line: string, provider: string, apiKey: string)
    ensures RewriteLine(RewriteLine(line, provider, apiKey), provider, apiKey) == RewriteLine(line, provider, apiKey)
  {
    var once := RewriteLine(line, provider, apiKey);
    if StartsWith(line, ProviderKey) {
      assert once[..|ProviderKey|] == ProviderKey;
    } else if provider == OpenAI && StartsWith(line, OpenAIKey) {
      assert once[..|OpenAIKey|] == OpenAIKey;
      assert once[0] != ProviderKey[0];
    } else if provider == Google && StartsWith(line, GoogleKey) {
      assert once[..|GoogleKey|] == GoogleKey;
      assert once[0] != ProviderKey[0];
    }
  }

  /** Running the tool twice with the same arguments leaves the file as the
      first run wrote it. */
  lemma RewriteLinesIdempotent(lines: seq<string>, provider: string, apiKey: string)
    ensures RewriteLines(RewriteLines(lines, provider, apiKey), provider, apiKey) == RewriteLines(lines, provider, apiKey)
  {
    var once := RewriteLines(lines, provider, apiKey);
    forall i | 0 <= i < |lines|
      ensures RewriteLines(once, provider, apiKey)[i] == once[i]
    {
      RewriteLineIdempotent(lines[i], provider, apiKey);
    }
  }

  /** `update_provider`: false when the `.env` file does not exist, otherwise
      the rewritten lines. Read and write errors are not modelled. */
  function UpdateProvider(envFile: Option<seq<string>>, provider: string, apiKey: string): (r: Option<seq<string>>)
    ensures r.Some? <==> envFile.Some?
    ensures r.Some? ==> |r.value| == |envFile.value|
    ensures r.Some? ==> forall i :: 0 <= i < |r.value| ==> Rewritten(envFile.value[i], r.value[i], provider, apiKey)
  {
    match envFile
    case None => None
    case Some(lines) => Some(RewriteLines(lines, provider, apiKey))
  }

  // ------------------------------------------------------------------ main

  /** The shortest API key accepted. */
  const MinKeyLength: nat := 10

  /** `main`: the exit status and the new contents of `.env`, if it was
      written. `argv` includes the program name. */
  function ConfigMain(argv: seq<string>, envFile: Option<seq<string>>): (r: (nat, Option<seq<string>>))
    ensures |argv| < 3 ==> r == (1, None)
    ensures |argv| >= 3 && !IsValid(argv[1]) ==> r == (1, None)
    ensures |argv| >= 3 && |argv[2]| < MinKeyLength ==> r == (1, None)
    ensures envFile.None? ==> r == (1, None)
    ensures r.0 == 0 <==> |argv| >= 3 && IsValid(argv[1]) && |argv[2]| >= MinKeyLength && envFile.Some?
    ensures r.0 == 0 ==> r.1 == UpdateProvider(envFile, Lower(argv[1]), argv[2])
    ensures r.0 != 0 ==> r.0 == 1 && r.1.None?
  {
    if |argv| < 3 then (1, None)
    else
      var provider := Lower(argv[1]);
      var apiKey := argv[2];
      IsValidIgnoresCase(argv[1]);
      if !IsValid(provider) then (1, None)
      else if |apiKey| == 0 || |apiKey| < MinKeyLength then (1, None)
      else
        match UpdateProvider(envFile, provider, apiKey)
        case None => (1, None)
        case Some(written) => (0, Some(written))
  }

  /** A successful run selects the lower-cased provider in `.env` and sets
      that provider's key, leaving the other provider's key line alone. */
  lemma ConfigMainSelectsProvider(argv: seq<string>, envFile: Option<seq<string>>, i: nat)
    requires ConfigMain(argv, envFile).0 == 0
    requires i < |envFile.value|
    ensures |argv| >= 3 && Lower(argv[1]) in [OpenAI, Google]
    ensures var written := ConfigMain(argv, envFile).1.value;
      |written| == |envFile.value|
      && (StartsWith(envFile.value[i], ProviderKey) ==> written[i] == ProviderLine(Lower(argv[1])))
      && (Lower(argv[1]) == OpenAI && !StartsWith(envFile.value[i], ProviderKey) && StartsWith(envFile.value[i], GoogleKey) ==>
            written[i] == envFile.value[i])
  {
    var written := ConfigMain(argv, envFile).1.value;
    assert Rewritten(envFile.value[i], written[i], Lower(argv[1]), argv[2]);
    if StartsWith(envFile.value[i], GoogleKey) {
      assert envFile.value[i][0] != OpenAIKey[0];
    }
  }

  // --------------------------------------------------------------- display

  /** The longest prefix of the key the success message shows. */
  const ShownKeyLength: nat := 25

  /** The key as `display_success` prints it: keys longer than 25 characters
      are cut to their first 25 and marked with "...". */
  function DisplayKey(apiKey: string): (r: string)
    ensures |r| <= ShownKeyLength + 3
    ensures |apiKey| <= ShownKeyLength ==> r == apiKey
    ensures |apiKey| > ShownKeyLength ==>
      |r| == ShownKeyLength + 3 && r[..ShownKeyLength] == apiKey[..ShownKeyLength] && EndsWith(r, "...")
  {
    if |apiKey| > ShownKeyLength then apiKey[..ShownKeyLength] + "..." else apiKey
  }

  /** Nothing after the 25th character of a long key reaches the output:
      two long keys that share their first 25 characters display alike. */
  lemma DisplayKeyHidesTail(a: string, b: string)
    requires |a| > ShownKeyLength && |b| > ShownKeyLength
    requires a[..ShownKeyLength] == b[..ShownKeyLength]
    ensures DisplayKey(a) == DisplayKey(b)
  {
    var ra, rb := DisplayKey(a), DisplayKey(b);
    assert ra[ShownKeyLength..] == "..." == rb[ShownKeyLength..];
    assert ra == ra[..ShownKeyLength] + ra[ShownKeyLength..];
    assert rb == rb[..ShownKeyLength] + rb[ShownKeyLength..];
  }
}

=== FILE: docstrings.dfy ===
/** The docstring check of the Python analysis. It walks the lines once,
    remembering the last `def`/`class` line seen and whether a triple-quote
    marker appeared after it; a definition is reported only when the NEXT
    definition line is reached without such a marker. The reference
    predicate `Undocumented` states that outcome directly, and
    `DocScanMatchesReference` shows the walk computes exactly it. */
module Docstrings {
  import opened Wrappers
  import opened Text
  import opened Issues

  /** `re.match(r'^\s*(def|class) ', line)` */
  predicate IsDefinition(line: string) {
    var t := line[SkipSpaces(line, 0)..];
    StartsWith(t, "def ") || StartsWith(t, "class ")
  }

  /** The line holds a `"""` or `'''` marker. */
  predicate HasDocMarker(line: string) {
    Contains(line, "\"\"\"") || Contains(line, "'''")
  }

  /** What the walk looks at on one line. */
  datatype LineKind = LineKind(definition: bool, marker: bool, mentionsTest: bool)

  function Classify(line: string): LineKind {
    LineKind(IsDefinition(line), HasDocMarker(line), Contains(line, "test_"))
  }

  /** The lines of a file, classified. */
  function Kinds(lines: seq<string>): (ks: seq<LineKind>)
    ensures |ks| == |lines|
    ensures forall k :: 0 <= k < |lines| ==> ks[k] == Classify(lines[k])
  {
    seq(|lines|, k requires 0 <= k < |lines| => Classify(lines[k]))
  }

  /** The walk's state: before any definition, or after the definition on
      (0-based) line `defLine`, with or without a marker since. */
  datatype DocState = Idle | InDef(defLine: nat, hasDoc: bool)

  /** The loop of `_check_docstrings` from line `i` on; returns the 0-based
      lines of the reported definitions. */
  function DocScan(ks: seq<LineKind>, i: nat, st: DocState): seq<nat>
    requires i <= |ks|
    decreases |ks| - i
  {
    if i == |ks| then []
    else if ks[i].definition then
      var report := st.InDef? && !st.hasDoc && !ks[i].mentionsTest;
      (if report then [st.defLine] else []) + DocScan(ks, i + 1, InDef(i, false))
    else
      var st' := if st.InDef? && ks[i].marker then st.(hasDoc := true) else st;
      DocScan(ks, i + 1, st')
  }

  /** Line `e` is the first definition after line `d`. */
  predicate NextDefinition(ks: seq<LineKind>, d: nat, e: nat) {
    && d < e < |ks|
    && ks[e].definition
    && forall m :: d < m < e ==> !ks[m].definition
  }

  /** Reference: the definition on line `d` is followed by another definition
      line that does not mention `test_`, with no docstring marker between. */
  predicate Undocumented(ks: seq<LineKind>, d: nat) {
    && d < |ks|
    && ks[d].definition
    && exists e :: d < e < |ks| && NextDefinition(ks, d, e) && !ks[e].mentionsTest
         && forall m :: d < m < e ==> !ks[m].marker
  }

  /** The undocumented definitions at or after line `i`, in line order. */
  function UndocumentedFrom(ks: seq<LineKind>, i: nat): seq<nat>
    requires i <= |ks|
    decreases |ks| - i
  {
    if i == |ks| then []
    else (if Undocumented(ks, i) then [i] else []) + UndocumentedFrom(ks, i + 1)
  }

  predicate Increasing(r: seq<nat>) {
    forall j, j' :: 0 <= j < j' < |r| ==> r[j] < r[j']
  }

  /** The reference selection holds exactly the undocumented definitions from
      line `i` on. */
  lemma {:induction false} UndocumentedFromMembers(ks: seq<LineKind>, i: nat)
    requires i <= |ks|
    ensures forall d :: d in UndocumentedFrom(ks, i) <==> i <= d && Undocumented(ks, d)
    decreases |ks| - i
  {
    if i < |ks| {
      UndocumentedFromMembers(ks, i + 1);
      var here := if Undocumented(ks, i) then [i] else [];
      var rest := UndocumentedFrom(ks, i + 1);
      assert UndocumentedFrom(ks, i) == here + rest;
      forall d
        ensures d in UndocumentedFrom(ks, i) <==> i <= d && Undocumented(ks, d)
      {
        assert d in here + rest <==> d in here || d in rest;
      }
    }
  }

  /** The reference selection is in strictly increasing line order. */
  lemma {:induction false} UndocumentedFromIncreasing(ks: seq<LineKind>, i: nat)
    requires i <= |ks|
    ensures Increasing(UndocumentedFrom(ks, i))
    decreases |ks| - i
  {
    if i < |ks| {
      UndocumentedFromIncreasing(ks, i + 1);
      UndocumentedFromMembers(ks, i + 1);
      var here := if Undocumented(ks, i) then [i] else [];
      var rest := UndocumentedFrom(ks, i + 1);
      var r := UndocumentedFrom(ks, i);
      assert r == here + rest;
      forall j, j' | 0 <= j < j' < |r|
        ensures r[j] < r[j']
      {
        if j < |here| {
          var x := rest[j' - |here|];
          assert r[j] == i && r[j'] == x;
          assert x in rest;
        } else {
          assert r[j] == rest[j - |here|] && r[j'] == rest[j' - |here|];
          assert 0 <= j - |here| < j' - |here| < |rest|;
        }
      }
    }
  }

  /** Both facts about the reference selection from line `i` on. */
  lemma UndocumentedFromSpec(ks: seq<LineKind>, i: nat)
    requires i <= |ks|
    ensures forall d :: d in UndocumentedFrom(ks, i) <==> i <= d && Undocumented(ks, d)
    ensures Increasing(UndocumentedFrom(ks, i))
  {
    UndocumentedFromMembers(ks, i);
    UndocumentedFromIncreasing(ks, i);
  }

  /** What the walk's state promises about the lines before `i`. */
  predicate StateInvariant(ks: seq<LineKind>, i: nat, st: DocState) {
    && i <= |ks|
    && match st
       case Idle => forall m :: 0 <= m < i ==> !ks[m].definition
       case InDef(d, hasDoc) =>
         && d < i
         && ks[d].definition
         && (forall m :: d < m < i ==> !ks[m].definition)
         && (hasDoc <==> exists m :: d < m < i && ks[m].marker)
  }

  /** What the walk should report from line `i` on in state `st`: the pending
      definition if it is undocumented, then the reference's definitions. */
  function PendingThenReference(ks: seq<LineKind>, i: nat, st: DocState): seq<nat>
    requires i <= |ks|
  {
    (if st.InDef? && Undocumented(ks, st.defLine) then [st.defLine] else []) + UndocumentedFrom(ks, i)
  }

  /** At the end of the file the pending definition has no successor. */
  lemma PendingAtEnd(ks: seq<LineKind>, st: DocState)
    requires StateInvariant(ks, |ks|, st) && st.InDef?
    ensures !Undocumented(ks, st.defLine)
  {
  }

  /** Reaching the next definition decides the pending one. */
  lemma PendingAtDefinition(ks: seq<LineKind>, i: nat, st: DocState)
    requires i < |ks| && ks[i].definition
    requires StateInvariant(ks, i, st) && st.InDef?
    ensures Undocumented(ks, st.defLine) <==> !st.hasDoc && !ks[i].mentionsTest
  {
    var d := st.defLine;
    assert NextDefinition(ks, d, i);
    if Undocumented(ks, d) {
      var e: nat :| d < e < |ks| && NextDefinition(ks, d, e) && !ks[e].mentionsTest
        && forall m :: d < m < e ==> !ks[m].marker;
      assert e == i;
    }
  }

  /** A line that is not a definition keeps the state's promise one line further. */
  lemma StateStep(ks: seq<LineKind>, i: nat, st: DocState)
    requires i < |ks| && !ks[i].definition
    requires StateInvariant(ks, i, st)
    ensures StateInvariant(ks, i + 1, if st.InDef? && ks[i].marker then st.(hasDoc := true) else st)
  {
  }

  /** A definition line starts a fresh state. */
  lemma StateAtDefinition(ks: seq<LineKind>, i: nat)
    requires i < |ks| && ks[i].definition
    ensures StateInvariant(ks, i + 1, InDef(i, false))
  {
  }

  /** One step of the walk on a definition line. */
  lemma ScanAtDefinition(ks: seq<LineKind>, i: nat, st: DocState)
    requires i < |ks| && ks[i].definition
    ensures DocScan(ks, i, st) ==
      (if st.InDef? && !st.hasDoc && !ks[i].mentionsTest then [st.defLine] else []) + DocScan(ks, i + 1, InDef(i, false))
  {
  }

  /** On a definition line the reference, seen from the next line with that
      definition pending, is the reference from this line. */
  lemma ReferenceUnfold(ks: seq<LineKind>, i: nat)
    requires i < |ks|
    ensures PendingThenReference(ks, i + 1, InDef(i, false)) == UndocumentedFrom(ks, i)
  {
  }

  /** One step of the reference on a definition line, given the verdict on
      the pending definition. */
  lemma ReferenceAtDefinition(ks: seq<LineKind>, i: nat, st: DocState)
    requires i < |ks| && ks[i].definition
    requires st.InDef? ==> (Undocumented(ks, st.defLine) <==> !st.hasDoc && !ks[i].mentionsTest)
    ensures PendingThenReference(ks, i, st) ==
      (if st.InDef? && !st.hasDoc && !ks[i].mentionsTest then [st.defLine] else []) + PendingThenReference(ks, i + 1, InDef(i, false))
  {
    ReferenceUnfold(ks, i);
  }

  /** On any other line the reference is unchanged by the state's marker bit. */
  lemma ReferenceAtOther(ks: seq<LineKind>, i: nat, st: DocState, st': DocState)
    requires i < |ks| && !ks[i].definition
    requires st'.InDef? == st.InDef? && (st.InDef? ==> st'.defLine == st.defLine)
    ensures PendingThenReference(ks, i, st) == PendingThenReference(ks, i + 1, st')
  {
    assert UndocumentedFrom(ks, i) == UndocumentedFrom(ks, i + 1);
  }

  /** The walk reports the pending definition if the reference calls it
      undocumented, then exactly the reference's definitions after it. */
  lemma {:induction false} DocScanFrom(ks: seq<LineKind>, i: nat, st: DocState)
    requires StateInvariant(ks, i, st)
    ensures DocScan(ks, i, st) == PendingThenReference(ks, i, st)
    decreases |ks| - i, 1
  {
    if i == |ks| {
      if st.InDef? {
        PendingAtEnd(ks, st);
      }
    } else if ks[i].definition {
      DocScanFromDefinition(ks, i, st);
    } else {
      DocScanFromOther(ks, i, st);
    }
  }

  /** `DocScanFrom` on a definition line. */
  lemma {:induction false} DocScanFromDefinition(ks: seq<LineKind>, i: nat, st: DocState)
    requires i < |ks| && ks[i].definition
    requires StateInvariant(ks, i, st)
    ensures DocScan(ks, i, st) == PendingThenReference(ks, i, st)
    decreases |ks| - i, 0
  {
    StateAtDefinition(ks, i);
    DocScanFrom(ks, i + 1, InDef(i, false));
    if st.InDef? {
      PendingAtDefinition(ks, i, st);
    }
    ScanAtDefinition(ks, i, st);
    ReferenceAtDefinition(ks, i, st);
  }

  /** `DocScanFrom` on any other line. */
  lemma {:induction false} DocScanFromOther(ks: seq<LineKind>, i: nat, st: DocState)
    requires i < |ks| && !ks[i].definition
    requires StateInvariant(ks, i, st)
    ensures DocScan(ks, i, st) == PendingThenReference(ks, i, st)
    decreases |ks| - i, 0
  {
    var st' := if st.InDef? && ks[i].marker then st.(hasDoc := true) else st;
    StateStep(ks, i, st);
    DocScanFrom(ks, i + 1, st');
    ReferenceAtOther(ks, i, st, st');
  }

  /** `_check_docstrings` reports exactly the undocumented definitions, in line order. */
  lemma DocScanMatchesReference(ks: seq<LineKind>)
    ensures DocScan(ks, 0, Idle) == UndocumentedFrom(ks, 0)
  {
    DocScanFrom(ks, 0, Idle);
  }

  /** A definition is reported only once a later definition is seen, so the
      last definition of a file is never reported. */
  lemma LastDefinitionNeverReported(lines: seq<string>, d: nat)
    requires d < |lines|
    requires forall m :: d < m < |lines| ==> !IsDefinition(lines[m])
    ensures d !in DocScan(Kinds(lines), 0, Idle)
  {
    var ks := Kinds(lines);
    DocScanMatchesReference(ks);
    UndocumentedFromSpec(ks, 0);
  }

  function MissingDocstringIssue(path: string, d: nat): Issue {
    Issue(Medium, "Documentation", path, Some(d + 1),
      "Docstring ausente",
      "Função/classe sem documentação",
      "Adicionar docstring no formato Google/NumPy",
      "")
  }

  /** The findings for a classified file, with reported lines 1-based. */
  function Findings(path: string, ks: seq<LineKind>): (r: seq<Issue>)
    ensures |r| == |DocScan(ks, 0, Idle)|
  {
    var ds := DocScan(ks, 0, Idle);
    seq(|ds|, j requires 0 <= j < |ds| => MissingDocstringIssue(path, ds[j]))
  }

  /** `_check_docstrings`. */
  function CheckDocstrings(path: string, lines: seq<string>): seq<Issue> {
    Findings(path, Kinds(lines))
  }

  /** A reported finding names a definition the reference calls undocumented. */
  lemma DocstringFinding(path: string, ks: seq<LineKind>, j: nat)
    requires j < |Findings(path, ks)|
    ensures var x := Findings(path, ks)[j];
      && x.severity == Medium
      && exists d, e :: x == MissingDocstringIssue(path, d) && Undocumented(ks, d)
           && NextDefinition(ks, d, e) && d < e
  {
    var ds := DocScan(ks, 0, Idle);
    DocScanMatchesReference(ks);
    UndocumentedFromSpec(ks, 0);
    assert ds[j] in ds;
    var d := ds[j];
    var e: nat :| d < e < |ks| && NextDefinition(ks, d, e) && !ks[e].mentionsTest
      && forall m :: d < m < e ==> !ks[m].marker;
    assert Findings(path, ks)[j] == MissingDocstringIssue(path, d);
  }

  /** An undocumented definition is reported. */
  lemma DocstringReported(path: string, ks: seq<LineKind>, d: nat)
    requires Undocumented(ks, d)
    ensures MissingDocstringIssue(path, d) in Findings(path, ks)
  {
    var ds := DocScan(ks, 0, Idle);
    DocScanMatchesReference(ks);
    UndocumentedFromSpec(ks, 0);
    assert d in ds;
    var j :| 0 <= j < |ds| && ds[j] == d;
    assert Findings(path, ks)[j] == MissingDocstringIssue(path, d);
  }

  /** Findings come in strictly increasing line order. */
  lemma FindingsIncreasing(path: string, ks: seq<LineKind>)
    ensures var r := Findings(path, ks);
      forall j, j' :: 0 <= j < j' < |r| ==> r[j].line.value < r[j'].line.value
  {
    DocScanMatchesReference(ks);
    UndocumentedFromSpec(ks, 0);
  }

  /** Each finding names an undocumented definition by the line of its
      `def`/`class`, which lies before the line that triggered it; every
      undocumented definition is reported, once, in line order. */
  lemma DocstringsSpec(path: string, lines: seq<string>)
    ensures var r := CheckDocstrings(path, lines);
      && (forall j :: 0 <= j < |r| ==>
            && r[j].severity == Medium
            && exists d, e :: r[j] == MissingDocstringIssue(path, d) && Undocumented(Kinds(lines), d)
                 && NextDefinition(Kinds(lines), d, e) && d < e)
      && (forall j, j' :: 0 <= j < j' < |r| ==> r[j].line.value < r[j'].line.value)
      && (forall d :: Undocumented(Kinds(lines), d) ==> MissingDocstringIssue(path, d) in r)
  {
    var ks := Kinds(lines);
    var r := Findings(path, ks);
    FindingsIncreasing(path, ks);
    forall j | 0 <= j < |r|
      ensures && r[j].severity == Medium
              && exists d, e :: r[j] == MissingDocstringIssue(path, d) && Undocumented(ks, d)
                   && NextDefinition(ks, d, e) && d < e
    {
      DocstringFinding(path, ks, j);
    }
    forall d | Undocumented(ks, d)
      ensures MissingDocstringIssue(path, d) in r
    {
      DocstringReported(path, ks, d);
    }
  }
}

=== FILE: imports.dfy ===
/** The import-order check of the Python analysis: import statements should
    come standard library first, then third-party packages, then local
    relative imports. The file's imports are split into those three groups
    in their original order, and the file is reported once when putting the
    groups back together does not give the original sequence. */
module ImportOrder {
  import opened Wrappers
  import opened Text
  import opened Issues

  /** A line whose stripped text starts with `import ` or `from `. */
  predicate IsImportLine(line: string) {
    var t := Strip(line);
    StartsWith(t, "import ") || StartsWith(t, "from ")
  }

  /** The import statements of the file, in order. */
  function ImportLines(lines: seq<string>): (r: seq<string>)
    ensures |r| <= |lines|
    ensures forall l :: l in r <==> l in lines && IsImportLine(l)
  {
    if |lines| == 0 then []
    else (if IsImportLine(lines[0]) then [lines[0]] else []) + ImportLines(lines[1..])
  }

  /** Each import statement is collected as often as it occurs, and no other line. */
  lemma {:induction false} ImportLinesMultiplicity(lines: seq<string>, l: string)
    ensures multiset(ImportLines(lines))[l] == if IsImportLine(l) then multiset(lines)[l] else 0
  {
    if |lines| > 0 {
      var h := if IsImportLine(lines[0]) then [lines[0]] else [];
      HeadMultiset(lines);
      ConcatMultiset(h, ImportLines(lines[1..]));
      ImportLinesMultiplicity(lines[1..], l);
    }
  }

  /** Collecting the imports keeps their order: the imports of two stretches
      of the file are those of the first followed by those of the second. */
  lemma {:induction false} ImportLinesAppend(a: seq<string>, b: seq<string>)
    ensures ImportLines(a + b) == ImportLines(a) + ImportLines(b)
  {
    if |a| == 0 {
      assert a + b == b;
    } else {
      var h := if IsImportLine(a[0]) then [a[0]] else [];
      assert (a + b)[0] == a[0] && (a + b)[1..] == a[1..] + b;
      ImportLinesAppend(a[1..], b);
      ConcatAssoc(h, ImportLines(a[1..]), ImportLines(b));
    }
  }

  /** A single line is collected exactly when it is an import. */
  lemma ImportLinesSingle(line: string)
    ensures ImportLines([line]) == if IsImportLine(line) then [line] else []
  {
    assert [line][1..] == [];
  }

  /** Where an import comes from. */
  datatype Origin = StdLib | ThirdParty | LocalPackage

  /** Relative imports are local; a line naming one of the four known SDKs is
      third-party; everything else is taken to be the standard library. */
  function OriginOf(line: string): Origin {
    if Contains(line, "from . import") || Contains(line, "from ..") then LocalPackage
    else if Contains(line, "langchain") || Contains(line, "langsmith")
         || Contains(line, "openai") || Contains(line, "google") then ThirdParty
    else StdLib
  }

  /** Position of a group in the expected order. */
  function GroupRank(o: Origin): nat {
    match o
    case StdLib => 0
    case ThirdParty => 1
    case LocalPackage => 2
  }

  /** The imports of one origin, in their original order. */
  function OfOrigin(imports: seq<string>, o: Origin): (r: seq<string>)
    ensures |r| <= |imports|
    ensures forall l :: l in r <==> l in imports && OriginOf(l) == o
  {
    if |imports| == 0 then []
    else (if OriginOf(imports[0]) == o then [imports[0]] else []) + OfOrigin(imports[1..], o)
  }

  /** `std_imports + third_party + local_imports` */
  function Grouped(imports: seq<string>): seq<string> {
    OfOrigin(imports, StdLib) + OfOrigin(imports, ThirdParty) + OfOrigin(imports, LocalPackage)
  }

  /** No import is followed by one of an earlier group. */
  predicate Ordered(imports: seq<string>) {
    forall i, j :: 0 <= i < j < |imports| ==> GroupRank(OriginOf(imports[i])) <= GroupRank(OriginOf(imports[j]))
  }

  /** Selecting by origin keeps every occurrence of a matching line. */
  lemma {:induction false} OfOriginMultiplicity(imports: seq<string>, o: Origin, l: string)
    ensures multiset(OfOrigin(imports, o))[l] == if OriginOf(l) == o then multiset(imports)[l] else 0
  {
    if |imports| > 0 {
      OfOriginMultiplicity(imports[1..], o, l);
      assert imports == [imports[0]] + imports[1..];
    }
  }

  /** Grouping only reorders: the groups hold exactly the file's imports. */
  lemma GroupedIsPermutation(imports: seq<string>)
    ensures multiset(Grouped(imports)) == multiset(imports)
  {
    forall l | true
      ensures multiset(Grouped(imports))[l] == multiset(imports)[l]
    {
      OfOriginMultiplicity(imports, StdLib, l);
      OfOriginMultiplicity(imports, ThirdParty, l);
      OfOriginMultiplicity(imports, LocalPackage, l);
    }
  }

  /** A selection with no matching line is empty. */
  lemma OfOriginEmpty(imports: seq<string>, o: Origin)
    requires forall l :: l in imports ==> OriginOf(l) != o
    ensures OfOrigin(imports, o) == []
  {
  }

  /** The grouped sequence is always in order. */
  lemma GroupedIsOrdered(imports: seq<string>)
    ensures Ordered(Grouped(imports))
  {
    var a := OfOrigin(imports, StdLib);
    var b := OfOrigin(imports, ThirdParty);
    var c := OfOrigin(imports, LocalPackage);
    var g := Grouped(imports);
    forall i | 0 <= i < |g|
      ensures GroupRank(OriginOf(g[i])) == if i < |a| then 0 else if i < |a| + |b| then 1 else 2
    {
      if i < |a| {
        assert g[i] == a[i] && a[i] in a;
      } else if i < |a| + |b| {
        assert g[i] == b[i - |a|] && b[i - |a|] in b;
      } else {
        assert g[i] == c[i - |a| - |b|] && c[i - |a| - |b|] in c;
      }
    }
  }

  /** The tail of an ordered sequence is ordered, and its head ranks no
      higher than anything after it. */
  lemma OrderedSplit(imports: seq<string>)
    requires Ordered(imports) && |imports| > 0
    ensures Ordered(imports[1..])
    ensures forall l :: l in imports[1..] ==> GroupRank(OriginOf(imports[0])) <= GroupRank(OriginOf(l))
  {
    var t := imports[1..];
    forall i, j | 0 <= i < j < |t|
      ensures GroupRank(OriginOf(t[i])) <= GroupRank(OriginOf(t[j]))
    {
      assert t[i] == imports[i + 1] && t[j] == imports[j + 1];
    }
    forall l | l in t
      ensures GroupRank(OriginOf(imports[0])) <= GroupRank(OriginOf(l))
    {
      var j :| 0 <= j < |t| && t[j] == l;
      assert imports[j + 1] == l;
    }
  }

  /** Selection on a non-empty sequence, one element at a time. */
  lemma OfOriginHead(imports: seq<string>, o: Origin)
    requires |imports| > 0
    ensures OfOrigin(imports, o) == (if OriginOf(imports[0]) == o then [imports[0]] else []) + OfOrigin(imports[1..], o)
  {
  }

  /** An ordered sequence is left unchanged by grouping. */
  lemma {:induction false} OrderedIsGrouped(imports: seq<string>)
    requires Ordered(imports)
    ensures Grouped(imports) == imports
  {
    if |imports| > 0 {
      var h := imports[0];
      var t := imports[1..];
      OrderedSplit(imports);
      OrderedIsGrouped(t);
      var a := OfOrigin(t, StdLib);
      var b := OfOrigin(t, ThirdParty);
      var c := OfOrigin(t, LocalPackage);
      assert a + b + c == t;
      assert imports == [h] + t;
      var sa := OfOrigin(imports, StdLib);
      var sb := OfOrigin(imports, ThirdParty);
      var sc := OfOrigin(imports, LocalPackage);
      OfOriginHead(imports, StdLib);
      OfOriginHead(imports, ThirdParty);
      OfOriginHead(imports, LocalPackage);
      assert Grouped(imports) == sa + sb + sc;
      var o := OriginOf(h);
      if o == StdLib {
        assert sa == [h] + a && sb == b && sc == c;
        ConsAssoc(h, a, b, c);
      } else if o == ThirdParty {
        OfOriginEmpty(t, StdLib);
        assert sa == [] && sb == [h] + b && sc == c;
        ConsAssoc(h, a, b, c);
      } else {
        OfOriginEmpty(t, StdLib);
        OfOriginEmpty(t, ThirdParty);
        assert sa == [] && sb == [] && sc == [h] + c;
        ConsAssoc(h, a, b, c);
      }
    }
  }

  /** Prepending one element to the first non-empty of three parts. */
  lemma ConsAssoc(h: string, a: seq<string>, b: seq<string>, c: seq<string>)
    ensures ([h] + a) + b + c == [h] + (a + b + c)
    ensures a == [] ==> a + ([h] + b) + c == [h] + (a + b + c)
    ensures a == [] && b == [] ==> a + b + ([h] + c) == [h] + (a + b + c)
  {
  }

  /** Grouping reproduces the imports exactly when they are already in order. */
  lemma GroupedIffOrdered(imports: seq<string>)
    ensures Grouped(imports) == imports <==> Ordered(imports)
  {
    if Ordered(imports) {
      OrderedIsGrouped(imports);
    } else {
      GroupedIsOrdered(imports);
    }
  }

  function UnorderedImportsIssue(path: string): Issue {
    Issue(Low, "Code Style", path, None,
      "Imports não organizados",
      "Imports devem estar na ordem: stdlib → third-party → local",
      "Reorganizar imports seguindo padrão PEP 8",
      "")
  }

  /** `_check_imports`: one LOW whole-file finding exactly when the import
      statements are out of order; a file without imports is in order. */
  function CheckImports(path: string, lines: seq<string>): (r: seq<Issue>)
    ensures r == [] <==> Ordered(ImportLines(lines))
    ensures r != [] ==> r == [UnorderedImportsIssue(path)]
    ensures (forall l :: l in lines ==> !IsImportLine(l)) ==> r == []
  {
    var imports := ImportLines(lines);
    GroupedIffOrdered(imports);
    if Grouped(imports) == imports then [] else [UnorderedImportsIssue(path)]
  }
}

=== FILE: issues.dfy ===
/** The review's issue model: the `ReviewPriority` ranking and the
    `ReviewIssue` record, with per-severity selection and counting. */
module Issues {
  import opened Wrappers

  /** `ReviewPriority`, most severe first. */
  datatype Severity = Critical | High | Medium | Low | Suggestion

  /** Position in the CRITICAL-to-SUGGESTION order; 0 is the most severe. */
  function Rank(s: Severity): (r: nat)
    ensures r < 5
  {
    match s
    case Critical => 0
    case High => 1
    case Medium => 2
    case Low => 3
    case Suggestion => 4
  }

  /** The enumeration's value, as written into the JSON report. */
  function Label(s: Severity): string {
    match s
    case Critical => "🔴 CRITICAL"
    case High => "🟠 HIGH"
    case Medium => "🟡 MEDIUM"
    case Low => "🟢 LOW"
    case Suggestion => "💡 SUGGESTION"
  }

  /** The order in which reports list severities. */
  const SeverityOrder: seq<Severity> := [Critical, High, Medium, Low, Suggestion]

  /** The report order lists each severity once, at the position given by its rank,
      so ranking is a strict total order on severities. */
  lemma SeverityOrderIsRanking()
    ensures |SeverityOrder| == 5
    ensures forall i :: 0 <= i < 5 ==> Rank(SeverityOrder[i]) == i
    ensures forall s: Severity :: SeverityOrder[Rank(s)] == s
    ensures forall s, t: Severity :: Rank(s) == Rank(t) ==> s == t
  {
  }

  /** `ReviewIssue`: one finding. `line` is absent for whole-document findings. */
  datatype Issue = Issue(
    severity: Severity,
    category: string,
    file: string,
    line: Option<nat>,
    title: string,
    description: string,
    suggestion: string,
    snippet: string)

  /** `[i for i in issues if i.priority == s]` */
  function OfSeverity(issues: seq<Issue>, s: Severity): (r: seq<Issue>)
    ensures |r| <= |issues|
  {
    if |issues| == 0 then []
    else (if issues[0].severity == s then [issues[0]] else []) + OfSeverity(issues[1..], s)
  }

  /** Selection keeps exactly the issues of severity `s`. */
  lemma {:induction false} OfSeverityMembers(issues: seq<Issue>, s: Severity)
    ensures forall x :: x in OfSeverity(issues, s) <==> x in issues && x.severity == s
  {
    if |issues| > 0 {
      OfSeverityMembers(issues[1..], s);
      assert issues == [issues[0]] + issues[1..];
    }
  }

  /** How many issues carry severity `s`. */
  function Count(issues: seq<Issue>, s: Severity): nat {
    |OfSeverity(issues, s)|
  }

  /** Selection distributes over concatenation, so counts add up across files and checks. */
  lemma {:induction false} OfSeverityAppend(a: seq<Issue>, b: seq<Issue>, s: Severity)
    ensures OfSeverity(a + b, s) == OfSeverity(a, s) + OfSeverity(b, s)
    ensures Count(a + b, s) == Count(a, s) + Count(b, s)
  {
    if |a| == 0 {
      assert a + b == b;
    } else {
      var head := if a[0].severity == s then [a[0]] else [];
      calc {
        OfSeverity(a + b, s);
      == { assert (a + b)[0] == a[0]; assert (a + b)[1..] == a[1..] + b; }
        head + OfSeverity(a[1..] + b, s);
      == { OfSeverityAppend(a[1..], b, s); }
        head + (OfSeverity(a[1..], s) + OfSeverity(b, s));
      ==
        (head + OfSeverity(a[1..], s)) + OfSeverity(b, s);
      }
    }
  }

  /** Selection keeps every occurrence of a matching issue and nothing else. */
  lemma {:induction false} OfSeverityMultiplicity(issues: seq<Issue>, s: Severity, x: Issue)
    ensures multiset(OfSeverity(issues, s))[x] == if x.severity == s then multiset(issues)[x] else 0
  {
    if |issues| > 0 {
      OfSeverityMultiplicity(issues[1..], s, x);
      assert issues == [issues[0]] + issues[1..];
    }
  }

  /** Selecting by each severity splits the issue sequence into five parts
      that together hold every issue exactly as often as it occurs. */
  lemma SeverityPartition(issues: seq<Issue>)
    ensures multiset(issues) ==
      multiset(OfSeverity(issues, Critical)) + multiset(OfSeverity(issues, High))
      + multiset(OfSeverity(issues, Medium)) + multiset(OfSeverity(issues, Low))
      + multiset(OfSeverity(issues, Suggestion))
  {
    var parts :=
      multiset(OfSeverity(issues, Critical)) + multiset(OfSeverity(issues, High))
      + multiset(OfSeverity(issues, Medium)) + multiset(OfSeverity(issues, Low))
      + multiset(OfSeverity(issues, Suggestion));
    forall x | true
      ensures multiset(issues)[x] == parts[x]
    {
      OfSeverityMultiplicity(issues, Critical, x);
      OfSeverityMultiplicity(issues, High, x);
      OfSeverityMultiplicity(issues, Medium, x);
      OfSeverityMultiplicity(issues, Low, x);
      OfSeverityMultiplicity(issues, Suggestion, x);
    }
  }

  /** The five per-severity counts add up to the number of issues. */
  lemma SeverityCountsSum(issues: seq<Issue>)
    ensures |issues| ==
      Count(issues, Critical) + Count(issues, High) + Count(issues, Medium)
      + Count(issues, Low) + Count(issues, Suggestion)
  {
    SeverityPartition(issues);
    assert |multiset(issues)| == |issues|;
  }

  /** When every issue carries severity `s`, selecting `s` keeps them all and
      every other severity counts none. */
  lemma {:induction false} UniformSeverity(issues: seq<Issue>, s: Severity)
    requires forall x :: x in issues ==> x.severity == s
    ensures OfSeverity(issues, s) == issues
    ensures forall t :: t != s ==> Count(issues, t) == 0
  {
    if |issues| > 0 {
      assert issues[0] in issues;
      UniformSeverity(issues[1..], s);
      assert issues == [issues[0]] + issues[1..];
      forall t | t != s
        ensures Count(issues, t) == 0
      {
        assert issues[0].severity != t;
        assert OfSeverity(issues, t) == OfSeverity(issues[1..], t);
        assert Count(issues[1..], t) == 0;
      }
    }
  }

  /** A single issue counts once under its own severity and nowhere else. */
  lemma CountSingle(x: Issue, s: Severity)
    ensures Count([x], s) == if x.severity == s then 1 else 0
  {
    assert [x][1..] == [];
  }

  /** Counting over two lists of at most one issue each. */
  lemma CountPair(a: seq<Issue>, b: seq<Issue>, s: Severity)
    requires |a| <= 1 && |b| <= 1
    ensures Count(a + b, s) ==
      (if |a| == 1 && a[0].severity == s then 1 else 0) + (if |b| == 1 && b[0].severity == s then 1 else 0)
  {
    OfSeverityAppend(a, b, s);
    if |a| == 1 { CountSingle(a[0], s); assert a == [a[0]]; }
    if |b| == 1 { CountSingle(b[0], s); assert b == [b[0]]; }
  }

  /** No issue of severity `s` means a zero count for `s`. */
  lemma {:induction false} NoneOfSeverity(issues: seq<Issue>, s: Severity)
    requires forall x :: x in issues ==> x.severity != s
    ensures Count(issues, s) == 0
  {
    if |issues| > 0 {
      assert issues[0] in issues;
      NoneOfSeverity(issues[1..], s);
    }
  }
}

=== FILE: line_checks.dfy ===
/** The line-by-line checks `CodeReviewAnalyzer` applies to a Python file:
    hard-coded credentials, generic variable names, LangSmith hub usage,
    missing return-type hints and over-broad `except` clauses. Each check
    looks at one line at a time (the hub check also at the two lines before
    it) and reports its findings in line order. The regular expressions of
    the script are written out as predicates over the line's characters. */
module LineChecks {
  import opened Wrappers
  import opened Text
  import opened Issues

  // ---------------------------------------------------------------- security

  /** The character class `[a-zA-Z0-9_-]`. */
  predicate IsKeyChar(c: char) {
    IsWordChar(c) || c == '-'
  }

  /** `prefix[a-zA-Z0-9_-]{min,}` matches at position `i`. */
  predicate TokenAt(line: string, i: nat, prefix: string, min: nat) {
    && i + |prefix| + min <= |line|
    && StartsWith(line[i..], prefix)
    && forall k :: i + |prefix| <= k < i + |prefix| + min ==> IsKeyChar(line[k])
  }

  /** `re.search` of `prefix[a-zA-Z0-9_-]{min,}` succeeds somewhere in the line. */
  predicate HasToken(line: string, prefix: string, min: nat) {
    exists i :: 0 <= i <= |line| && TokenAt(line, i, prefix, min)
  }

  predicate IsQuote(c: char) {
    c == '\'' || c == '"'
  }

  /** The text after the value's opening quote is a plain literal closed at
      the end of the line: `[\w.]*['"]$` matches it, so the negative
      lookahead of the pattern fails. */
  predicate PlainLiteralTail(rest: string) {
    && |rest| >= 1
    && IsQuote(rest[|rest| - 1])
    && forall k :: 0 <= k < |rest| - 1 ==> IsWordChar(rest[k]) || rest[k] == '.'
  }

  /** `['"]API_KEY['"]?\s*[=:]\s*['"](?![\w.]*['"]$)` matches at position `i`.
      Every part of the pattern has exactly one way to match once `i` is
      fixed, so the match is followed position by position. */
  predicate QuotedApiKeyAt(line: string, i: nat) {
    && i < |line|
    && IsQuote(line[i])
    && StartsWith(line[i + 1..], "API_KEY")
    && var p := i + 8;
       var p1 := if p < |line| && IsQuote(line[p]) then p + 1 else p;
       var p2 := SkipSpaces(line, p1);
       && p2 < |line|
       && (line[p2] == '=' || line[p2] == ':')
       && var p3 := SkipSpaces(line, p2 + 1);
          && p3 < |line|
          && IsQuote(line[p3])
          && !PlainLiteralTail(line[p3 + 1..])
  }

  /** The four credential patterns, in the order `_check_security` tries them. */
  datatype KeyPattern = OpenAIKey | GoogleKey | LangSmithKey | QuotedApiKey

  /** The credential type named in the finding's title. */
  function KeyType(p: KeyPattern): string {
    match p
    case OpenAIKey => "OpenAI API key"
    case GoogleKey => "Google API key"
    case LangSmithKey => "LangSmith API key"
    case QuotedApiKey => "Hardcoded API_KEY"
  }

  /** `re.search(pattern, line)` for each credential pattern. */
  predicate PatternMatches(p: KeyPattern, line: string) {
    match p
    case OpenAIKey => HasToken(line, "sk-proj-", 40)
    case GoogleKey => HasToken(line, "AIzaSy", 32)
    case LangSmithKey => HasToken(line, "lsv2_pt_", 32)
    case QuotedApiKey => exists i :: 0 <= i < |line| && QuotedApiKeyAt(line, i)
  }

  /** Lines mentioning an example or placeholder are never reported. */
  predicate AllowListed(line: string) {
    Contains(line, "example") || Contains(line, "placeholder") || Contains(line, "...")
  }

  /** A credential finding is reported for this line and pattern. */
  predicate CredentialFound(p: KeyPattern, line: string) {
    PatternMatches(p, line) && !AllowListed(line)
  }

  const CredentialDescription: string := "API keys devem estar APENAS em .env (adicionado ao .gitignore)"
  const CredentialSuggestion: string := "Mover para variáveis de ambiente usando os.getenv()"

  function CredentialIssue(path: string, lines: seq<string>, k: nat, p: KeyPattern): Issue
    requires k < |lines|
  {
    Issue(Critical, "Security", path, Some(k + 1),
      "Hardcoded " + KeyType(p) + " detected",
      CredentialDescription,
      CredentialSuggestion,
      Strip(lines[k]))
  }

  /** Different patterns give different findings on the same line. */
  lemma CredentialIssueInjective(path: string, lines: seq<string>, k: nat, p: KeyPattern, q: KeyPattern)
    requires k < |lines|
    requires CredentialIssue(path, lines, k, p) == CredentialIssue(path, lines, k, q)
    ensures p == q
  {
    FramedInjective("Hardcoded ", KeyType(p), KeyType(q), " detected");
    assert KeyType(OpenAIKey)[0] == 'O' && KeyType(GoogleKey)[0] == 'G';
  }

  function CredentialIf(path: string, lines: seq<string>, k: nat, p: KeyPattern): (r: seq<Issue>)
    requires k < |lines|
    ensures forall x :: x in r ==> x.severity == Critical && x.line == Some(k + 1)
  {
    if CredentialFound(p, lines[k]) then [CredentialIssue(path, lines, k, p)] else []
  }

  /** A pattern's finding occurs once when that pattern is found, and no
      other pattern's finding can be mistaken for it. */
  lemma CredentialIfMultiplicity(path: string, lines: seq<string>, k: nat, p: KeyPattern, q: KeyPattern)
    requires k < |lines|
    ensures multiset(CredentialIf(path, lines, k, p))[CredentialIssue(path, lines, k, q)]
      == if p == q && CredentialFound(p, lines[k]) then 1 else 0
  {
    if CredentialIssue(path, lines, k, p) == CredentialIssue(path, lines, k, q) {
      CredentialIssueInjective(path, lines, k, p, q);
    }
  }

  /** The findings of `_check_security` for line `k`: one per matching
      pattern, none at all on an allow-listed line. */
  function SecurityAt(path: string, lines: seq<string>, k: nat): (r: seq<Issue>)
    requires k < |lines|
    ensures forall x :: x in r ==> x.severity == Critical && x.line == Some(k + 1)
  {
    var a := CredentialIf(path, lines, k, OpenAIKey);
    var b := CredentialIf(path, lines, k, GoogleKey);
    var c := CredentialIf(path, lines, k, LangSmithKey);
    var d := CredentialIf(path, lines, k, QuotedApiKey);
    a + b + c + d
  }

  /** Each pattern found on line `k` is reported there exactly once. */
  lemma SecurityAtMultiplicity(path: string, lines: seq<string>, k: nat, p: KeyPattern)
    requires k < |lines|
    ensures multiset(SecurityAt(path, lines, k))[CredentialIssue(path, lines, k, p)] == if CredentialFound(p, lines[k]) then 1 else 0
  {
    var a := CredentialIf(path, lines, k, OpenAIKey);
    var b := CredentialIf(path, lines, k, GoogleKey);
    var c := CredentialIf(path, lines, k, LangSmithKey);
    var d := CredentialIf(path, lines, k, QuotedApiKey);
    assert multiset(a + b + c + d) == multiset(a) + multiset(b) + multiset(c) + multiset(d);
    CredentialIfMultiplicity(path, lines, k, OpenAIKey, p);
    CredentialIfMultiplicity(path, lines, k, GoogleKey, p);
    CredentialIfMultiplicity(path, lines, k, LangSmithKey, p);
    CredentialIfMultiplicity(path, lines, k, QuotedApiKey, p);
  }

  /** Each finding of line `k` names a pattern found there, and each pattern
      found there is reported exactly once. */
  lemma SecurityAtSpec(path: string, lines: seq<string>, k: nat)
    requires k < |lines|
    ensures forall x :: x in SecurityAt(path, lines, k) ==> exists p :: x == CredentialIssue(path, lines, k, p) && CredentialFound(p, lines[k])
    ensures forall p :: multiset(SecurityAt(path, lines, k))[CredentialIssue(path, lines, k, p)] == if CredentialFound(p, lines[k]) then 1 else 0
  {
    var a := CredentialIf(path, lines, k, OpenAIKey);
    var b := CredentialIf(path, lines, k, GoogleKey);
    var c := CredentialIf(path, lines, k, LangSmithKey);
    var d := CredentialIf(path, lines, k, QuotedApiKey);
    forall p
      ensures multiset(SecurityAt(path, lines, k))[CredentialIssue(path, lines, k, p)] == if CredentialFound(p, lines[k]) then 1 else 0
    {
      SecurityAtMultiplicity(path, lines, k, p);
    }
    forall x | x in a + b + c + d
      ensures exists p :: x == CredentialIssue(path, lines, k, p) && CredentialFound(p, lines[k])
    {
      if x in a {
        assert x == CredentialIssue(path, lines, k, OpenAIKey);
      } else if x in b {
        assert x == CredentialIssue(path, lines, k, GoogleKey);
      } else if x in c {
        assert x == CredentialIssue(path, lines, k, LangSmithKey);
      } else {
        assert x == CredentialIssue(path, lines, k, QuotedApiKey);
      }
    }
  }

  // ------------------------------------------------------------------ naming

  /** The identifiers `_check_naming_style` treats as too generic. */
  const GenericNames: seq<string> := ["x", "y", "z", "temp", "tmp", "data1", "data2"]

  /** `\b{name}\s*=` matches at position `p`. */
  predicate GenericAssignmentAt(line: string, name: string, p: nat) {
    && p <= |line|
    && StartsWith(line[p..], name)
    && (p == 0 || !IsWordChar(line[p - 1]))
    && var q := SkipSpaces(line, p + |name|);
       q < |line| && line[q] == '='
  }

  /** A naming finding is reported for this line and name. */
  predicate GenericNameFound(line: string, name: string) {
    && (exists p :: 0 <= p <= |line| && GenericAssignmentAt(line, name, p))
    && !Contains(line, "__")
  }

  const GenericNameDescription: string := "Nome não é descritivo"
  const GenericNameSuggestion: string := "Use nomes mais específicos (e.g., 'prompt_data' em vez de 'data')"

  function GenericNameIssue(path: string, lines: seq<string>, k: nat, name: string): Issue
    requires k < |lines|
  {
    Issue(Low, "Naming", path, Some(k + 1),
      "Variável genérica: '" + name + "'",
      GenericNameDescription,
      GenericNameSuggestion,
      "")
  }

  /** The naming findings for line `k`, one per name in `names`, in order. */
  function NamingFrom(path: string, lines: seq<string>, k: nat, names: seq<string>): (r: seq<Issue>)
    requires k < |lines|
    ensures forall x :: x in r ==> x.severity == Low && x.line == Some(k + 1)
  {
    if |names| == 0 then []
    else
      (if GenericNameFound(lines[k], names[0]) then [GenericNameIssue(path, lines, k, names[0])] else [])
      + NamingFrom(path, lines, k, names[1..])
  }

  /** Every naming finding names a listed name assigned on the line. */
  lemma {:induction false} NamingFromSound(path: string, lines: seq<string>, k: nat, names: seq<string>, x: Issue)
    requires k < |lines|
    requires x in NamingFrom(path, lines, k, names)
    ensures exists n :: n in names && x == GenericNameIssue(path, lines, k, n) && GenericNameFound(lines[k], n)
  {
    if x != GenericNameIssue(path, lines, k, names[0]) || !GenericNameFound(lines[k], names[0]) {
      NamingFromSound(path, lines, k, names[1..], x);
      var n :| n in names[1..] && x == GenericNameIssue(path, lines, k, n) && GenericNameFound(lines[k], n);
      assert n in names;
    }
  }

  /** Each listed name that is assigned on the line is reported exactly once. */
  lemma {:induction false} NamingFromMultiplicity(path: string, lines: seq<string>, k: nat, names: seq<string>, n: string)
    requires k < |lines|
    requires forall i, j :: 0 <= i < j < |names| ==> names[i] != names[j]
    ensures multiset(NamingFrom(path, lines, k, names))[GenericNameIssue(path, lines, k, n)]
      == if n in names && GenericNameFound(lines[k], n) then 1 else 0
  {
    if |names| > 0 {
      NamingFromMultiplicity(path, lines, k, names[1..], n);
      if GenericNameIssue(path, lines, k, names[0]) == GenericNameIssue(path, lines, k, n) {
        FramedInjective("Variável genérica: '", names[0], n, "'");
      }
      assert names == [names[0]] + names[1..];
      if n == names[0] {
        assert n !in names[1..];
      }
    }
  }

  /** The findings of `_check_naming_style` for line `k`. */
  function NamingAt(path: string, lines: seq<string>, k: nat): (r: seq<Issue>)
    requires k < |lines|
    ensures forall x :: x in r ==> x.severity == Low && x.line == Some(k + 1)
  {
    NamingFrom(path, lines, k, GenericNames)
  }

  // --------------------------------------------------------- LangSmith usage

  /** The window `lines[max(0, i-3):i]` of `_check_langchain_patterns`, for the 1-based line
      `i = k + 1`: the line itself and the two lines before it. */
  predicate InGuardWindow(k: nat, j: int) {
    (if k >= 2 then k - 2 else 0) <= j <= k
  }

  /** The guard as written, `"try" not in lines[max(0, i-3):i]`: list
      membership, so only a line that is exactly "try" counts. */
  predicate HubGuarded(lines: seq<string>, k: nat) {
    exists j :: InGuardWindow(k, j) && 0 <= j < |lines| && lines[j] == "try"
  }

  /** The guard as evidently intended: some line of the window contains "try". */
  predicate HubGuardedIntended(lines: seq<string>, k: nat) {
    exists j :: InGuardWindow(k, j) && 0 <= j < |lines| && Contains(lines[j], "try")
  }

  const HubPullTitle: string := "hub.pull sem tratamento de erro"
  const HubPullDescription: string := "hub.pull() pode falhar se prompt não existir"
  const HubPullSuggestion: string := "Envolver em try-except com mensagem de erro clara"

  function HubPullIssue(path: string, lines: seq<string>, k: nat): Issue
    requires k < |lines|
  {
    Issue(High, "LangChain Integration", path, Some(k + 1),
      HubPullTitle,
      HubPullDescription,
      HubPullSuggestion,
      "")
  }

  const ClientTitle: string := "Cliente LangSmith sem validação"
  const ClientDescription: string := "Deve validar LANGSMITH_API_KEY antes"
  const ClientSuggestion: string := "Adicionar check_env_vars() antes de Client()"

  function ClientIssue(path: string, lines: seq<string>, k: nat): Issue
    requires k < |lines|
  {
    Issue(Medium, "LangChain Integration", path, Some(k + 1),
      ClientTitle,
      ClientDescription,
      ClientSuggestion,
      "")
  }

  /** The findings of `_check_langchain_patterns` for line `k` with a given
      guard decision: an unguarded `hub.pull` first, then a bare `Client()`. */
  function HubFindings(path: string, lines: seq<string>, k: nat, guarded: bool): (r: seq<Issue>)
    requires k < |lines|
    ensures HubPullIssue(path, lines, k) in r <==> Contains(lines[k], "hub.pull") && !guarded
    ensures ClientIssue(path, lines, k) in r <==> Contains(lines[k], "Client()")
    ensures forall x :: x in r ==> x == HubPullIssue(path, lines, k) || x == ClientIssue(path, lines, k)
    ensures |r| <= 2
  {
    (if Contains(lines[k], "hub.pull") && !guarded then [HubPullIssue(path, lines, k)] else [])
    + (if Contains(lines[k], "Client()") then [ClientIssue(path, lines, k)] else [])
  }

  /** `_check_langchain_patterns` for line `k`, guard as written. */
  function HubUsageAt(path: string, lines: seq<string>, k: nat): seq<Issue>
    requires k < |lines|
  {
    HubFindings(path, lines, k, HubGuarded(lines, k))
  }

  /** `_check_langchain_patterns` for line `k`, with the intended guard. */
  function IntendedHubUsageAt(path: string, lines: seq<string>, k: nat): seq<Issue>
    requires k < |lines|
  {
    HubFindings(path, lines, k, HubGuardedIntended(lines, k))
  }

  /** A line that is exactly "try" also contains "try", so the intended
      check reports an unguarded `hub.pull` only where `_check_langchain_patterns` does. */
  lemma CorrectedGuardIsWeaker(path: string, lines: seq<string>, k: nat)
    requires k < |lines|
    ensures HubGuarded(lines, k) ==> HubGuardedIntended(lines, k)
    ensures multiset(IntendedHubUsageAt(path, lines, k)) <= multiset(HubUsageAt(path, lines, k))
  {
    if HubGuarded(lines, k) {
      var j :| InGuardWindow(k, j) && 0 <= j < |lines| && lines[j] == "try";
      ContainsAt(lines[j], "try", 0);
    }
  }

  // -------------------------------------------------------------- type hints

  /** `re.match(r'\s*def ', line)` */
  predicate IsDefStatement(line: string) {
    StartsWith(line[SkipSpaces(line, 0)..], "def ")
  }

  /** A type-hint finding is reported for this line. */
  predicate MissingReturnHint(line: string) {
    && IsDefStatement(line)
    && !Contains(line, "->")
    && !Contains(line, "test_")
    && (!Contains(line, "self") || !Contains(line, ":"))
  }

  const TypeHintTitle: string := "Type hints ausentes"
  const TypeHintDescription: string := "Função deveria ter anotações de tipo"
  const TypeHintSuggestion: string := "Adicionar type hints: def func(param: str) -> dict:"

  function TypeHintIssue(path: string, lines: seq<string>, k: nat): Issue
    requires k < |lines|
  {
    Issue(Low, "Type Hints", path, Some(k + 1),
      TypeHintTitle,
      TypeHintDescription,
      TypeHintSuggestion,
      "")
  }

  // ---------------------------------------------------------- error handling

  /** The line has a bare `except:` or an `except Exception:`. */
  predicate BroadExcept(line: string) {
    Contains(line, "except:") || Contains(line, "except Exception:")
  }

  const BroadExceptTitle: string := "Exceção muito genérica"
  const BroadExceptDescription: string := "Usar 'except Exception' ou 'except:' captura tudo"
  const BroadExceptSuggestion: string := "Especificar exceção esperada: 'except FileNotFoundError:'"

  function BroadExceptIssue(path: string, lines: seq<string>, k: nat): Issue
    requires k < |lines|
  {
    Issue(Medium, "Error Handling", path, Some(k + 1),
      BroadExceptTitle,
      BroadExceptDescription,
      BroadExceptSuggestion,
      "")
  }

  // -------------------------------------------------------- the common scan

  /** The line checks of the Python analysis. */
  datatype LineCheck = Security | Naming | HubUsage | IntendedHubUsage | TypeHints | ErrorHandling

  /** The findings one check reports for line `k` (0-based; reported 1-based). */
  function LineIssues(check: LineCheck, path: string, lines: seq<string>, k: nat): (r: seq<Issue>)
    requires k < |lines|
    ensures forall x :: x in r ==> x.line == Some(k + 1)
  {
    match check
    case Security => SecurityAt(path, lines, k)
    case Naming => NamingAt(path, lines, k)
    case HubUsage => HubUsageAt(path, lines, k)
    case IntendedHubUsage => IntendedHubUsageAt(path, lines, k)
    case TypeHints => if MissingReturnHint(lines[k]) then [TypeHintIssue(path, lines, k)] else []
    case ErrorHandling => if BroadExcept(lines[k]) then [BroadExceptIssue(path, lines, k)] else []
  }

  /** Every finding in the `k`-th group sits on line `k + 1`. */
  predicate Located(groups: seq<seq<Issue>>) {
    forall k :: 0 <= k < |groups| ==> forall x :: x in groups[k] ==> x.line == Some(k + 1)
  }

  /** One check's findings, grouped by line. */
  function PerLine(check: LineCheck, path: string, lines: seq<string>): (r: seq<seq<Issue>>)
    ensures |r| == |lines| && Located(r)
    ensures forall k :: 0 <= k < |lines| ==> r[k] == LineIssues(check, path, lines, k)
  {
    seq(|lines|, k requires 0 <= k < |lines| => LineIssues(check, path, lines, k))
  }

  /** `for i, line in enumerate(lines, 1)` from group `i` on: every finding is
      located in the scanned range. */
  function Flatten(groups: seq<seq<Issue>>, i: nat): (r: seq<Issue>)
    requires i <= |groups| && Located(groups)
    ensures forall x :: x in r ==> x.line.Some? && i < x.line.value <= |groups|
    decreases |groups| - i
  {
    if i == |groups| then []
    else groups[i] + Flatten(groups, i + 1)
  }

  /** Every finding of the scan comes from the group of the line it names. */
  lemma {:induction false} FlattenFromGroup(groups: seq<seq<Issue>>, i: nat, x: Issue)
    requires i <= |groups| && Located(groups)
    requires x in Flatten(groups, i)
    ensures x.line.Some? && i < x.line.value <= |groups|
    ensures x in groups[x.line.value - 1]
    decreases |groups| - i
  {
    if x !in groups[i] {
      FlattenFromGroup(groups, i + 1, x);
    }
  }

  /** A finding located on line `k + 1` occurs in the scan exactly as often
      as in that line's own group. */
  lemma {:induction false} FlattenMultiplicity(groups: seq<seq<Issue>>, i: nat, k: nat, x: Issue)
    requires Located(groups)
    requires i <= k < |groups| && x.line == Some(k + 1)
    ensures multiset(Flatten(groups, i))[x] == multiset(groups[k])[x]
    decreases |groups| - i
  {
    var rest := Flatten(groups, i + 1);
    assert Flatten(groups, i) == groups[i] + rest;
    assert multiset(groups[i] + rest) == multiset(groups[i]) + multiset(rest);
    if k == i {
      assert x.line.value == i + 1;
      assert x !in rest;
    } else {
      FlattenMultiplicity(groups, i + 1, k, x);
      assert x in groups[i] ==> x.line == Some(i + 1);
    }
  }

  /** Every finding has a line, and lines strictly increase along the sequence. */
  predicate LinesIncrease(r: seq<Issue>) {
    forall j, j' :: 0 <= j < j' < |r| ==> r[j].line.Some? && r[j'].line.Some? && r[j].line.value < r[j'].line.value
  }

  /** Groups of at most one finding give strictly increasing lines. */
  lemma {:induction false} FlattenStrict(groups: seq<seq<Issue>>, i: nat)
    requires i <= |groups| && Located(groups)
    requires forall k :: i <= k < |groups| ==> |groups[k]| <= 1
    ensures LinesIncrease(Flatten(groups, i))
    decreases |groups| - i
  {
    if i < |groups| {
      FlattenStrict(groups, i + 1);
      var here := groups[i];
      var rest := Flatten(groups, i + 1);
      var r := Flatten(groups, i);
      assert r == here + rest;
      forall j, j' | 0 <= j < j' < |r|
        ensures r[j].line.Some? && r[j'].line.Some? && r[j].line.value < r[j'].line.value
      {
        if j < |here| {
          assert |here| <= 1 && j' >= |here|;
          assert r[j] == here[j] && here[j] in groups[i];
          assert r[j].line == Some(i + 1);
          assert r[j'] == rest[j' - |here|] && rest[j' - |here|] in rest;
          assert r[j'].line.value > i + 1;
          assert r[j].line.value < r[j'].line.value;
        } else {
          assert r[j] == rest[j - |here|] && r[j'] == rest[j' - |here|];
          assert 0 <= j - |here| < j' - |here| < |rest|;
        }
      }
    }
  }

  /** The findings of one line check over a whole file. */
  function Scan(check: LineCheck, path: string, lines: seq<string>): seq<Issue> {
    Flatten(PerLine(check, path, lines), 0)
  }

  /** A scan finding belongs to the line it names. */
  lemma ScanFromLine(check: LineCheck, path: string, lines: seq<string>, x: Issue)
    requires x in Scan(check, path, lines)
    ensures x.line.Some? && 1 <= x.line.value <= |lines|
    ensures x in LineIssues(check, path, lines, x.line.value - 1)
  {
    FlattenFromGroup(PerLine(check, path, lines), 0, x);
  }

  /** A finding for line `k + 1` occurs in the scan as often as the line reports it. */
  lemma ScanMultiplicity(check: LineCheck, path: string, lines: seq<string>, k: nat, x: Issue)
    requires k < |lines| && x.line == Some(k + 1)
    ensures multiset(Scan(check, path, lines))[x] == multiset(LineIssues(check, path, lines, k))[x]
  {
    FlattenMultiplicity(PerLine(check, path, lines), 0, k, x);
  }

  /** A check with at most one finding per line reports strictly increasing lines. */
  lemma ScanStrict(check: LineCheck, path: string, lines: seq<string>)
    requires forall k :: 0 <= k < |lines| ==> |LineIssues(check, path, lines, k)| <= 1
    ensures LinesIncrease(Scan(check, path, lines))
  {
    FlattenStrict(PerLine(check, path, lines), 0);
  }

  /** The checks a file is given, one finding sequence each. */
  function CheckSecurity(path: string, lines: seq<string>): seq<Issue> {
    Scan(Security, path, lines)
  }

  function CheckNamingStyle(path: string, lines: seq<string>): seq<Issue> {
    Scan(Naming, path, lines)
  }

  function CheckLangchainPatterns(path: string, lines: seq<string>): seq<Issue> {
    Scan(HubUsage, path, lines)
  }

  /** `_check_langchain_patterns` with the intended `hub.pull` guard. */
  function IntendedLangchainPatterns(path: string, lines: seq<string>): seq<Issue> {
    Scan(IntendedHubUsage, path, lines)
  }

  function CheckTypeHints(path: string, lines: seq<string>): seq<Issue> {
    Scan(TypeHints, path, lines)
  }

  function CheckErrorHandling(path: string, lines: seq<string>): seq<Issue> {
    Scan(ErrorHandling, path, lines)
  }

  /** `_check_security`: one CRITICAL finding per line and matching credential
      pattern unless the line is allow-listed, and nothing else. */
  lemma SecuritySpec(path: string, lines: seq<string>)
    ensures forall x :: x in CheckSecurity(path, lines) ==>
      && x.severity == Critical
      && exists k, p :: 0 <= k < |lines| && x == CredentialIssue(path, lines, k, p) && CredentialFound(p, lines[k])
    ensures forall k, p :: 0 <= k < |lines| ==>
      multiset(CheckSecurity(path, lines))[CredentialIssue(path, lines, k, p)] == if CredentialFound(p, lines[k]) then 1 else 0
  {
    forall x | x in CheckSecurity(path, lines)
      ensures x.severity == Critical
      ensures exists k, p :: 0 <= k < |lines| && x == CredentialIssue(path, lines, k, p) && CredentialFound(p, lines[k])
    {
      SecurityFinding(path, lines, x);
    }
    forall k, p | 0 <= k < |lines|
      ensures multiset(CheckSecurity(path, lines))[CredentialIssue(path, lines, k, p)] == if CredentialFound(p, lines[k]) then 1 else 0
    {
      ScanMultiplicity(Security, path, lines, k, CredentialIssue(path, lines, k, p));
      SecurityAtSpec(path, lines, k);
    }
  }

  /** A security finding names a credential pattern found on its line. */
  lemma SecurityFinding(path: string, lines: seq<string>, x: Issue)
    requires x in CheckSecurity(path, lines)
    ensures x.severity == Critical
    ensures exists k, p :: 0 <= k < |lines| && x == CredentialIssue(path, lines, k, p) && CredentialFound(p, lines[k])
  {
    ScanFromLine(Security, path, lines, x);
    SecurityAtSpec(path, lines, x.line.value - 1);
  }

  /** `_check_naming_style`: one LOW finding per line and generic name
      assigned on it (unless the line mentions a dunder), and nothing else. */
  lemma NamingSpec(path: string, lines: seq<string>)
    ensures forall x :: x in CheckNamingStyle(path, lines) ==>
      && x.severity == Low
      && exists k, n :: 0 <= k < |lines| && n in GenericNames && x == GenericNameIssue(path, lines, k, n) && GenericNameFound(lines[k], n)
    ensures forall k, n :: 0 <= k < |lines| && n in GenericNames ==>
      multiset(CheckNamingStyle(path, lines))[GenericNameIssue(path, lines, k, n)] == if GenericNameFound(lines[k], n) then 1 else 0
  {
    forall x | x in CheckNamingStyle(path, lines)
      ensures x.severity == Low
      ensures exists k, n :: 0 <= k < |lines| && n in GenericNames && x == GenericNameIssue(path, lines, k, n) && GenericNameFound(lines[k], n)
    {
      NamingFinding(path, lines, x);
    }
    forall k, n | 0 <= k < |lines| && n in GenericNames
      ensures multiset(CheckNamingStyle(path, lines))[GenericNameIssue(path, lines, k, n)] == if GenericNameFound(lines[k], n) then 1 else 0
    {
      NamingCount(path, lines, k, n);
    }
  }

  /** A naming finding names a generic name assigned on its line. */
  lemma NamingFinding(path: string, lines: seq<string>, x: Issue)
    requires x in CheckNamingStyle(path, lines)
    ensures x.severity == Low
    ensures exists k, n :: 0 <= k < |lines| && n in GenericNames && x == GenericNameIssue(path, lines, k, n) && GenericNameFound(lines[k], n)
  {
    ScanFromLine(Naming, path, lines, x);
    NamingFromSound(path, lines, x.line.value - 1, GenericNames, x);
  }

  /** A generic name assigned on a line is reported there exactly once. */
  lemma NamingCount(path: string, lines: seq<string>, k: nat, n: string)
    requires k < |lines| && n in GenericNames
    ensures multiset(CheckNamingStyle(path, lines))[GenericNameIssue(path, lines, k, n)] == if GenericNameFound(lines[k], n) then 1 else 0
  {
    ScanMultiplicity(Naming, path, lines, k, GenericNameIssue(path, lines, k, n));
    GenericNamesDistinct();
    NamingFromMultiplicity(path, lines, k, GenericNames, n);
  }

  lemma GenericNamesDistinct()
    ensures forall i, j :: 0 <= i < j < |GenericNames| ==> GenericNames[i] != GenericNames[j]
  {
  }

  /** `_check_langchain_patterns`: a HIGH finding exactly on the lines with a
      `hub.pull` whose window holds no line that is exactly "try", a MEDIUM
      one exactly on the lines with `Client()`. */
  lemma HubUsageSpec(path: string, lines: seq<string>)
    ensures forall x :: x in CheckLangchainPatterns(path, lines) ==>
      && x.line.Some? && 1 <= x.line.value <= |lines|
      && (x == HubPullIssue(path, lines, x.line.value - 1) || x == ClientIssue(path, lines, x.line.value - 1))
    ensures forall k :: 0 <= k < |lines| ==>
      (HubPullIssue(path, lines, k) in CheckLangchainPatterns(path, lines) <==>
        Contains(lines[k], "hub.pull") && !HubGuarded(lines, k))
    ensures forall k :: 0 <= k < |lines| ==>
      (ClientIssue(path, lines, k) in CheckLangchainPatterns(path, lines) <==> Contains(lines[k], "Client()"))
  {
    forall x | x in CheckLangchainPatterns(path, lines)
      ensures x.line.Some? && 1 <= x.line.value <= |lines|
      ensures x == HubPullIssue(path, lines, x.line.value - 1) || x == ClientIssue(path, lines, x.line.value - 1)
    {
      HubFinding(HubUsage, path, lines, x);
    }
    forall k | 0 <= k < |lines|
      ensures HubPullIssue(path, lines, k) in CheckLangchainPatterns(path, lines) <==> Contains(lines[k], "hub.pull") && !HubGuarded(lines, k)
      ensures ClientIssue(path, lines, k) in CheckLangchainPatterns(path, lines) <==> Contains(lines[k], "Client()")
    {
      HubCounts(HubUsage, path, lines, k, HubGuarded(lines, k));
    }
  }

  /** The same scan with the intended guard: the HIGH finding is dropped as
      soon as a line of the window contains "try", as in a `try:` block. */
  lemma IntendedHubUsageSpec(path: string, lines: seq<string>)
    ensures forall x :: x in IntendedLangchainPatterns(path, lines) ==>
      && x.line.Some? && 1 <= x.line.value <= |lines|
      && (x == HubPullIssue(path, lines, x.line.value - 1) || x == ClientIssue(path, lines, x.line.value - 1))
    ensures forall k :: 0 <= k < |lines| ==>
      (HubPullIssue(path, lines, k) in IntendedLangchainPatterns(path, lines) <==>
        Contains(lines[k], "hub.pull") && !HubGuardedIntended(lines, k))
    ensures forall k :: 0 <= k < |lines| ==>
      (ClientIssue(path, lines, k) in IntendedLangchainPatterns(path, lines) <==> Contains(lines[k], "Client()"))
  {
    forall x | x in IntendedLangchainPatterns(path, lines)
      ensures x.line.Some? && 1 <= x.line.value <= |lines|
      ensures x == HubPullIssue(path, lines, x.line.value - 1) || x == ClientIssue(path, lines, x.line.value - 1)
    {
      HubFinding(IntendedHubUsage, path, lines, x);
    }
    forall k | 0 <= k < |lines|
      ensures HubPullIssue(path, lines, k) in IntendedLangchainPatterns(path, lines) <==> Contains(lines[k], "hub.pull") && !HubGuardedIntended(lines, k)
      ensures ClientIssue(path, lines, k) in IntendedLangchainPatterns(path, lines) <==> Contains(lines[k], "Client()")
    {
      HubCounts(IntendedHubUsage, path, lines, k, HubGuardedIntended(lines, k));
    }
  }

  /** A hub finding, under either guard, is one of the two kinds, on its own line. */
  lemma HubFinding(check: LineCheck, path: string, lines: seq<string>, x: Issue)
    requires check == HubUsage || check == IntendedHubUsage
    requires x in Scan(check, path, lines)
    ensures x.line.Some? && 1 <= x.line.value <= |lines|
    ensures x == HubPullIssue(path, lines, x.line.value - 1) || x == ClientIssue(path, lines, x.line.value - 1)
  {
    ScanFromLine(check, path, lines, x);
  }

  /** Line `k` gets each kind of hub finding exactly when its condition holds,
      `guarded` being the decision of the scan's guard. */
  lemma HubCounts(check: LineCheck, path: string, lines: seq<string>, k: nat, guarded: bool)
    requires k < |lines|
    requires (check == HubUsage && guarded == HubGuarded(lines, k))
      || (check == IntendedHubUsage && guarded == HubGuardedIntended(lines, k))
    ensures HubPullIssue(path, lines, k) in Scan(check, path, lines) <==> Contains(lines[k], "hub.pull") && !guarded
    ensures ClientIssue(path, lines, k) in Scan(check, path, lines) <==> Contains(lines[k], "Client()")
  {
    ScanMultiplicity(check, path, lines, k, HubPullIssue(path, lines, k));
    ScanMultiplicity(check, path, lines, k, ClientIssue(path, lines, k));
  }

  /** `_check_langchain_patterns` reports a `hub.pull` that sits right under a `try:` line,
      because no line of its window is exactly "try"; the intended guard
      does not report it. */
  lemma GuardAsWrittenMissesTryBlock()
    ensures HubPullIssue("a.py", TryBlockSample, 2) in CheckLangchainPatterns("a.py", TryBlockSample)
    ensures HubPullIssue("a.py", TryBlockSample, 2) !in IntendedLangchainPatterns("a.py", TryBlockSample)
  {
    var lines := TryBlockSample;
    assert lines[2][8..][..8] == "hub.pull";
    ContainsAt(lines[2], "hub.pull", 8);
    assert lines[1][..3] == "try";
    ContainsAt(lines[1], "try", 0);
    assert InGuardWindow(2, 1);
    assert HubGuardedIntended(lines, 2);
    assert !HubGuarded(lines, 2) by {
      assert lines[0] != "try" by { assert |lines[0]| != 3; }
      assert lines[1] != "try";
      assert lines[2] != "try" by { assert |lines[2]| != 3; }
    }
    HubCounts(HubUsage, "a.py", lines, 2, false);
    HubCounts(IntendedHubUsage, "a.py", lines, 2, true);
  }

  /** `from langchain import hub`, then `try:`, then an indented `hub.pull`. */
  const TryBlockSample: seq<string> := ["from langchain import hub", "try:", "    p = hub.pull(name)"]

  /** `_check_type_hints`: exactly one LOW finding on each `def` line without
      a return annotation (test functions and typed methods excepted). */
  lemma TypeHintsSpec(path: string, lines: seq<string>)
    ensures forall j :: 0 <= j < |CheckTypeHints(path, lines)| ==>
      var x := CheckTypeHints(path, lines)[j];
      && x.line.Some? && 1 <= x.line.value <= |lines|
      && x == TypeHintIssue(path, lines, x.line.value - 1)
      && MissingReturnHint(lines[x.line.value - 1])
    ensures LinesIncrease(CheckTypeHints(path, lines))
    ensures forall k :: 0 <= k < |lines| ==>
      (TypeHintIssue(path, lines, k) in CheckTypeHints(path, lines) <==> MissingReturnHint(lines[k]))
  {
    ScanStrict(TypeHints, path, lines);
    forall j | 0 <= j < |CheckTypeHints(path, lines)|
      ensures var x := CheckTypeHints(path, lines)[j];
        && x.line.Some? && 1 <= x.line.value <= |lines|
        && x == TypeHintIssue(path, lines, x.line.value - 1)
        && MissingReturnHint(lines[x.line.value - 1])
    {
      TypeHintFinding(path, lines, CheckTypeHints(path, lines)[j]);
    }
    forall k | 0 <= k < |lines|
      ensures TypeHintIssue(path, lines, k) in CheckTypeHints(path, lines) <==> MissingReturnHint(lines[k])
    {
      TypeHintCount(path, lines, k);
    }
  }

  /** A type-hint finding sits on a `def` line lacking its annotation. */
  lemma TypeHintFinding(path: string, lines: seq<string>, x: Issue)
    requires x in CheckTypeHints(path, lines)
    ensures x.line.Some? && 1 <= x.line.value <= |lines|
    ensures x == TypeHintIssue(path, lines, x.line.value - 1)
    ensures MissingReturnHint(lines[x.line.value - 1])
  {
    ScanFromLine(TypeHints, path, lines, x);
  }

  /** Line `k` gets a type-hint finding exactly when it lacks the annotation. */
  lemma TypeHintCount(path: string, lines: seq<string>, k: nat)
    requires k < |lines|
    ensures TypeHintIssue(path, lines, k) in CheckTypeHints(path, lines) <==> MissingReturnHint(lines[k])
  {
    ScanMultiplicity(TypeHints, path, lines, k, TypeHintIssue(path, lines, k));
  }

  /** `_check_error_handling`: exactly one MEDIUM finding on each line with a
      bare or `Exception`-wide `except`, on increasing line numbers within the file. */
  lemma ErrorHandlingSpec(path: string, lines: seq<string>)
    ensures forall j :: 0 <= j < |CheckErrorHandling(path, lines)| ==>
      var x := CheckErrorHandling(path, lines)[j];
      && x.severity == Medium
      && x.line.Some? && 1 <= x.line.value <= |lines|
      && x == BroadExceptIssue(path, lines, x.line.value - 1)
      && BroadExcept(lines[x.line.value - 1])
    ensures LinesIncrease(CheckErrorHandling(path, lines))
    ensures forall k :: 0 <= k < |lines| ==>
      (BroadExceptIssue(path, lines, k) in CheckErrorHandling(path, lines) <==> BroadExcept(lines[k]))
  {
    ScanStrict(ErrorHandling, path, lines);
    forall j | 0 <= j < |CheckErrorHandling(path, lines)|
      ensures var x := CheckErrorHandling(path, lines)[j];
        && x.severity == Medium
        && x.line.Some? && 1 <= x.line.value <= |lines|
        && x == BroadExceptIssue(path, lines, x.line.value - 1)
        && BroadExcept(lines[x.line.value - 1])
    {
      BroadExceptFinding(path, lines, CheckErrorHandling(path, lines)[j]);
    }
    forall k | 0 <= k < |lines|
      ensures BroadExceptIssue(path, lines, k) in CheckErrorHandling(path, lines) <==> BroadExcept(lines[k])
    {
      BroadExceptCount(path, lines, k);
    }
  }

  /** Line `k` gets an error-handling finding exactly when it has a broad `except`. */
  lemma BroadExceptCount(path: string, lines: seq<string>, k: nat)
    requires k < |lines|
    ensures BroadExceptIssue(path, lines, k) in CheckErrorHandling(path, lines) <==> BroadExcept(lines[k])
  {
    ScanMultiplicity(ErrorHandling, path, lines, k, BroadExceptIssue(path, lines, k));
  }

  /** An error-handling finding sits on a line with a broad `except`. */
  lemma BroadExceptFinding(path: string, lines: seq<string>, x: Issue)
    requires x in CheckErrorHandling(path, lines)
    ensures x.severity == Medium
    ensures x.line.Some? && 1 <= x.line.value <= |lines|
    ensures x == BroadExceptIssue(path, lines, x.line.value - 1)
    ensures BroadExcept(lines[x.line.value - 1])
  {
    ScanFromLine(ErrorHandling, path, lines, x);
  }
}

=== FILE: prompt_checks.dfy ===
/** The checks `CodeReviewAnalyzer` applies to a loaded prompt YAML document:
    required fields, few-shot examples, versioning and the documented
    prompt-engineering techniques. Each check returns its findings for one
    document; the examples check can raise, which is a `Failure`. */
module PromptChecks {
  import opened Wrappers
  import opened Text
  import opened Issues
  import opened PyValue

  // --------------------------------------------------------------- structure

  /** The fields every prompt document must fill, in the order they are checked. */
  const RequiredFields: seq<string> := ["system_prompt", "version", "techniques_applied", "description"]

  /** A present value that counts as empty: falsy, or a string of whitespace
      only (see `IsBlankIffStripEmpty`). */
  predicate Blank(v: Value) {
    !Truthy(v) || (v.Str? && IsBlank(v.s))
  }

  const MissingFieldDescription: string := "Prompt YAML deve conter: system_prompt, version, techniques_applied, description"

  function MissingFieldIssue(path: string, field: string): Issue {
    Issue(Critical, "Prompt Structure", path, None,
      "Campo obrigatório ausente: '" + field + "'",
      MissingFieldDescription,
      "Adicionar campo '" + field + "' ao prompt YAML",
      "")
  }

  function EmptyFieldIssue(path: string, field: string): Issue {
    Issue(High, "Prompt Structure", path, None,
      "Campo vazio: '" + field + "'",
      "'" + field + "' não pode estar vazio",
      "Preencher '" + field + "' com conteúdo significativo",
      "")
  }

  /** The structure findings for the fields in `fields`, in order. */
  function StructureFrom(path: string, data: map<string, Value>, fields: seq<string>): (r: seq<Issue>)
    ensures |r| <= |fields|
  {
    if |fields| == 0 then []
    else
      var f := fields[0];
      (if f !in data then [MissingFieldIssue(path, f)]
       else if Blank(data[f]) then [EmptyFieldIssue(path, f)]
       else [])
      + StructureFrom(path, data, fields[1..])
  }

  /** Every structure finding is the missing or empty finding of a listed field. */
  lemma {:induction false} StructureNamesFields(path: string, data: map<string, Value>, fields: seq<string>)
    ensures forall x :: x in StructureFrom(path, data, fields) ==>
      exists f :: f in fields && (x == MissingFieldIssue(path, f) || x == EmptyFieldIssue(path, f))
  {
    if |fields| > 0 {
      var f := fields[0];
      var head :=
        if f !in data then [MissingFieldIssue(path, f)]
        else if Blank(data[f]) then [EmptyFieldIssue(path, f)]
        else [];
      var rest := StructureFrom(path, data, fields[1..]);
      StructureStep(path, data, fields);
      StructureNamesFields(path, data, fields[1..]);
      forall x | x in head + rest
        ensures exists g :: g in fields && (x == MissingFieldIssue(path, g) || x == EmptyFieldIssue(path, g))
      {
        if x in head {
          assert f in fields;
        } else {
          var g :| g in fields[1..] && (x == MissingFieldIssue(path, g) || x == EmptyFieldIssue(path, g));
          assert g in fields;
        }
      }
    }
  }

  /** The first field's findings followed by the rest's. */
  lemma StructureStep(path: string, data: map<string, Value>, fields: seq<string>)
    requires |fields| > 0
    ensures var f := fields[0];
      StructureFrom(path, data, fields) ==
        (if f !in data then [MissingFieldIssue(path, f)]
         else if Blank(data[f]) then [EmptyFieldIssue(path, f)]
         else [])
        + StructureFrom(path, data, fields[1..])
  {
  }

  /** Findings for different fields differ. */
  lemma FieldIssuesInjective(path: string, g: string, f: string)
    ensures MissingFieldIssue(path, g) == MissingFieldIssue(path, f) <==> g == f
    ensures EmptyFieldIssue(path, g) == EmptyFieldIssue(path, f) <==> g == f
    ensures MissingFieldIssue(path, g) != EmptyFieldIssue(path, f)
    ensures EmptyFieldIssue(path, g) != MissingFieldIssue(path, f)
  {
    if MissingFieldIssue(path, g) == MissingFieldIssue(path, f) {
      FramedInjective("Campo obrigatório ausente: '", g, f, "'");
    }
    if EmptyFieldIssue(path, g) == EmptyFieldIssue(path, f) {
      FramedInjective("Campo vazio: '", g, f, "'");
    }
  }

  /** A field of a list without repeats does not occur after its own position. */
  lemma HeadNotInTail(fields: seq<string>)
    requires |fields| > 0
    requires forall i, j :: 0 <= i < j < |fields| ==> fields[i] != fields[j]
    ensures fields[0] !in fields[1..]
    ensures forall i, j :: 0 <= i < j < |fields[1..]| ==> fields[1..][i] != fields[1..][j]
  {
    forall k | 0 <= k < |fields[1..]|
      ensures fields[1..][k] != fields[0]
    {
      assert fields[1..][k] == fields[k + 1];
    }
  }

  /** Each listed field yields its CRITICAL finding once when absent. */
  lemma {:induction false} MissingFieldMultiplicity(path: string, data: map<string, Value>, fields: seq<string>, f: string)
    requires forall i, j :: 0 <= i < j < |fields| ==> fields[i] != fields[j]
    ensures multiset(StructureFrom(path, data, fields))[MissingFieldIssue(path, f)]
      == if f in fields && f !in data then 1 else 0
  {
    if |fields| > 0 {
      var g := fields[0];
      var head :=
        if g !in data then [MissingFieldIssue(path, g)]
        else if Blank(data[g]) then [EmptyFieldIssue(path, g)]
        else [];
      var rest := StructureFrom(path, data, fields[1..]);
      StructureStep(path, data, fields);
      HeadNotInTail(fields);
      MissingFieldMultiplicity(path, data, fields[1..], f);
      FieldIssuesInjective(path, g, f);
      assert multiset(head + rest) == multiset(head) + multiset(rest);
      assert f in fields <==> f == g || f in fields[1..] by {
        assert fields == [g] + fields[1..];
      }
    }
  }

  /** Each listed field yields its HIGH finding once when present but empty. */
  lemma {:induction false} EmptyFieldMultiplicity(path: string, data: map<string, Value>, fields: seq<string>, f: string)
    requires forall i, j :: 0 <= i < j < |fields| ==> fields[i] != fields[j]
    ensures multiset(StructureFrom(path, data, fields))[EmptyFieldIssue(path, f)]
      == if f in fields && f in data && Blank(data[f]) then 1 else 0
  {
    if |fields| > 0 {
      var g := fields[0];
      var head :=
        if g !in data then [MissingFieldIssue(path, g)]
        else if Blank(data[g]) then [EmptyFieldIssue(path, g)]
        else [];
      var rest := StructureFrom(path, data, fields[1..]);
      StructureStep(path, data, fields);
      HeadNotInTail(fields);
      EmptyFieldMultiplicity(path, data, fields[1..], f);
      FieldIssuesInjective(path, f, g);
      assert multiset(head + rest) == multiset(head) + multiset(rest);
      assert f in fields <==> f == g || f in fields[1..] by {
        assert fields == [g] + fields[1..];
      }
    }
  }

  /** `_check_prompt_structure`: for each required field exactly one CRITICAL
      finding when it is absent, exactly one HIGH finding when it is present
      but empty, never both, and nothing else. */
  function CheckPromptStructure(path: string, data: map<string, Value>): (r: seq<Issue>)
    ensures |r| <= 4
    ensures forall f :: f in RequiredFields ==>
      multiset(r)[MissingFieldIssue(path, f)] == if f !in data then 1 else 0
    ensures forall f :: f in RequiredFields ==>
      multiset(r)[EmptyFieldIssue(path, f)] == if f in data && Blank(data[f]) then 1 else 0
    ensures forall x :: x in r ==> exists f :: f in RequiredFields && (x == MissingFieldIssue(path, f) || x == EmptyFieldIssue(path, f))
  {
    var r := StructureFrom(path, data, RequiredFields);
    StructureNamesFields(path, data, RequiredFields);
    forall f | f in RequiredFields
      ensures multiset(r)[MissingFieldIssue(path, f)] == if f !in data then 1 else 0
      ensures multiset(r)[EmptyFieldIssue(path, f)] == if f in data && Blank(data[f]) then 1 else 0
    {
      MissingFieldMultiplicity(path, data, RequiredFields, f);
      EmptyFieldMultiplicity(path, data, RequiredFields, f);
    }
    r
  }

  /** The fields of `fields` the document lacks, in order. */
  function MissingRequired(data: map<string, Value>, fields: seq<string>): (r: seq<string>)
    ensures |r| <= |fields|
    ensures forall f :: f in r <==> f in fields && f !in data
  {
    if |fields| == 0 then []
    else (if fields[0] !in data then [fields[0]] else []) + MissingRequired(data, fields[1..])
  }

  /** The structure check's CRITICAL findings are one per missing field. */
  lemma {:induction false} StructureCriticals(path: string, data: map<string, Value>, fields: seq<string>)
    ensures Count(StructureFrom(path, data, fields), Critical) == |MissingRequired(data, fields)|
  {
    if |fields| > 0 {
      var f := fields[0];
      var head :=
        if f !in data then [MissingFieldIssue(path, f)]
        else if Blank(data[f]) then [EmptyFieldIssue(path, f)]
        else [];
      StructureCriticals(path, data, fields[1..]);
      assert StructureFrom(path, data, fields) == head + StructureFrom(path, data, fields[1..]);
      OfSeverityAppend(head, StructureFrom(path, data, fields[1..]), Critical);
    }
  }

  // ---------------------------------------------------------------- examples

  /** What the examples check needs to know about one example. */
  datatype Shape = NotMapping | Mapping(hasInput: bool, hasOutput: bool)

  function ShapeOf(v: Value): Shape {
    if v.Dict? then Mapping("input" in v.entries, "output" in v.entries) else NotMapping
  }

  /** The shapes `for ex in examples` visits, or None where Python raises
      TypeError. A string yields its characters and a mapping its keys:
      strings, so never mappings. */
  function EntryShapes(v: Value): (r: Option<seq<Shape>>)
    ensures r.Some? <==> v.List? || v.Str? || v.Dict?
    ensures v.List? ==> r == Some(seq(|v.items|, i requires 0 <= i < |v.items| => ShapeOf(v.items[i])))
    ensures !v.List? && r.Some? ==> forall i :: 0 <= i < |r.value| ==> r.value[i] == NotMapping
    ensures v.Str? ==> |r.value| == |v.s|
    ensures v.Dict? ==> |r.value| == |v.entries|
  {
    match v
    case List(items) => Some(seq(|items|, i requires 0 <= i < |items| => ShapeOf(items[i])))
    case Str(s) => Some(seq(|s|, i => NotMapping))
    case Dict(entries) => Some(seq(|entries|, i => NotMapping))
    case _ => None
  }

  const NoExamplesDescription: string := "Prompts de qualidade devem incluir exemplos input/output"
  const NoExamplesSuggestion: string := "Adicionar seção 'examples' com pelo menos 2-3 casos de uso"

  function NoExamplesIssue(path: string): Issue {
    Issue(High, "Few-Shot Learning", path, None,
      "Sem exemplos few-shot",
      NoExamplesDescription,
      NoExamplesSuggestion,
      "")
  }

  const FewExamplesDescription: string := "Recomenda-se 2-3 exemplos para melhor performance"
  const FewExamplesSuggestion: string := "Expandir exemplos para cobrir casos comuns e edge cases"

  function FewExamplesIssue(path: string): Issue {
    Issue(Medium, "Few-Shot Learning", path, None,
      "Few-shot examples insuficientes",
      FewExamplesDescription,
      FewExamplesSuggestion,
      "")
  }

  const MalformedExampleDescription: string := "Cada exemplo deve ser um dicionário"
  const MalformedExampleSuggestion: string := "Estruturar como: {input: '...', output: '...'}"

  /** The finding for example `i` (0-based; numbered from 1) that is not a mapping. */
  function MalformedExampleIssue(path: string, i: nat): Issue {
    Issue(Medium, "Few-Shot Learning", path, None,
      "Exemplo #" + NatToString(i + 1) + " mal formatado",
      MalformedExampleDescription,
      MalformedExampleSuggestion,
      "")
  }

  const IncompleteExampleDescription: string := "Exemplo deve ter 'input' e 'output'"
  const IncompleteExampleSuggestion: string := "Adicionar ambos os campos para completar exemplo"

  /** The finding for example `i` that lacks `input` or `output`. */
  function IncompleteExampleIssue(path: string, i: nat): Issue {
    Issue(Medium, "Few-Shot Learning", path, None,
      "Exemplo #" + NatToString(i + 1) + " incompleto",
      IncompleteExampleDescription,
      IncompleteExampleSuggestion,
      "")
  }

  /** The example lacks one of its two keys. */
  predicate Incomplete(s: Shape) {
    s.Mapping? && !(s.hasInput && s.hasOutput)
  }

  /** The per-example findings from example `i` on. */
  function ExampleIssues(path: string, shapes: seq<Shape>, i: nat): (r: seq<Issue>)
    requires i <= |shapes|
    ensures |r| <= |shapes| - i
    ensures forall x :: x in r ==> x.severity == Medium
    ensures forall x :: x in r ==>
      (exists k :: i <= k < |shapes| &&
        ((x == MalformedExampleIssue(path, k) && shapes[k] == NotMapping)
         || (x == IncompleteExampleIssue(path, k) && Incomplete(shapes[k]))))
    decreases |shapes| - i
  {
    if i == |shapes| then []
    else
      (if shapes[i] == NotMapping then [MalformedExampleIssue(path, i)]
       else if Incomplete(shapes[i]) then [IncompleteExampleIssue(path, i)]
       else [])
      + ExampleIssues(path, shapes, i + 1)
  }

  /** Example findings for different positions never coincide. */
  lemma ExampleIssueInjective(path: string, i: nat, j: nat)
    ensures MalformedExampleIssue(path, i) == MalformedExampleIssue(path, j) ==> i == j
    ensures IncompleteExampleIssue(path, i) == IncompleteExampleIssue(path, j) ==> i == j
  {
    if MalformedExampleIssue(path, i) == MalformedExampleIssue(path, j) {
      FramedInjective("Exemplo #", NatToString(i + 1), NatToString(j + 1), " mal formatado");
      NatToStringInjective(i + 1, j + 1);
    }
    if IncompleteExampleIssue(path, i) == IncompleteExampleIssue(path, j) {
      FramedInjective("Exemplo #", NatToString(i + 1), NatToString(j + 1), " incompleto");
      NatToStringInjective(i + 1, j + 1);
    }
  }

  /** The findings of example `i` followed by the later ones'. */
  lemma ExampleIssuesStep(path: string, shapes: seq<Shape>, i: nat)
    requires i < |shapes|
    ensures ExampleIssues(path, shapes, i) ==
      (if shapes[i] == NotMapping then [MalformedExampleIssue(path, i)]
       else if Incomplete(shapes[i]) then [IncompleteExampleIssue(path, i)]
       else [])
      + ExampleIssues(path, shapes, i + 1)
  {
  }

  /** The two per-example findings never coincide. */
  lemma ExampleKindsDiffer(path: string, i: nat, k: nat)
    ensures MalformedExampleIssue(path, i) != IncompleteExampleIssue(path, k)
    ensures IncompleteExampleIssue(path, i) != MalformedExampleIssue(path, k)
  {
    assert MalformedExampleIssue(path, i).description[0] == 'C';
    assert MalformedExampleIssue(path, k).description[0] == 'C';
  }

  /** Each example at position `k >= i` is reported once as malformed when
      it is not a mapping, and never otherwise. */
  lemma {:induction false} MalformedMultiplicity(path: string, shapes: seq<Shape>, i: nat, k: nat)
    requires i <= |shapes|
    ensures multiset(ExampleIssues(path, shapes, i))[MalformedExampleIssue(path, k)]
      == if i <= k < |shapes| && shapes[k] == NotMapping then 1 else 0
    decreases |shapes| - i
  {
    if i < |shapes| {
      var head :=
        if shapes[i] == NotMapping then [MalformedExampleIssue(path, i)]
        else if Incomplete(shapes[i]) then [IncompleteExampleIssue(path, i)]
        else [];
      var rest := ExampleIssues(path, shapes, i + 1);
      ExampleIssuesStep(path, shapes, i);
      MalformedMultiplicity(path, shapes, i + 1, k);
      ExampleIssueInjective(path, i, k);
      ExampleKindsDiffer(path, i, k);
      assert multiset(head + rest) == multiset(head) + multiset(rest);
    }
  }

  /** Each example at position `k >= i` is reported once as incomplete when
      it is a mapping without both keys, and never otherwise. */
  lemma {:induction false} IncompleteMultiplicity(path: string, shapes: seq<Shape>, i: nat, k: nat)
    requires i <= |shapes|
    ensures multiset(ExampleIssues(path, shapes, i))[IncompleteExampleIssue(path, k)]
      == if i <= k < |shapes| && Incomplete(shapes[k]) then 1 else 0
    decreases |shapes| - i
  {
    if i < |shapes| {
      var head :=
        if shapes[i] == NotMapping then [MalformedExampleIssue(path, i)]
        else if Incomplete(shapes[i]) then [IncompleteExampleIssue(path, i)]
        else [];
      var rest := ExampleIssues(path, shapes, i + 1);
      ExampleIssuesStep(path, shapes, i);
      IncompleteMultiplicity(path, shapes, i + 1, k);
      ExampleIssueInjective(path, i, k);
      ExampleKindsDiffer(path, i, k);
      assert multiset(head + rest) == multiset(head) + multiset(rest);
    }
  }

  /** The count finding is never among the per-example findings. */
  lemma FewNotPerExample(path: string, shapes: seq<Shape>)
    ensures FewExamplesIssue(path) !in ExampleIssues(path, shapes, 0)
    ensures NoExamplesIssue(path) !in ExampleIssues(path, shapes, 0)
  {
    var each := ExampleIssues(path, shapes, 0);
    forall x | x in each
      ensures x.title[0] == 'E'
    {
      var k :| 0 <= k < |shapes| &&
        ((x == MalformedExampleIssue(path, k) && shapes[k] == NotMapping)
         || (x == IncompleteExampleIssue(path, k) && Incomplete(shapes[k])));
    }
    assert FewExamplesIssue(path).title[0] == 'F';
    assert NoExamplesIssue(path).title[0] == 'S';
  }

  /** The findings for an iterable `examples` value whose entries have the given shapes. */
  function ExampleListFindings(path: string, ex: Value, shapes: seq<Shape>): (r: seq<Issue>)
    ensures |r| <= 1 + |shapes|
    ensures forall x :: x in r ==> x.severity == Medium
  {
    (if !ex.List? || |ex.items| < 2 then [FewExamplesIssue(path)] else [])
    + ExampleIssues(path, shapes, 0)
  }

  /** The count finding appears once exactly when the value is not a list of
      at least two; each example is reported once as malformed when it is not
      a mapping and once as incomplete when it lacks a key, and the missing-key
      finding never appears. */
  lemma ExampleListCounts(path: string, ex: Value, shapes: seq<Shape>)
    ensures var r := ExampleListFindings(path, ex, shapes);
      && NoExamplesIssue(path) !in r
      && multiset(r)[FewExamplesIssue(path)] == (if !ex.List? || |ex.items| < 2 then 1 else 0)
      && (forall k: nat ::
            multiset(r)[MalformedExampleIssue(path, k)] == (if k < |shapes| && shapes[k] == NotMapping then 1 else 0))
      && (forall k: nat ::
            multiset(r)[IncompleteExampleIssue(path, k)] == (if k < |shapes| && Incomplete(shapes[k]) then 1 else 0))
  {
    var few := if !ex.List? || |ex.items| < 2 then [FewExamplesIssue(path)] else [];
    var each := ExampleIssues(path, shapes, 0);
    FewNotPerExample(path, shapes);
    assert multiset(few + each) == multiset(few) + multiset(each);
    forall k: nat
      ensures multiset(few + each)[MalformedExampleIssue(path, k)] == if k < |shapes| && shapes[k] == NotMapping then 1 else 0
      ensures multiset(few + each)[IncompleteExampleIssue(path, k)] == if k < |shapes| && Incomplete(shapes[k]) then 1 else 0
    {
      ExampleCountsAt(path, shapes, k);
    }
  }

  /** One position's per-example findings, and that the count finding is
      neither of them. */
  lemma ExampleCountsAt(path: string, shapes: seq<Shape>, k: nat)
    ensures multiset(ExampleIssues(path, shapes, 0))[MalformedExampleIssue(path, k)]
      == if k < |shapes| && shapes[k] == NotMapping then 1 else 0
    ensures multiset(ExampleIssues(path, shapes, 0))[IncompleteExampleIssue(path, k)]
      == if k < |shapes| && Incomplete(shapes[k]) then 1 else 0
    ensures FewExamplesIssue(path) != MalformedExampleIssue(path, k)
    ensures FewExamplesIssue(path) != IncompleteExampleIssue(path, k)
  {
    MalformedMultiplicity(path, shapes, 0, k);
    IncompleteMultiplicity(path, shapes, 0, k);
    assert FewExamplesIssue(path).title[0] == 'F';
    assert MalformedExampleIssue(path, k).title[0] == 'E';
    assert IncompleteExampleIssue(path, k).title[0] == 'E';
  }

  /** `_check_few_shot_examples`: a document without `examples` gets one HIGH
      finding and nothing else; otherwise one MEDIUM finding when the value is
      not a list of at least two, plus one per malformed or incomplete
      example; a value that cannot be iterated makes the check raise. */
  function CheckFewShotExamples(path: string, data: map<string, Value>): (r: Result<seq<Issue>, string>)
    ensures "examples" !in data ==> r == Success([NoExamplesIssue(path)])
    ensures "examples" in data ==> (r.Success? <==> EntryShapes(data["examples"]).Some?)
    ensures "examples" in data && r.Success? ==>
      r.value == ExampleListFindings(path, data["examples"], EntryShapes(data["examples"]).value)
  {
    if "examples" !in data then Success([NoExamplesIssue(path)])
    else
      var ex := data["examples"];
      match EntryShapes(ex)
      case None => Failure("TypeError: object is not iterable")
      case Some(shapes) => Success(ExampleListFindings(path, ex, shapes))
  }

  // -------------------------------------------------------------- versioning

  const VersionMissingDescription: string := "Campo 'version' é obrigatório"
  const VersionMissingSuggestion: string := "Define versão: 'v1', 'v2', '1.0.0', etc."

  function VersionMissingIssue(path: string): Issue {
    Issue(High, "Versioning", path, None,
      "Versão não definida",
      VersionMissingDescription,
      VersionMissingSuggestion,
      "")
  }

  const VersionFormatDescription: string := "Use padrão semântico: v1, v2, 1.0.0"

  /** The suggestion quotes the version as `str()` prints it. */
  function VersionFormatIssue(path: string, version: string): Issue {
    Issue(Medium, "Versioning", path, None,
      "Formato de versão não padrão",
      VersionFormatDescription,
      "Reformatar versão para algo como 'v" + version + "'",
      "")
  }

  const VersionMismatchDescription: string := "Versão no arquivo não combina com versão no YAML"
  const VersionMismatchSuggestion: string := "Manter consistência: bug_to_user_story_v2.yml deve ter version: v2"

  function VersionMismatchIssue(path: string): Issue {
    Issue(Medium, "Versioning", path, None,
      "Inconsistência de versão",
      VersionMismatchDescription,
      VersionMismatchSuggestion,
      "")
  }

  /** `data.get("version", "")` */
  function VersionOf(data: map<string, Value>): Value {
    Get(data, "version", Str(""))
  }

  /** `"v1" in filepath.name and "v2" in str(version)`: only a v1 file
      carrying a v2 version is reported, never the other way round. */
  predicate VersionMismatch(path: string, version: Value) {
    Contains(BaseName(path), "v1") && Contains(PyStr(version), "v2")
  }

  /** The three versioning findings are told apart by their titles. */
  lemma VersionIssuesDistinct(path: string, shown: string)
    ensures VersionMismatchIssue(path) != VersionFormatIssue(path, shown)
    ensures VersionMissingIssue(path) != VersionFormatIssue(path, shown)
    ensures VersionMissingIssue(path) != VersionMismatchIssue(path)
  {
    assert VersionMismatchIssue(path).title[0] == 'I';
    assert VersionFormatIssue(path, shown).title[0] == 'F';
    assert VersionMissingIssue(path).title[0] == 'V';
  }

  /** `_check_prompt_versioning`: one HIGH finding when the version is empty or
      absent, in which case the format is not checked; otherwise one MEDIUM
      finding when its lower-cased text has no "v"; and independently one
      MEDIUM finding for a v1 file name with a v2 version. */
  function CheckPromptVersioning(path: string, data: map<string, Value>): (r: seq<Issue>)
    ensures multiset(r)[VersionMissingIssue(path)] == if !Truthy(VersionOf(data)) then 1 else 0
    ensures multiset(r)[VersionFormatIssue(path, PyStr(VersionOf(data)))] ==
      if Truthy(VersionOf(data)) && !Contains(Lower(PyStr(VersionOf(data))), "v") then 1 else 0
    ensures multiset(r)[VersionMismatchIssue(path)] == if VersionMismatch(path, VersionOf(data)) then 1 else 0
    ensures forall x :: x in r ==>
      x == VersionMissingIssue(path) || x == VersionFormatIssue(path, PyStr(VersionOf(data))) || x == VersionMismatchIssue(path)
    ensures |r| <= 2
  {
    var version := VersionOf(data);
    var shown := PyStr(version);
    VersionIssuesDistinct(path, shown);
    (if !Truthy(version) then [VersionMissingIssue(path)]
     else if !Contains(Lower(shown), "v") then [VersionFormatIssue(path, shown)]
     else [])
    + (if VersionMismatch(path, version) then [VersionMismatchIssue(path)] else [])
  }

  /** "v1" does not contain "v2". */
  lemma V1LacksV2()
    ensures !Contains("v1", "v2")
  {
    forall i | 0 <= i <= 2
      ensures !StartsWith("v1"[i..], "v2")
    {
      if i == 0 {
        assert "v1"[0..][1] == '1';
      }
    }
  }

  lemma V1FileIsItsName()
    ensures BaseName("p_v1.yml") == "p_v1.yml"
  {
    BaseNameWithoutDirectory("p_v1.yml");
  }

  lemma V1FileMentionsV1()
    ensures Contains("p_v1.yml", "v1")
  {
    ContainsAt("p_v1.yml", "v1", 2);
  }

  lemma V2Version()
    ensures Contains(PyStr(Str("v2")), "v2")
  {
    assert "v2"[0..][..2] == "v2";
    ContainsAt("v2", "v2", 0);
  }

  /** A v1 file name with a v2 version is a mismatch. */
  lemma V1FileWithV2Version()
    ensures VersionMismatch("p_v1.yml", Str("v2"))
  {
    V1FileIsItsName();
    V1FileMentionsV1();
    V2Version();
  }

  /** A v2 file name with a v1 version is not. */
  lemma V2FileWithV1Version()
    ensures !VersionMismatch("p_v2.yml", Str("v1"))
  {
    V1LacksV2();
  }

  /** The mismatch check is one-sided: a v2 file with a v1 version passes. */
  lemma VersionMismatchIsOneSided()
    ensures VersionMismatchIssue("p_v1.yml") in CheckPromptVersioning("p_v1.yml", map["version" := Str("v2")])
    ensures VersionMismatchIssue("p_v2.yml") !in CheckPromptVersioning("p_v2.yml", map["version" := Str("v1")])
  {
    assert VersionOf(map["version" := Str("v2")]) == Str("v2");
    assert VersionOf(map["version" := Str("v1")]) == Str("v1");
    V1FileWithV2Version();
    V2FileWithV1Version();
  }

  // -------------------------------------------------------------- techniques

  /** The technique names the course recognises. */
  const KnownTechniques: seq<string> :=
    ["Few-shot Learning", "Chain of Thought", "Tree of Thought", "Skeleton of Thought", "ReAct", "Role Prompting"]

  /** Some recognised name occurs, ignoring case, in the entry's text. */
  predicate Recognised(t: Value) {
    exists k :: 0 <= k < |KnownTechniques| && Contains(Lower(PyStr(t)), Lower(KnownTechniques[k]))
  }

  /** Every recognised name is at least five characters long and starts with
      a letter. */
  lemma KnownTechniqueShape(k: int)
    requires 0 <= k < |KnownTechniques|
    ensures |Lower(KnownTechniques[k])| >= 5
    ensures 'a' <= Lower(KnownTechniques[k])[0] <= 'z'
  {
  }

  /** An entry that is a mapping is never recognised: its text here is "{}"
      or "{...}", too short or of the wrong shape to hold a recognised name. */
  lemma MappingNeverRecognised(t: Value)
    requires t.Dict?
    ensures !Recognised(t)
  {
    var text := Lower(PyStr(t));
    assert |text| <= 5 && text[0] == '{';
    forall k | 0 <= k < |KnownTechniques|
      ensures !Contains(text, Lower(KnownTechniques[k]))
    {
      var sub := Lower(KnownTechniques[k]);
      KnownTechniqueShape(k);
      forall i | 0 <= i <= |text|
        ensures !StartsWith(text[i..], sub)
      {
        if i == 0 {
          assert text[i..][0] != sub[0];
        }
      }
    }
  }

  /** The entries no recognised name matches, in order. */
  function Unrecognised(techniques: seq<Value>): (r: seq<Value>)
    ensures |r| <= |techniques|
    ensures forall t :: t in r <==> t in techniques && !Recognised(t)
  {
    if |techniques| == 0 then []
    else (if Recognised(techniques[0]) then [] else [techniques[0]]) + Unrecognised(techniques[1..])
  }

  /** Each unrecognised entry is kept as often as it occurs, and no other entry. */
  lemma {:induction false} UnrecognisedMultiplicity(techniques: seq<Value>, t: Value)
    ensures multiset(Unrecognised(techniques))[t] == if Recognised(t) then 0 else multiset(techniques)[t]
  {
    if |techniques| > 0 {
      var h := if Recognised(techniques[0]) then [] else [techniques[0]];
      HeadMultiset(techniques);
      ConcatMultiset(h, Unrecognised(techniques[1..]));
      UnrecognisedMultiplicity(techniques[1..], t);
    }
  }

  /** Filtering keeps the order of the list: the unrecognised entries of two
      stretches are those of the first followed by those of the second. */
  lemma {:induction false} UnrecognisedAppend(a: seq<Value>, b: seq<Value>)
    ensures Unrecognised(a + b) == Unrecognised(a) + Unrecognised(b)
  {
    if |a| == 0 {
      assert a + b == b;
    } else {
      var h := if Recognised(a[0]) then [] else [a[0]];
      assert (a + b)[0] == a[0] && (a + b)[1..] == a[1..] + b;
      UnrecognisedAppend(a[1..], b);
      ConcatAssoc(h, Unrecognised(a[1..]), Unrecognised(b));
    }
  }

  const TechniquesMissingDescription: string := "'techniques_applied' deve listar técnicas usadas"
  const TechniquesMissingSuggestion: string := "Adicionar lista de técnicas: ['Few-shot Learning', 'Chain of Thought']"

  function TechniquesMissingIssue(path: string): Issue {
    Issue(High, "Prompt Engineering", path, None,
      "Técnicas não documentadas",
      TechniquesMissingDescription,
      TechniquesMissingSuggestion,
      "")
  }

  const FewTechniquesDescription: string := "Requisito mínimo: 2 técnicas de prompt engineering"
  const FewTechniquesSuggestion: string := "Aplicar e documentar pelo menos 2 técnicas diferentes"

  function FewTechniquesIssue(path: string): Issue {
    Issue(Medium, "Prompt Engineering", path, None,
      "Poucas técnicas aplicadas",
      FewTechniquesDescription,
      FewTechniquesSuggestion,
      "")
  }

  const UnknownTechniqueDescription: string := "Técnica pode ser pouco clara ou não reconhecida"
  const UnknownTechniqueSuggestion: string := "Usar nomes padrão do curso ou descrever melhor"

  function UnknownTechniqueIssue(path: string, t: Value): Issue {
    Issue(Low, "Prompt Engineering", path, None,
      "Técnica desconhecida: '" + PyStr(t) + "'",
      UnknownTechniqueDescription,
      UnknownTechniqueSuggestion,
      "")
  }

  /** `data.get("techniques_applied", [])` */
  function TechniquesOf(data: map<string, Value>): Value {
    Get(data, "techniques_applied", List([]))
  }

  /** The findings for a non-empty list of techniques: one MEDIUM finding
      when it has fewer than two entries, then one LOW finding per
      unrecognised entry, in order. */
  function TechniqueListIssues(path: string, items: seq<Value>): (r: seq<Issue>)
    ensures Count(r, High) == 0 && Count(r, Critical) == 0
    ensures FewTechniquesIssue(path) in r <==> |items| < 2
    ensures Count(r, Low) == |Unrecognised(items)|
    ensures forall t :: t in items && !Recognised(t) ==> UnknownTechniqueIssue(path, t) in r
    ensures forall x :: x in r && x.severity == Low ==>
      exists t :: t in items && !Recognised(t) && x == UnknownTechniqueIssue(path, t)
    // exactly one MEDIUM finding when short, and nothing but it and the LOW ones
    ensures multiset(r)[FewTechniquesIssue(path)] == if |items| < 2 then 1 else 0
    ensures forall x :: x in r ==> x == FewTechniquesIssue(path) || x.severity == Low
    // the LOW findings follow the unrecognised entries one for one, in order
    ensures forall i :: 0 <= i < |Unrecognised(items)| ==>
      OfSeverity(r, Low)[i] == UnknownTechniqueIssue(path, Unrecognised(items)[i])
  {
    var few := if |items| < 2 then [FewTechniquesIssue(path)] else [];
    var unknown := Unrecognised(items);
    var lows := seq(|unknown|, i requires 0 <= i < |unknown| => UnknownTechniqueIssue(path, unknown[i]));
    UnknownFindings(path, unknown, lows);
    OfSeverityAppend(few, lows, High);
    OfSeverityAppend(few, lows, Low);
    OfSeverityAppend(few, lows, Critical);
    ListIssuesShape(path, |items| < 2, unknown, few, lows);
    few + lows
  }

  /** The optional MEDIUM finding followed by LOW findings made one per
      unrecognised entry: the MEDIUM finding occurs once exactly when asked
      for, and the LOW ones are the entries' findings in order. */
  lemma ListIssuesShape(path: string, short: bool, unknown: seq<Value>, few: seq<Issue>, lows: seq<Issue>)
    requires few == if short then [FewTechniquesIssue(path)] else []
    requires |lows| == |unknown|
    requires forall i :: 0 <= i < |unknown| ==> lows[i] == UnknownTechniqueIssue(path, unknown[i])
    ensures multiset(few + lows)[FewTechniquesIssue(path)] == if short then 1 else 0
    ensures forall x :: x in few + lows ==> x == FewTechniquesIssue(path) || x.severity == Low
    ensures OfSeverity(few + lows, Low) == lows
  {
    assert forall x :: x in lows ==> x.severity == Low;
    UniformSeverity(lows, Low);
    OfSeverityAppend(few, lows, Low);
    assert OfSeverity(few, Low) == [] by {
      if short { assert few[1..] == []; }
    }
    ConcatMultiset(few, lows);
    assert FewTechniquesIssue(path) !in lows;
  }

  /** The LOW findings made from the unrecognised entries, one per entry. */
  lemma UnknownFindings(path: string, unknown: seq<Value>, lows: seq<Issue>)
    requires |lows| == |unknown|
    requires forall i :: 0 <= i < |unknown| ==> lows[i] == UnknownTechniqueIssue(path, unknown[i])
    ensures Count(lows, Low) == |lows| && Count(lows, High) == 0 && Count(lows, Critical) == 0
    ensures forall t :: t in unknown ==> UnknownTechniqueIssue(path, t) in lows
    ensures forall x :: x in lows ==> x.severity == Low && exists t :: t in unknown && x == UnknownTechniqueIssue(path, t)
  {
    forall x | x in lows
      ensures x.severity == Low && exists t :: t in unknown && x == UnknownTechniqueIssue(path, t)
    {
      var i :| 0 <= i < |lows| && lows[i] == x;
      assert unknown[i] in unknown;
    }
    forall t | t in unknown
      ensures UnknownTechniqueIssue(path, t) in lows
    {
      var i :| 0 <= i < |unknown| && unknown[i] == t;
      assert lows[i] == UnknownTechniqueIssue(path, t);
    }
    UniformSeverity(lows, Low);
  }

  /** `_check_techniques`: an empty or absent list gives one HIGH finding and
      nothing else; a non-empty list gives the list findings; any other
      non-empty value is not examined. */
  function CheckTechniques(path: string, data: map<string, Value>): (r: seq<Issue>)
    ensures !Truthy(TechniquesOf(data)) ==> r == [TechniquesMissingIssue(path)]
    ensures Truthy(TechniquesOf(data)) && !TechniquesOf(data).List? ==> r == []
    ensures Truthy(TechniquesOf(data)) && TechniquesOf(data).List? ==> r == TechniqueListIssues(path, TechniquesOf(data).items)
  {
    var techniques := TechniquesOf(data);
    if !Truthy(techniques) then [TechniquesMissingIssue(path)]
    else if !techniques.List? then []
    else TechniqueListIssues(path, techniques.items)
  }

  // --------------------------------------------------------------- document

  /** `examples` is absent, or a value a `for` loop can walk. */
  predicate ExamplesIterable(data: map<string, Value>) {
    "examples" in data ==> (data["examples"].List? || data["examples"].Str? || data["examples"].Dict?)
  }

  /** `_analyze_yaml_file` after a successful load: the four checks in order.
      A document that is not a mapping makes one of them raise. */
  function AnalyzePromptDocument(path: string, doc: Value): (r: Result<seq<Issue>, string>)
    ensures !doc.Dict? ==> r.Failure?
    ensures r.Success? <==> doc.Dict? && ExamplesIterable(doc.entries)
    ensures doc.Dict? ==> (r.Success? <==> CheckFewShotExamples(path, doc.entries).Success?)
    ensures r.Success? ==>
      r.value == CheckPromptStructure(path, doc.entries) + CheckFewShotExamples(path, doc.entries).value
        + CheckPromptVersioning(path, doc.entries) + CheckTechniques(path, doc.entries)
  {
    if !doc.Dict? then Failure("AttributeError: document is not a mapping")
    else
      var data := doc.entries;
      match CheckFewShotExamples(path, data)
      case Failure(e) => Failure(e)
      case Success(examples) =>
        Success(CheckPromptStructure(path, data) + examples + CheckPromptVersioning(path, data) + CheckTechniques(path, data))
  }

  /** The examples check never reports anything CRITICAL. */
  lemma ExamplesNotCritical(path: string, data: map<string, Value>)
    requires CheckFewShotExamples(path, data).Success?
    ensures Count(CheckFewShotExamples(path, data).value, Critical) == 0
  {
    var b := CheckFewShotExamples(path, data).value;
    forall x | x in b
      ensures x.severity != Critical
    {
    }
    NoneOfSeverity(b, Critical);
  }

  /** The versioning check never reports anything CRITICAL. */
  lemma VersioningNotCritical(path: string, data: map<string, Value>)
    ensures Count(CheckPromptVersioning(path, data), Critical) == 0
  {
    NoneOfSeverity(CheckPromptVersioning(path, data), Critical);
  }

  /** Severity counts of the versioning check: one HIGH finding exactly when
      the version is missing, and one MEDIUM finding for each of the format
      and file-name tests that fails. */
  lemma VersioningCounts(path: string, data: map<string, Value>)
    ensures Count(CheckPromptVersioning(path, data), High) == if !Truthy(VersionOf(data)) then 1 else 0
    ensures Count(CheckPromptVersioning(path, data), Medium) ==
      (if Truthy(VersionOf(data)) && !Contains(Lower(PyStr(VersionOf(data))), "v") then 1 else 0)
      + (if VersionMismatch(path, VersionOf(data)) then 1 else 0)
  {
    var version := VersionOf(data);
    var shown := PyStr(version);
    var a := if !Truthy(version) then [VersionMissingIssue(path)]
      else if !Contains(Lower(shown), "v") then [VersionFormatIssue(path, shown)]
      else [];
    var b := if VersionMismatch(path, version) then [VersionMismatchIssue(path)] else [];
    assert CheckPromptVersioning(path, data) == a + b;
    CountPair(a, b, High);
    CountPair(a, b, Medium);
  }

  /** The techniques check never reports anything CRITICAL. */
  lemma TechniquesNotCritical(path: string, data: map<string, Value>)
    ensures Count(CheckTechniques(path, data), Critical) == 0
  {
    if !Truthy(TechniquesOf(data)) {
      NoneOfSeverity(CheckTechniques(path, data), Critical);
    }
  }

  /** For a document the checks accept, the only CRITICAL findings are the
      missing required fields: examples, versioning and techniques never
      report anything CRITICAL. */
  lemma DocumentCriticals(path: string, doc: Value)
    requires doc.Dict? && ExamplesIterable(doc.entries)
    ensures AnalyzePromptDocument(path, doc).Success?
    ensures Count(AnalyzePromptDocument(path, doc).value, Critical) == |MissingRequired(doc.entries, RequiredFields)|
  {
    var data := doc.entries;
    var a := CheckPromptStructure(path, data);
    var b := CheckFewShotExamples(path, data).value;
    var c := CheckPromptVersioning(path, data);
    var d := CheckTechniques(path, data);
    StructureCriticals(path, data, RequiredFields);
    ExamplesNotCritical(path, data);
    VersioningNotCritical(path, data);
    TechniquesNotCritical(path, data);
    OfSeverityAppend(a, b, Critical);
    OfSeverityAppend(a + b, c, Critical);
    OfSeverityAppend(a + b + c, d, Critical);
  }
}

=== FILE: push_prompts.dfy ===
/** The simplified validator `push_prompts` applies before publishing a
    prompt to the hub. */
module PushPrompts {
  import opened Utils
  import opened PyValue

  /** The keys a publishable prompt must have, in the order they are checked. */
  const PushRequired: seq<string> := ["description", "system_prompt", "version", "techniques_applied"]

  const NotDictError: string := "prompt_data deve ser um dicionário"
  const TechniquesListError: string := "Campo 'techniques_applied' deve conter" + " pelo menos 2 técnicas"

  /** The techniques are a list of at least two entries. */
  predicate EnoughTechniques(data: map<string, Value>) {
    var t := Get(data, "techniques_applied", List([]));
    t.List? && |t.items| >= 2
  }

  /** `validate_prompt`: the validity flag and the error list. Unlike the
      utilities' validator it never raises: `len` is only taken of a list. */
  function ValidatePrompt(v: Value): (r: (bool, seq<string>))
    ensures r.0 <==> r.1 == []
    ensures |r.1| <= 5
    ensures !v.Dict? ==> r == (false, [NotDictError])
    // each required key that is absent is reported once, a present one never
    ensures v.Dict? ==> forall k :: k in PushRequired ==>
      multiset(r.1)[MissingFieldError(k)] == if k in v.entries then 0 else 1
    // one techniques error exactly when they are not a list of two or more
    ensures v.Dict? ==> multiset(r.1)[TechniquesListError] == if EnoughTechniques(v.entries) then 0 else 1
    ensures v.Dict? ==> NotDictError !in r.1
    // and no other message
    ensures v.Dict? ==> forall e :: e in r.1 ==>
      e == TechniquesListError || exists k :: k in PushRequired && k !in v.entries && e == MissingFieldError(k)
    // a dictionary passes exactly when it has every key and enough techniques
    ensures v.Dict? ==> (r.0 <==> (forall k :: k in PushRequired ==> k in v.entries) && EnoughTechniques(v.entries))
  {
    if !v.Dict? then (false, [NotDictError])
    else
      var missing := MissingFieldErrors(v.entries, PushRequired);
      var errors := missing + if EnoughTechniques(v.entries) then [] else [TechniquesListError];
      PushRequiredDistinct();
      PushErrors(v.entries, PushRequired, errors);
      (|errors| == 0, errors)
  }

  lemma PushRequiredDistinct()
    ensures |PushRequired| == 4 && forall k :: k in PushRequired ==> multiset(PushRequired)[k] == 1
  {
  }

  /** The techniques message is not a missing-key message. */
  lemma TechniquesListErrorDistinct()
    ensures forall f :: MissingFieldError(f) != TechniquesListError
  {
    assert TechniquesListError[6] == '\'';
    NotMissingFieldError(TechniquesListError);
  }

  /** The missing-key messages and the techniques message never coincide. */
  lemma PushErrors(data: map<string, Value>, fields: seq<string>, errors: seq<string>)
    requires |fields| == 4 && forall k :: k in fields ==> multiset(fields)[k] == 1
    requires errors == MissingFieldErrors(data, fields) + if EnoughTechniques(data) then [] else [TechniquesListError]
    ensures |errors| <= 5
    ensures forall k :: k in fields ==>
      multiset(errors)[MissingFieldError(k)] == if k in data then 0 else 1
    ensures multiset(errors)[TechniquesListError] == if EnoughTechniques(data) then 0 else 1
    ensures NotDictError !in errors
    ensures forall e :: e in errors ==>
      e == TechniquesListError || exists k :: k in fields && k !in data && e == MissingFieldError(k)
    ensures errors == [] <==> (forall k :: k in fields ==> k in data) && EnoughTechniques(data)
  {
    var missing := MissingFieldErrors(data, fields);
    var tail := if EnoughTechniques(data) then [] else [TechniquesListError];
    forall k | k in fields
      ensures multiset(errors)[MissingFieldError(k)] == if k in data then 0 else 1
    {
      MissingFieldCount(data, fields, k);
      MissingKeyCount(missing, tail, k);
    }
    TechniquesListCount(data, fields, tail);
    forall e | e in errors && e != TechniquesListError
      ensures exists k :: k in fields && k !in data && e == MissingFieldError(k)
    {
      MissingFieldErrorSource(data, fields, e);
    }
    assert NotDictError[0] == 'p';
    assert NotDictError !in missing;
  }

  /** The techniques message, if any, does not disturb a key's count. */
  lemma MissingKeyCount(missing: seq<string>, tail: seq<string>, k: string)
    requires tail == [] || tail == [TechniquesListError]
    ensures multiset(missing + tail)[MissingFieldError(k)] == multiset(missing)[MissingFieldError(k)]
  {
    TechniquesListErrorDistinct();
    SplitCount(missing, tail, MissingFieldError(k));
  }

  /** The techniques message appears exactly when it is appended. */
  lemma TechniquesListCount(data: map<string, Value>, fields: seq<string>, tail: seq<string>)
    requires tail == [] || tail == [TechniquesListError]
    ensures multiset(MissingFieldErrors(data, fields) + tail)[TechniquesListError] == |tail|
  {
    TechniquesListErrorDistinct();
    OnlyMissingFieldErrors(data, fields, TechniquesListError);
    SplitCount(MissingFieldErrors(data, fields), tail, TechniquesListError);
  }
}

=== FILE: pyvalue.dfy ===
/** The parsed YAML document as Python sees it after `yaml.safe_load`: the
    handful of value kinds the checks inspect, with Python's truthiness,
    `dict.get`, `len()` and `str()`. */
module PyValue {
  import opened Wrappers
  import opened Text

  /** A loaded YAML value. `Float` keeps the text Python's `str()` prints for
      it; mapping keys are strings. */
  datatype Value =
    | Null
    | Bool(b: bool)
    | Int(i: int)
    | Float(repr: string)
    | Str(s: string)
    | List(items: seq<Value>)
    | Dict(entries: map<string, Value>)

  /** Python's `bool(v)`: None, False, zero and empty containers are false. */
  predicate Truthy(v: Value) {
    match v
    case Null => false
    case Bool(b) => b
    case Int(i) => i != 0
    case Float(repr) => repr != "0.0" && repr != "-0.0"
    case Str(s) => |s| > 0
    case List(items) => |items| > 0
    case Dict(entries) => |entries| > 0
  }

  /** `d.get(key, default)` */
  function Get(d: map<string, Value>, key: string, default: Value): (r: Value)
    ensures key in d ==> r == d[key]
    ensures key !in d ==> r == default
  {
    if key in d then d[key] else default
  }

  /** `len(v)`, or None where Python raises TypeError. */
  function Len(v: Value): (r: Option<nat>)
    ensures r.Some? <==> (v.Str? || v.List? || v.Dict?)
    ensures v.Str? ==> r == Some(|v.s|)
    ensures v.List? ==> r == Some(|v.items|)
    ensures v.Dict? ==> r == Some(|v.entries|)
  {
    match v
    case Str(s) => Some(|s|)
    case List(items) => Some(|items|)
    case Dict(entries) => Some(|entries|)
    case _ => None
  }

  /** `sep.join(parts)` */
  function JoinWith(parts: seq<string>, sep: string): string {
    if |parts| == 0 then ""
    else if |parts| == 1 then parts[0]
    else parts[0] + sep + JoinWith(parts[1..], sep)
  }

  /** `str(v)`. A non-empty mapping prints as "{...}": its entries are not rendered. */
  function PyStr(v: Value): string
    decreases v, 0
  {
    match v
    case Null => "None"
    case Bool(b) => if b then "True" else "False"
    case Int(i) => IntToString(i)
    case Float(repr) => repr
    case Str(s) => s
    case List(items) =>
      "[" + JoinWith(seq(|items|, k requires 0 <= k < |items| => Repr(items[k])), ", ") + "]"
    case Dict(entries) => if |entries| == 0 then "{}" else "{...}"
  }

  /** `repr(v)` as it appears inside a printed list: strings are quoted. */
  function Repr(v: Value): string
    decreases v, 1
  {
    if v.Str? then "'" + v.s + "'" else PyStr(v)
  }
}

=== FILE: reporting.dfy ===
/** What the review reports about a list of issues: the JSON report written
    by `save_report_json` (total, per-severity summary, one record per issue)
    and the structure of the text report of `generate_report` (the clean
    message, or a summary followed by one section per severity present,
    most severe first). Timestamps and the text layout are not modelled. */
module Reporting {
  import opened Wrappers
  import opened Issues

  // ----------------------------------------------------------------- summary

  /** The `summary` object: how many issues of each severity. */
  datatype Summary = Summary(critical: nat, high: nat, medium: nat, low: nat, suggestion: nat)

  /** The summary entry for one severity. */
  function Entry(summary: Summary, s: Severity): nat {
    match s
    case Critical => summary.critical
    case High => summary.high
    case Medium => summary.medium
    case Low => summary.low
    case Suggestion => summary.suggestion
  }

  /** The sum of the five entries. */
  function Total(summary: Summary): nat {
    summary.critical + summary.high + summary.medium + summary.low + summary.suggestion
  }

  /** The per-severity counts of `issues`. They always add up to the
      number of issues, and an empty list has an all-zero summary. */
  function SummaryOf(issues: seq<Issue>): (r: Summary)
    ensures forall s :: Entry(r, s) == Count(issues, s)
    ensures Total(r) == |issues|
    ensures issues == [] <==> r == Summary(0, 0, 0, 0, 0)
  {
    SeverityCountsSum(issues);
    Summary(Count(issues, Critical), Count(issues, High), Count(issues, Medium),
      Count(issues, Low), Count(issues, Suggestion))
  }

  // ----------------------------------------------------------------- records

  /** `ReviewIssue.to_dict()`: the priority is written as its label. */
  datatype IssueRecord = IssueRecord(
    priority: string,
    category: string,
    file: string,
    line: Option<nat>,
    title: string,
    description: string,
    suggestion: string,
    codeSnippet: string)

  function RecordOf(x: Issue): IssueRecord {
    IssueRecord(Label(x.severity), x.category, x.file, x.line, x.title, x.description, x.suggestion, x.snippet)
  }

  /** The severity a priority label names, if any. */
  function SeverityOfLabel(name: string): (r: Option<Severity>)
    ensures r.Some? ==> Label(r.value) == name
  {
    if name == Label(Critical) then Some(Critical)
    else if name == Label(High) then Some(High)
    else if name == Label(Medium) then Some(Medium)
    else if name == Label(Low) then Some(Low)
    else if name == Label(Suggestion) then Some(Suggestion)
    else None
  }

  /** Reading a record back into an issue; fails on an unknown label. */
  function IssueOfRecord(rec: IssueRecord): (r: Option<Issue>)
    ensures r.Some? ==> RecordOf(r.value) == rec
  {
    match SeverityOfLabel(rec.priority)
    case None => None
    case Some(s) => Some(Issue(s, rec.category, rec.file, rec.line, rec.title, rec.description, rec.suggestion, rec.codeSnippet))
  }

  /** Every severity has its own label, so labels identify severities. */
  lemma LabelRoundTrip(s: Severity)
    ensures SeverityOfLabel(Label(s)) == Some(s)
  {
    match s
    case Critical =>
    case High =>
      assert Label(High)[0] != Label(Critical)[0];
    case Medium =>
      assert Label(Medium)[0] != Label(Critical)[0] && Label(Medium)[0] != Label(High)[0];
    case Low =>
      assert Label(Low)[0] != Label(Critical)[0] && Label(Low)[0] != Label(High)[0]
        && Label(Low)[0] != Label(Medium)[0];
    case Suggestion =>
      assert Label(Suggestion)[0] != Label(Critical)[0] && Label(Suggestion)[0] != Label(High)[0]
        && Label(Suggestion)[0] != Label(Medium)[0] && Label(Suggestion)[0] != Label(Low)[0];
  }

  /** A written record reads back as the issue it was written from. */
  lemma RecordRoundTrip(x: Issue)
    ensures IssueOfRecord(RecordOf(x)) == Some(x)
  {
    LabelRoundTrip(x.severity);
  }

  // ------------------------------------------------------------- JSON report

  /** The JSON report without its timestamp. */
  datatype JsonReport = JsonReport(totalIssues: nat, summary: Summary, issues: seq<IssueRecord>)

  /** `save_report_json`: the total is the number of issues, the summary
      entries add up to it, and the records list every issue in order, each
      readable back into that issue. */
  function JsonReportOf(issues: seq<Issue>): (r: JsonReport)
    ensures r.totalIssues == |issues| == |r.issues| == Total(r.summary)
    ensures forall s :: Entry(r.summary, s) == Count(issues, s)
    ensures forall i :: 0 <= i < |issues| ==> IssueOfRecord(r.issues[i]) == Some(issues[i])
  {
    var records := seq(|issues|, i requires 0 <= i < |issues| => RecordOf(issues[i]));
    forall i | 0 <= i < |issues|
      ensures IssueOfRecord(records[i]) == Some(issues[i])
    {
      RecordRoundTrip(issues[i]);
    }
    JsonReport(|issues|, SummaryOf(issues), records)
  }

  // ------------------------------------------------------------- text report

  /** One severity's block of the text report, in the order the issues were found. */
  datatype Section = Section(severity: Severity, items: seq<Issue>)

  /** The text report: the clean message, or the summary, the total and
      the sections. */
  datatype TextReport = Clean | Findings(summary: Summary, total: nat, sections: seq<Section>)

  /** The whole report text when nothing was found. */
  const CleanMessage: string := "✅ Nenhum issue encontrado! Código está limpo.\n"

  /** The severities of `order` that occur in `issues`, in that order. */
  function Present(issues: seq<Issue>, order: seq<Severity>): (r: seq<Severity>)
    ensures |r| <= |order|
    ensures forall s :: s in r <==> s in order && Count(issues, s) > 0
  {
    if |order| == 0 then []
    else (if Count(issues, order[0]) > 0 then [order[0]] else []) + Present(issues, order[1..])
  }

  /** One section per severity, holding that severity's issues in order. */
  function SectionsOf(issues: seq<Issue>, severities: seq<Severity>): (r: seq<Section>)
    ensures |r| == |severities|
    ensures forall i :: 0 <= i < |r| ==> r[i] == Section(severities[i], OfSeverity(issues, severities[i]))
  {
    seq(|severities|, i requires 0 <= i < |severities| => Section(severities[i], OfSeverity(issues, severities[i])))
  }

  /** The issues of all sections, section after section. */
  function SectionItems(sections: seq<Section>): seq<Issue> {
    if |sections| == 0 then [] else sections[0].items + SectionItems(sections[1..])
  }

  /** The issues selected by each severity of `order`, together. */
  function SelectedBy(issues: seq<Issue>, order: seq<Severity>): multiset<Issue> {
    if |order| == 0 then multiset{} else multiset(OfSeverity(issues, order[0])) + SelectedBy(issues, order[1..])
  }

  /** Leaving out the severities without issues does not change the selection. */
  lemma {:induction false} PresentSelectsAll(issues: seq<Issue>, order: seq<Severity>)
    ensures SelectedBy(issues, Present(issues, order)) == SelectedBy(issues, order)
  {
    if |order| > 0 {
      PresentSelectsAll(issues, order[1..]);
      var rest := Present(issues, order[1..]);
      if Count(issues, order[0]) > 0 {
        assert Present(issues, order) == [order[0]] + rest;
        assert Present(issues, order)[1..] == rest;
      } else {
        assert Present(issues, order) == [] + rest;
        assert Present(issues, order) == rest;
        assert OfSeverity(issues, order[0]) == [];
        assert SelectedBy(issues, order) == multiset{} + SelectedBy(issues, order[1..]);
      }
    }
  }

  /** The sections built from a list of severities hold exactly what those
      severities select. */
  lemma {:induction false} SectionsHoldSelection(issues: seq<Issue>, severities: seq<Severity>)
    ensures multiset(SectionItems(SectionsOf(issues, severities))) == SelectedBy(issues, severities)
  {
    if |severities| > 0 {
      SectionsHoldSelection(issues, severities[1..]);
      var r := SectionsOf(issues, severities);
      assert r[1..] == SectionsOf(issues, severities[1..]);
      assert SectionItems(r) == OfSeverity(issues, severities[0]) + SectionItems(r[1..]);
    }
  }

  /** A sequence of severities whose ranks strictly increase. */
  predicate Ranked(order: seq<Severity>) {
    forall i, j :: 0 <= i < j < |order| ==> Rank(order[i]) < Rank(order[j])
  }

  /** The head of a ranked sequence ranks below everything in its tail. */
  lemma RankedHead(order: seq<Severity>)
    requires Ranked(order) && |order| > 0
    ensures Ranked(order[1..])
    ensures forall s :: s in order[1..] ==> Rank(order[0]) < Rank(s)
  {
    forall s | s in order[1..]
      ensures Rank(order[0]) < Rank(s)
    {
      var k :| 0 <= k < |order[1..]| && order[1..][k] == s;
      assert order[k + 1] == s;
    }
  }

  /** Putting a lower-ranked severity in front keeps a sequence ranked. */
  lemma RankedCons(h: Severity, rest: seq<Severity>)
    requires Ranked(rest)
    requires forall s :: s in rest ==> Rank(h) < Rank(s)
    ensures Ranked([h] + rest)
  {
    var r := [h] + rest;
    forall i, j | 0 <= i < j < |r|
      ensures Rank(r[i]) < Rank(r[j])
    {
      assert r[j] == rest[j - 1] && rest[j - 1] in rest;
      if i > 0 {
        assert r[i] == rest[i - 1];
      }
    }
  }

  /** Selecting from an order of increasing rank keeps the ranks increasing. */
  lemma {:induction false} PresentRanked(issues: seq<Issue>, order: seq<Severity>)
    requires Ranked(order)
    ensures Ranked(Present(issues, order))
  {
    if |order| > 0 {
      var rest := Present(issues, order[1..]);
      RankedHead(order);
      PresentRanked(issues, order[1..]);
      if Count(issues, order[0]) > 0 {
        assert Present(issues, order) == [order[0]] + rest;
        RankedCons(order[0], rest);
      } else {
        assert Present(issues, order) == [] + rest;
      }
    }
  }

  /** The report order lists every severity, most severe first. */
  lemma SeverityOrderRanked()
    ensures forall s: Severity :: s in SeverityOrder
    ensures Ranked(SeverityOrder)
  {
    SeverityOrderIsRanking();
    forall s: Severity
      ensures s in SeverityOrder
    {
      assert SeverityOrder[Rank(s)] == s;
    }
  }

  /** Selecting by a ranked order keeps each issue whose severity the order
      names, exactly as often as it occurs, and nothing else. */
  lemma {:induction false} SelectedByMultiplicity(issues: seq<Issue>, order: seq<Severity>, x: Issue)
    requires Ranked(order)
    ensures SelectedBy(issues, order)[x] == if x.severity in order then multiset(issues)[x] else 0
  {
    if |order| > 0 {
      RankedHead(order);
      SelectedByMultiplicity(issues, order[1..], x);
      OfSeverityMultiplicity(issues, order[0], x);
      assert order == [order[0]] + order[1..];
    }
  }

  /** The report order selects every issue exactly as often as it occurs. */
  lemma SeverityOrderSelectsAll(issues: seq<Issue>)
    ensures SelectedBy(issues, SeverityOrder) == multiset(issues)
  {
    SeverityOrderRanked();
    forall x
      ensures SelectedBy(issues, SeverityOrder)[x] == multiset(issues)[x]
    {
      SelectedByMultiplicity(issues, SeverityOrder, x);
    }
  }

  /** The severities of the sections, in order. */
  function SeveritiesOf(sections: seq<Section>): (r: seq<Severity>)
    ensures |r| == |sections|
    ensures forall i :: 0 <= i < |r| ==> r[i] == sections[i].severity
  {
    seq(|sections|, i requires 0 <= i < |sections| => sections[i].severity)
  }

  /** Sections built from severities that all occur are non-empty, and
      every occurring severity of `order` has one. */
  lemma PresentSectionsCover(issues: seq<Issue>, order: seq<Severity>)
    ensures forall i :: 0 <= i < |SectionsOf(issues, Present(issues, order))| ==>
      SectionsOf(issues, Present(issues, order))[i].items != []
    ensures forall s :: s in order && Count(issues, s) > 0 ==>
      exists i :: 0 <= i < |SectionsOf(issues, Present(issues, order))| && SectionsOf(issues, Present(issues, order))[i].severity == s
  {
    var present := Present(issues, order);
    var sections := SectionsOf(issues, present);
    forall s | s in order && Count(issues, s) > 0
      ensures exists i :: 0 <= i < |sections| && sections[i].severity == s
    {
      var i :| 0 <= i < |present| && present[i] == s;
      assert sections[i].severity == s;
    }
    forall i | 0 <= i < |sections|
      ensures sections[i].items != []
    {
      assert present[i] in present;
    }
  }

  /** The sections for the occurring severities of an order that ranks
      every severity. */
  lemma PresentSections(issues: seq<Issue>, order: seq<Severity>)
    requires Ranked(order) && forall s: Severity :: s in order
    requires SelectedBy(issues, order) == multiset(issues)
    ensures forall i :: 0 <= i < |SectionsOf(issues, Present(issues, order))| ==>
      SectionsOf(issues, Present(issues, order))[i].items != []
    ensures forall s :: Count(issues, s) > 0 ==>
      exists i :: 0 <= i < |SectionsOf(issues, Present(issues, order))| && SectionsOf(issues, Present(issues, order))[i].severity == s
    ensures Ranked(SeveritiesOf(SectionsOf(issues, Present(issues, order))))
    ensures multiset(SectionItems(SectionsOf(issues, Present(issues, order)))) == multiset(issues)
  {
    var present := Present(issues, order);
    PresentRanked(issues, order);
    PresentSelectsAll(issues, order);
    SectionsHoldSelection(issues, present);
    PresentSectionsCover(issues, order);
    assert SeveritiesOf(SectionsOf(issues, present)) == present;
  }

  /** The report's sections, for a non-empty list of issues. */
  function ReportSections(issues: seq<Issue>): (r: seq<Section>)
    ensures forall i :: 0 <= i < |r| ==> r[i].items != [] && r[i].items == OfSeverity(issues, r[i].severity)
    ensures forall s :: Count(issues, s) > 0 ==> exists i :: 0 <= i < |r| && r[i].severity == s
    ensures Ranked(SeveritiesOf(r))
    ensures multiset(SectionItems(r)) == multiset(issues)
  {
    SeverityOrderRanked();
    SeverityOrderSelectsAll(issues);
    PresentSections(issues, SeverityOrder);
    SectionsOf(issues, Present(issues, SeverityOrder))
  }

  /** `generate_report`: the clean report exactly when nothing was found;
      otherwise a summary whose entries add up to the total, and one
      non-empty section per severity present, most severe first, holding
      that severity's issues in the order found, so that the sections
      together list every issue exactly as often as it was found. */
  function GenerateReport(issues: seq<Issue>): (r: TextReport)
    ensures r.Clean? <==> issues == []
    ensures r.Findings? ==> r.total == |issues| == Total(r.summary)
    ensures r.Findings? ==> forall s :: Entry(r.summary, s) == Count(issues, s)
    ensures r.Findings? ==> forall i :: 0 <= i < |r.sections| ==>
      r.sections[i].items != [] && r.sections[i].items == OfSeverity(issues, r.sections[i].severity)
    ensures r.Findings? ==> forall s :: Count(issues, s) > 0 ==>
      exists i :: 0 <= i < |r.sections| && r.sections[i].severity == s
    ensures r.Findings? ==> Ranked(SeveritiesOf(r.sections))
    ensures r.Findings? ==> multiset(SectionItems(r.sections)) == multiset(issues)
  {
    if issues == [] then Clean
    else Findings(SummaryOf(issues), |issues|, ReportSections(issues))
  }
}

=== FILE: review.dfy ===
/** `CodeReviewAnalyzer`'s file handling and the command line of the review
    script: which checks run on a Python file and on a prompt YAML file,
    how a file is dispatched on its suffix, the three passes over a
    directory, and the process exit status.

    The file system is a map from path to node. A file node carries the
    outcome of reading it and, for a readable file, the outcome of parsing
    it as YAML; a directory node carries what the three glob patterns
    return, in the order the file system yields them. */
module Review {
  import opened Wrappers
  import opened Text
  import opened Issues
  import opened PyValue
  import opened LineChecks
  import opened ImportOrder
  import opened Docstrings
  import opened PromptChecks
  import opened Reporting

  // -------------------------------------------------------------- inputs

  /** Reading a file as UTF-8 text: its content, or the error's message. */
  datatype ReadOutcome = Read(text: string) | ReadError(message: string)

  /** `yaml.safe_load` of a readable file: the document, or the parser's message. */
  datatype YamlParse = Parsed(doc: Value) | SyntaxError(message: string)

  datatype Node =
    | File(content: ReadOutcome, yaml: YamlParse)
    | Directory(pyGlob: seq<string>, ymlGlob: seq<string>, yamlGlob: seq<string>)

  type FileSystem = map<string, Node>

  /** Opening a path: only a file node can be read. */
  function ReadOf(fs: FileSystem, path: string): (r: ReadOutcome)
    ensures r.Read? ==> path in fs && fs[path].File?
  {
    if path in fs && fs[path].File? then fs[path].content
    else if path in fs then ReadError("Is a directory: " + path)
    else ReadError("No such file or directory: " + path)
  }

  // --------------------------------------------------------------- Python

  const ReadErrorTitle: string := "Erro ao ler arquivo"

  /** A file that could not be read: one HIGH finding carrying the message. */
  function ReadErrorIssue(path: string, message: string): Issue {
    Issue(High, "IO Error", path, None, ReadErrorTitle, message, "", "")
  }

  /** The LangChain checks run only on files that mention either library. */
  predicate MentionsLangchain(content: string) {
    Contains(content, "langchain") || Contains(content, "langsmith")
  }

  /** The seven steps of the Python analysis. */
  datatype PythonStep = SecurityStep | ImportsStep | DocstringsStep | NamingStep | LangchainStep | TypeHintsStep | ErrorHandlingStep

  /** One step's findings; the LangChain step finds nothing in a file that
      mentions neither library. */
  function RunStep(step: PythonStep, path: string, content: string): seq<Issue> {
    var lines := SplitLines(content);
    match step
    case SecurityStep => CheckSecurity(path, lines)
    case ImportsStep => CheckImports(path, lines)
    case DocstringsStep => CheckDocstrings(path, lines)
    case NamingStep => CheckNamingStyle(path, lines)
    case LangchainStep => if MentionsLangchain(content) then CheckLangchainPatterns(path, lines) else []
    case TypeHintsStep => CheckTypeHints(path, lines)
    case ErrorHandlingStep => CheckErrorHandling(path, lines)
  }

  /** The findings for a readable Python file: every step's, in the order
      `_analyze_python_file` runs them. */
  function PythonChecks(path: string, content: string): seq<Issue> {
    RunStep(SecurityStep, path, content) + RunStep(ImportsStep, path, content) + RunStep(DocstringsStep, path, content)
    + RunStep(NamingStep, path, content) + RunStep(LangchainStep, path, content)
    + RunStep(TypeHintsStep, path, content) + RunStep(ErrorHandlingStep, path, content)
  }

  /** Every credential finding is CRITICAL. */
  lemma SecuritySeverity(path: string, lines: seq<string>)
    ensures Count(CheckSecurity(path, lines), Critical) == |CheckSecurity(path, lines)|
    ensures Count(CheckSecurity(path, lines), High) == 0
  {
    SecuritySpec(path, lines);
    UniformSeverity(CheckSecurity(path, lines), Critical);
  }

  /** The import finding is LOW. */
  lemma ImportsSeverity(path: string, lines: seq<string>)
    ensures Count(CheckImports(path, lines), Critical) == 0 && Count(CheckImports(path, lines), High) == 0
  {
    if CheckImports(path, lines) != [] {
      UniformSeverity(CheckImports(path, lines), Low);
    }
  }

  /** Docstring findings are MEDIUM. */
  lemma DocstringsSeverity(path: string, lines: seq<string>)
    ensures Count(CheckDocstrings(path, lines), Critical) == 0 && Count(CheckDocstrings(path, lines), High) == 0
  {
    var docs := CheckDocstrings(path, lines);
    DocstringsSpec(path, lines);
    forall x | x in docs
      ensures x.severity == Medium
    {
      var j :| 0 <= j < |docs| && docs[j] == x;
    }
    UniformSeverity(docs, Medium);
  }

  /** Naming findings are LOW. */
  lemma NamingSeverity(path: string, lines: seq<string>)
    ensures Count(CheckNamingStyle(path, lines), Critical) == 0 && Count(CheckNamingStyle(path, lines), High) == 0
  {
    NamingSpec(path, lines);
    UniformSeverity(CheckNamingStyle(path, lines), Low);
  }

  /** LangChain findings are HIGH or MEDIUM. */
  lemma HubUsageSeverity(path: string, lines: seq<string>)
    ensures Count(CheckLangchainPatterns(path, lines), Critical) == 0
  {
    HubUsageSpec(path, lines);
    NoneOfSeverity(CheckLangchainPatterns(path, lines), Critical);
  }

  /** Type-hint findings are LOW. */
  lemma TypeHintsSeverity(path: string, lines: seq<string>)
    ensures Count(CheckTypeHints(path, lines), Critical) == 0 && Count(CheckTypeHints(path, lines), High) == 0
  {
    var hints := CheckTypeHints(path, lines);
    TypeHintsSpec(path, lines);
    forall x | x in hints
      ensures x.severity == Low
    {
      var j :| 0 <= j < |hints| && hints[j] == x;
    }
    UniformSeverity(hints, Low);
  }

  /** Error-handling findings are MEDIUM. */
  lemma ErrorHandlingSeverity(path: string, lines: seq<string>)
    ensures Count(CheckErrorHandling(path, lines), Critical) == 0 && Count(CheckErrorHandling(path, lines), High) == 0
  {
    var excepts := CheckErrorHandling(path, lines);
    ErrorHandlingSpec(path, lines);
    forall x | x in excepts
      ensures x.severity == Medium
    {
      var j :| 0 <= j < |excepts| && excepts[j] == x;
    }
    UniformSeverity(excepts, Medium);
  }

  /** Only the security step reports CRITICAL findings, all of its
      findings are CRITICAL, and only the LangChain step reports HIGH ones. */
  lemma StepSeverities(step: PythonStep, path: string, content: string)
    ensures step == SecurityStep ==> Count(RunStep(step, path, content), Critical) == |CheckSecurity(path, SplitLines(content))|
    ensures step != SecurityStep ==> Count(RunStep(step, path, content), Critical) == 0
    ensures step != LangchainStep || !MentionsLangchain(content) ==> Count(RunStep(step, path, content), High) == 0
  {
    var lines := SplitLines(content);
    match step
    case SecurityStep => SecuritySeverity(path, lines);
    case ImportsStep => ImportsSeverity(path, lines);
    case DocstringsStep => DocstringsSeverity(path, lines);
    case NamingStep => NamingSeverity(path, lines);
    case LangchainStep => HubUsageSeverity(path, lines);
    case TypeHintsStep => TypeHintsSeverity(path, lines);
    case ErrorHandlingStep => ErrorHandlingSeverity(path, lines);
  }

  /** Counting over seven concatenated parts. */
  lemma CountSeven(a: seq<Issue>, b: seq<Issue>, c: seq<Issue>, d: seq<Issue>, e: seq<Issue>, f: seq<Issue>, g: seq<Issue>, s: Severity)
    ensures Count(a + b + c + d + e + f + g, s)
      == Count(a, s) + Count(b, s) + Count(c, s) + Count(d, s) + Count(e, s) + Count(f, s) + Count(g, s)
  {
    OfSeverityAppend(a, b, s);
    OfSeverityAppend(a + b, c, s);
    OfSeverityAppend(a + b + c, d, s);
    OfSeverityAppend(a + b + c + d, e, s);
    OfSeverityAppend(a + b + c + d + e, f, s);
    OfSeverityAppend(a + b + c + d + e + f, g, s);
  }

  /** The CRITICAL count of a readable Python file, step by step. */
  lemma PythonCritical(path: string, content: string)
    ensures Count(PythonChecks(path, content), Critical) == |CheckSecurity(path, SplitLines(content))|
  {
    StepSeverities(SecurityStep, path, content);
    StepSeverities(ImportsStep, path, content);
    StepSeverities(DocstringsStep, path, content);
    StepSeverities(NamingStep, path, content);
    StepSeverities(LangchainStep, path, content);
    StepSeverities(TypeHintsStep, path, content);
    StepSeverities(ErrorHandlingStep, path, content);
    CountSeven(RunStep(SecurityStep, path, content), RunStep(ImportsStep, path, content), RunStep(DocstringsStep, path, content),
      RunStep(NamingStep, path, content), RunStep(LangchainStep, path, content),
      RunStep(TypeHintsStep, path, content), RunStep(ErrorHandlingStep, path, content), Critical);
  }

  /** The HIGH count of a readable Python file that mentions neither library. */
  lemma PythonHigh(path: string, content: string)
    requires !MentionsLangchain(content)
    ensures Count(PythonChecks(path, content), High) == 0
  {
    StepSeverities(SecurityStep, path, content);
    StepSeverities(ImportsStep, path, content);
    StepSeverities(DocstringsStep, path, content);
    StepSeverities(NamingStep, path, content);
    StepSeverities(LangchainStep, path, content);
    StepSeverities(TypeHintsStep, path, content);
    StepSeverities(ErrorHandlingStep, path, content);
    CountSeven(RunStep(SecurityStep, path, content), RunStep(ImportsStep, path, content), RunStep(DocstringsStep, path, content),
      RunStep(NamingStep, path, content), RunStep(LangchainStep, path, content),
      RunStep(TypeHintsStep, path, content), RunStep(ErrorHandlingStep, path, content), High);
  }

  /** In a readable Python file the CRITICAL findings are exactly the
      credential findings, and a HIGH finding can only come from the
      LangChain check, which runs only when the file mentions the libraries. */
  lemma PythonSeverities(path: string, content: string)
    ensures Count(PythonChecks(path, content), Critical) == |CheckSecurity(path, SplitLines(content))|
    ensures !MentionsLangchain(content) ==> Count(PythonChecks(path, content), High) == 0
  {
    PythonCritical(path, content);
    if !MentionsLangchain(content) {
      PythonHigh(path, content);
    }
  }

  /** `_analyze_python_file`: an unreadable file gives one HIGH finding and
      nothing else; otherwise the seven checks run on the lines, the
      CRITICAL findings are the credential findings, and without a mention
      of LangChain or LangSmith there is no HIGH finding. */
  function AnalyzePython(path: string, read: ReadOutcome): (r: seq<Issue>)
    ensures read.ReadError? ==> r == [ReadErrorIssue(path, read.message)]
    ensures read.Read? ==> Count(r, Critical) == |CheckSecurity(path, SplitLines(read.text))|
    ensures read.Read? && !MentionsLangchain(read.text) ==> Count(r, High) == 0
  {
    match read
    case ReadError(message) => [ReadErrorIssue(path, message)]
    case Read(text) =>
      PythonSeverities(path, text);
      PythonChecks(path, text)
  }

  // ----------------------------------------------------------------- YAML

  const YamlMissingDescription: string := "Install PyYAML, para análise mais detalhada de YAML"

  /** PyYAML is not installed: one LOW finding per YAML file. */
  function YamlMissingIssue(path: string): Issue {
    Issue(Low, "YAML Analysis", path, None, "PyYAML não instalado", YamlMissingDescription, "pip install pyyaml", "")
  }

  /** The document does not parse: one CRITICAL finding carrying the parser's message. */
  function YamlSyntaxIssue(path: string, message: string): Issue {
    Issue(Critical, "YAML Syntax", path, None, "YAML syntax error", message, "", "")
  }

  /** `_analyze_yaml_file`: without PyYAML one LOW finding; an unreadable file
      one HIGH finding; a syntax error one CRITICAL finding; otherwise the
      four prompt checks, whose exceptions propagate. A loaded document's
      CRITICAL findings are its missing required fields. */
  function AnalyzeYaml(path: string, yamlAvailable: bool, read: ReadOutcome, yaml: YamlParse): (r: Result<seq<Issue>, string>)
    ensures !yamlAvailable ==> r == Success([YamlMissingIssue(path)])
    ensures yamlAvailable && read.ReadError? ==> r == Success([ReadErrorIssue(path, read.message)])
    ensures yamlAvailable && read.Read? && yaml.SyntaxError? ==> r == Success([YamlSyntaxIssue(path, yaml.message)])
    ensures yamlAvailable && read.Read? && yaml.Parsed? ==>
      (r.Success? <==> yaml.doc.Dict? && CheckFewShotExamples(path, yaml.doc.entries).Success?)
    ensures yamlAvailable && read.Read? && yaml.Parsed? && r.Success? ==>
      Count(r.value, Critical) == |MissingRequired(yaml.doc.entries, RequiredFields)|
  {
    if !yamlAvailable then Success([YamlMissingIssue(path)])
    else match read
      case ReadError(message) => Success([ReadErrorIssue(path, message)])
      case Read(_) =>
        match yaml
        case SyntaxError(message) => Success([YamlSyntaxIssue(path, message)])
        case Parsed(doc) =>
          PromptCriticals(path, doc);
          AnalyzePromptDocument(path, doc)
  }

  /** A loaded document that the checks accept has one CRITICAL finding per missing field. */
  lemma PromptCriticals(path: string, doc: Value)
    ensures AnalyzePromptDocument(path, doc).Success? ==>
      doc.Dict? && Count(AnalyzePromptDocument(path, doc).value, Critical) == |MissingRequired(doc.entries, RequiredFields)|
  {
    if AnalyzePromptDocument(path, doc).Success? {
      DocumentCriticals(path, doc);
    }
  }

  /** The YAML outcome of a path: a missing or unreadable path never parses. */
  function YamlOf(fs: FileSystem, path: string): YamlParse {
    if path in fs && fs[path].File? then fs[path].yaml else SyntaxError("")
  }

  function AnalyzeYamlPath(path: string, fs: FileSystem, yamlAvailable: bool): Result<seq<Issue>, string> {
    AnalyzeYaml(path, yamlAvailable, ReadOf(fs, path), YamlOf(fs, path))
  }

  // ------------------------------------------------------------- dispatch

  /** `analyze_file`: the argument becomes `Path(filepath)`, so the file is
      looked up, dispatched and reported under its normal form. A missing
      path raises, naming the text as given; `.py` files get the Python
      analysis, `.yml` and `.yaml` files the YAML analysis, and any other
      suffix no findings. */
  function AnalyzeFile(path: string, fs: FileSystem, yamlAvailable: bool): (r: Result<seq<Issue>, string>)
    ensures NormPath(path) !in fs ==> r.Failure?
    ensures NormPath(path) in fs && Suffix(path) == ".py" ==>
      r == Success(AnalyzePython(NormPath(path), ReadOf(fs, NormPath(path))))
    ensures NormPath(path) in fs && (Suffix(path) == ".yml" || Suffix(path) == ".yaml") ==>
      r == AnalyzeYamlPath(NormPath(path), fs, yamlAvailable)
    ensures NormPath(path) in fs && Suffix(path) !in [".py", ".yml", ".yaml"] ==> r == Success([])
  {
    var p := NormPath(path);
    SuffixOfNormPath(path);
    if p !in fs then Failure("FileNotFoundError: Arquivo não encontrado: " + path)
    else DispatchOnSuffix(p, fs, yamlAvailable)
  }

  /** The analysis an existing path gets for its suffix. */
  function DispatchOnSuffix(p: string, fs: FileSystem, yamlAvailable: bool): Result<seq<Issue>, string> {
    if Suffix(p) == ".py" then Success(AnalyzePython(p, ReadOf(fs, p)))
    else if Suffix(p) in [".yml", ".yaml"] then AnalyzeYamlPath(p, fs, yamlAvailable)
    else Success([])
  }

  /** A path and its normal form are analysed alike: the same outcome, and
      the same findings when the analysis succeeds. */
  lemma AnalyzeFileNormalForm(path: string, fs: FileSystem, yamlAvailable: bool)
    ensures AnalyzeFile(NormPath(path), fs, yamlAvailable).Success? <==> AnalyzeFile(path, fs, yamlAvailable).Success?
    ensures AnalyzeFile(path, fs, yamlAvailable).Success? ==>
      AnalyzeFile(NormPath(path), fs, yamlAvailable) == AnalyzeFile(path, fs, yamlAvailable)
  {
    NormPathIdempotent(path);
  }

  /** The Python pass over a directory: every globbed path outside
      `__pycache__`, in glob order. */
  function PythonPass(paths: seq<string>, fs: FileSystem): (r: seq<Issue>)
    ensures forall x :: x in r ==>
      exists p :: p in paths && !Contains(p, "__pycache__") && x in AnalyzePython(p, ReadOf(fs, p))
    ensures forall p :: p in paths && !Contains(p, "__pycache__") ==>
      forall x :: x in AnalyzePython(p, ReadOf(fs, p)) ==> x in r
  {
    if |paths| == 0 then []
    else
      var p := paths[0];
      var head := if Contains(p, "__pycache__") then [] else AnalyzePython(p, ReadOf(fs, p));
      var rest := PythonPass(paths[1..], fs);
      assert forall q :: q in paths ==> q == p || q in paths[1..];
      head + rest
  }

  /** A YAML pass over a directory; the first exception ends the run. */
  function YamlPass(paths: seq<string>, fs: FileSystem, yamlAvailable: bool): (r: Result<seq<Issue>, string>)
    ensures r.Success? <==> forall p :: p in paths ==> AnalyzeYamlPath(p, fs, yamlAvailable).Success?
    ensures r.Success? ==> forall p, x :: p in paths && x in AnalyzeYamlPath(p, fs, yamlAvailable).value ==> x in r.value
    ensures r.Success? ==> forall x :: x in r.value ==>
      exists p :: p in paths && x in AnalyzeYamlPath(p, fs, yamlAvailable).value
  {
    if |paths| == 0 then Success([])
    else
      var p := paths[0];
      assert forall q :: q in paths ==> q == p || q in paths[1..];
      match AnalyzeYamlPath(p, fs, yamlAvailable)
      case Failure(e) => Failure(e)
      case Success(head) =>
        match YamlPass(paths[1..], fs, yamlAvailable)
        case Failure(e) => Failure(e)
        case Success(rest) => Success(head + rest)
  }

  /** A single globbed path contributes its own analysis, unless it lies
      under `__pycache__`. */
  lemma PythonPassSingle(p: string, fs: FileSystem)
    ensures PythonPass([p], fs) == if Contains(p, "__pycache__") then [] else AnalyzePython(p, ReadOf(fs, p))
  {
    assert [p][1..] == [];
  }

  /** The Python pass keeps glob order and every finding: the pass over two
      stretches of the glob is the pass over the first followed by the pass
      over the second. With `PythonPassSingle` this fixes the findings, and
      so every severity count, file by file. */
  lemma {:induction false} PythonPassAppend(a: seq<string>, b: seq<string>, fs: FileSystem)
    ensures PythonPass(a + b, fs) == PythonPass(a, fs) + PythonPass(b, fs)
  {
    if |a| == 0 {
      assert a + b == b;
    } else {
      var p := a[0];
      var head := if Contains(p, "__pycache__") then [] else AnalyzePython(p, ReadOf(fs, p));
      assert (a + b)[0] == p && (a + b)[1..] == a[1..] + b;
      PythonPassAppend(a[1..], b, fs);
      ConcatAssoc(head, PythonPass(a[1..], fs), PythonPass(b, fs));
    }
  }

  /** A single globbed path gives exactly its own analysis, exception included. */
  lemma YamlPassSingle(p: string, fs: FileSystem, yamlAvailable: bool)
    ensures YamlPass([p], fs, yamlAvailable) == AnalyzeYamlPath(p, fs, yamlAvailable)
  {
    assert [p][1..] == [];
    match AnalyzeYamlPath(p, fs, yamlAvailable)
    case Failure(_) =>
    case Success(head) => assert head + [] == head;
  }

  /** The YAML pass over two stretches of the glob succeeds iff both do, and
      then gives the first stretch's findings followed by the second's; an
      exception in the first stretch is the one that escapes. */
  lemma {:induction false} YamlPassAppend(a: seq<string>, b: seq<string>, fs: FileSystem, yamlAvailable: bool)
    ensures YamlPass(a + b, fs, yamlAvailable).Success? <==>
      YamlPass(a, fs, yamlAvailable).Success? && YamlPass(b, fs, yamlAvailable).Success?
    ensures YamlPass(a + b, fs, yamlAvailable).Success? ==>
      YamlPass(a + b, fs, yamlAvailable).value == YamlPass(a, fs, yamlAvailable).value + YamlPass(b, fs, yamlAvailable).value
    ensures YamlPass(a, fs, yamlAvailable).Failure? ==> YamlPass(a + b, fs, yamlAvailable) == YamlPass(a, fs, yamlAvailable)
  {
    if |a| == 0 {
      assert a + b == b;
    } else {
      var p := a[0];
      assert (a + b)[0] == p && (a + b)[1..] == a[1..] + b;
      YamlPassAppend(a[1..], b, fs, yamlAvailable);
      match AnalyzeYamlPath(p, fs, yamlAvailable)
      case Failure(_) =>
      case Success(head) =>
        if YamlPass(a[1..], fs, yamlAvailable).Success? && YamlPass(b, fs, yamlAvailable).Success? {
          ConcatAssoc(head, YamlPass(a[1..], fs, yamlAvailable).value, YamlPass(b, fs, yamlAvailable).value);
        }
    }
  }

  /** `analyze_directory`: the `.py` pass, then the `.yml` pass, then the
      `.yaml` pass. */
  function AnalyzeDirectory(dir: Node, fs: FileSystem, yamlAvailable: bool): (r: Result<seq<Issue>, string>)
    requires dir.Directory?
    ensures r.Success? <==> YamlPass(dir.ymlGlob, fs, yamlAvailable).Success? && YamlPass(dir.yamlGlob, fs, yamlAvailable).Success?
    ensures r.Success? ==>
      r.value == PythonPass(dir.pyGlob, fs) + YamlPass(dir.ymlGlob, fs, yamlAvailable).value + YamlPass(dir.yamlGlob, fs, yamlAvailable).value
  {
    var py := PythonPass(dir.pyGlob, fs);
    match YamlPass(dir.ymlGlob, fs, yamlAvailable)
    case Failure(e) => Failure(e)
    case Success(yml) =>
      match YamlPass(dir.yamlGlob, fs, yamlAvailable)
      case Failure(e) => Failure(e)
      case Success(yaml) => Success(py + yml + yaml)
  }

  /** What the command line analyses: a directory (`Path(target).is_dir()`)
      or a single path. */
  function AnalyzeTarget(target: string, fs: FileSystem, yamlAvailable: bool): Result<seq<Issue>, string> {
    var p := NormPath(target);
    if p in fs && fs[p].Directory? then AnalyzeDirectory(fs[p], fs, yamlAvailable)
    else AnalyzeFile(target, fs, yamlAvailable)
  }

  // ------------------------------------------------------------ exit code

  /** `main`: status 1 without a target argument, when the analysis raises,
      or when the JSON report cannot be written; otherwise the number of
      CRITICAL findings. Status 0 therefore means a completed review with
      nothing CRITICAL. */
  function ReviewMain(args: seq<string>, fs: FileSystem, yamlAvailable: bool, reportWritable: bool): (code: nat)
    ensures |args| < 2 ==> code == 1
    ensures |args| >= 2 && (AnalyzeTarget(args[1], fs, yamlAvailable).Failure? || !reportWritable) ==> code == 1
    ensures |args| >= 2 && AnalyzeTarget(args[1], fs, yamlAvailable).Success? && reportWritable ==>
      code == Count(AnalyzeTarget(args[1], fs, yamlAvailable).value, Critical)
    ensures code == 0 ==>
      && |args| >= 2 && reportWritable && AnalyzeTarget(args[1], fs, yamlAvailable).Success?
      && Count(AnalyzeTarget(args[1], fs, yamlAvailable).value, Critical) == 0
  {
    if |args| < 2 then 1
    else
      match AnalyzeTarget(args[1], fs, yamlAvailable)
      case Failure(_) => 1
      case Success(issues) =>
        if !reportWritable then 1 else Count(issues, Critical)
  }

  /** Reviewing a single readable Python file exits with its number of
      hard-coded credential findings. */
  lemma PythonFileExitCode(args: seq<string>, fs: FileSystem, yamlAvailable: bool)
    requires |args| >= 2 && NormPath(args[1]) in fs
    requires fs[NormPath(args[1])].File? && fs[NormPath(args[1])].content.Read?
    requires Suffix(args[1]) == ".py"
    ensures ReviewMain(args, fs, yamlAvailable, true)
      == |CheckSecurity(NormPath(args[1]), SplitLines(fs[NormPath(args[1])].content.text))|
  {
    var path := NormPath(args[1]);
    assert AnalyzeTarget(args[1], fs, yamlAvailable) == Success(AnalyzePython(path, fs[path].content));
  }

  /** Reviewing a single loadable prompt YAML file exits with its number of
      missing required fields. */
  lemma PromptFileExitCode(args: seq<string>, fs: FileSystem)
    requires |args| >= 2 && NormPath(args[1]) in fs
    requires fs[NormPath(args[1])].File? && fs[NormPath(args[1])].content.Read?
    requires fs[NormPath(args[1])].yaml.Parsed? && fs[NormPath(args[1])].yaml.doc.Dict?
    requires Suffix(args[1]) == ".yml" || Suffix(args[1]) == ".yaml"
    requires ExamplesIterable(fs[NormPath(args[1])].yaml.doc.entries)
    ensures ReviewMain(args, fs, true, true) == |MissingRequired(fs[NormPath(args[1])].yaml.doc.entries, RequiredFields)|
  {
  }
}

=== FILE: text.dfy ===
/** The Python `str` operations the review scripts rely on: substring tests,
    `strip`, `lower`, `split("\n")`, `find`/`rfind`, `str(int)` and the
    `pathlib` name/suffix rules. Strings are sequences of Unicode scalar values. */
module Text {

  /** `s.startswith(prefix)` */
  predicate StartsWith(s: string, prefix: string) {
    |prefix| <= |s| && s[..|prefix|] == prefix
  }

  /** `s.endswith(suffix)` */
  predicate EndsWith(s: string, suffix: string) {
    |suffix| <= |s| && s[|s| - |suffix|..] == suffix
  }

  /** `sub in s` */
  predicate Contains(s: string, sub: string) {
    exists i :: 0 <= i <= |s| && StartsWith(s[i..], sub)
  }

  /** An occurrence at a known position witnesses `Contains`. */
  lemma ContainsAt(s: string, sub: string, i: nat)
    requires i <= |s| && StartsWith(s[i..], sub)
    ensures Contains(s, sub)
  {
  }

  // Generic sequence facts. Stated once for any element type, they are much
  // cheaper for the verifier than the same facts about sequences of strings.

  lemma ConcatAssoc<T>(a: seq<T>, b: seq<T>, c: seq<T>)
    ensures a + (b + c) == (a + b) + c
  {
  }

  lemma ConcatMultiset<T>(a: seq<T>, b: seq<T>)
    ensures multiset(a + b) == multiset(a) + multiset(b)
  {
  }

  lemma HeadTail<T>(s: seq<T>)
    requires |s| > 0
    ensures s == [s[0]] + s[1..]
  {
  }

  lemma HeadMultiset<T>(s: seq<T>)
    requires |s| > 0
    ensures multiset(s) == multiset([s[0]]) + multiset(s[1..])
  {
    assert s == [s[0]] + s[1..];
  }

  /** The characters for which Python's `str.isspace()` holds; these are also
      the characters the regular-expression class `\s` matches. */
  predicate IsSpace(c: char) {
    || c == ' '
    || ('\t' <= c <= '\r')
    || ('\U{1C}' <= c <= '\U{1F}')
    || c == '\U{85}' || c == '\U{A0}' || c == '\U{1680}'
    || ('\U{2000}' <= c <= '\U{200A}')
    || c == '\U{2028}' || c == '\U{2029}' || c == '\U{202F}' || c == '\U{205F}' || c == '\U{3000}'
  }

  /** The regular-expression class `\w`, restricted to ASCII. */
  predicate IsWordChar(c: char) {
    ('a' <= c <= 'z') || ('A' <= c <= 'Z') || ('0' <= c <= '9') || c == '_'
  }

  /** `c.lower()` for ASCII letters; every other character is left alone. */
  function LowerChar(c: char): (r: char)
    ensures 'A' <= c <= 'Z' ==> r as int == c as int + 32
    ensures !('A' <= c <= 'Z') ==> r == c
  {
    if 'A' <= c <= 'Z' then (c as int - 'A' as int + 'a' as int) as char else c
  }

  /** `s.lower()`, character by character. */
  function Lower(s: string): (r: string)
    ensures |r| == |s|
    ensures forall i :: 0 <= i < |s| ==> r[i] == LowerChar(s[i])
  {
    seq(|s|, i requires 0 <= i < |s| => LowerChar(s[i]))
  }

  /** How many whitespace characters start at position `i` of `s`. */
  function LeadingSpaces(s: string, i: nat): (n: nat)
    requires i <= |s|
    ensures i + n <= |s|
    ensures forall k :: i <= k < i + n ==> IsSpace(s[k])
    ensures i + n < |s| ==> !IsSpace(s[i + n])
    decreases |s| - i
  {
    if i < |s| && IsSpace(s[i]) then 1 + LeadingSpaces(s, i + 1) else 0
  }

  /** `\s*` from position `p`: the first position at or after `p` that is not whitespace. */
  function SkipSpaces(line: string, p: nat): (q: nat)
    requires p <= |line|
    ensures p <= q <= |line|
    ensures forall k :: p <= k < q ==> IsSpace(line[k])
    ensures q < |line| ==> !IsSpace(line[q])
  {
    p + LeadingSpaces(line, p)
  }

  /** How many whitespace characters end just before position `j` of `s`. */
  function TrailingSpaces(s: string, j: nat): (n: nat)
    requires j <= |s|
    ensures n <= j
    ensures forall k :: j - n <= k < j ==> IsSpace(s[k])
    ensures n < j ==> !IsSpace(s[j - n - 1])
  {
    if j > 0 && IsSpace(s[j - 1]) then 1 + TrailingSpaces(s, j - 1) else 0
  }

  /** Where `Strip(s)` begins inside `s`. */
  function StripOffset(s: string): nat {
    LeadingSpaces(s, 0)
  }

  /** `s.strip()`: the longest slice of `s` that neither starts nor ends with
      whitespace, obtained by removing whitespace from both ends. */
  function Strip(s: string): (r: string)
    ensures StripOffset(s) + |r| <= |s|
    ensures r == s[StripOffset(s)..StripOffset(s) + |r|]
    ensures forall i :: 0 <= i < StripOffset(s) ==> IsSpace(s[i])
    ensures forall i :: StripOffset(s) + |r| <= i < |s| ==> IsSpace(s[i])
    ensures |r| > 0 ==> !IsSpace(r[0]) && !IsSpace(r[|r| - 1])
  {
    var a := LeadingSpaces(s, 0);
    if a == |s| then []
    else
      var t := TrailingSpaces(s, |s|);
      assert !IsSpace(s[a]);
      assert a < |s| - t;
      s[a..|s| - t]
  }

  /** A string strips to nothing exactly when every character is whitespace. */
  lemma StripEmptyIffBlank(s: string)
    ensures Strip(s) == [] <==> forall i :: 0 <= i < |s| ==> IsSpace(s[i])
  {
  }

  /** `len(s.strip()) == 0`, counted from the front. */
  predicate IsBlank(s: string) {
    LeadingSpaces(s, 0) == |s|
  }

  /** Blankness is exactly stripping to nothing. */
  lemma IsBlankIffStripEmpty(s: string)
    ensures IsBlank(s) <==> |Strip(s)| == 0
  {
  }

  /** `StartsWith` at an offset, stated character by character. */
  lemma StartsWithAtIndex(s: string, i: nat, sub: string)
    requires i <= |s|
    ensures StartsWith(s[i..], sub) <==> (i + |sub| <= |s| && forall k :: 0 <= k < |sub| ==> s[i + k] == sub[k])
  {
    if i + |sub| <= |s| && forall k :: 0 <= k < |sub| ==> s[i + k] == sub[k] {
      assert s[i..][..|sub|] == sub;
    }
  }

  /** Stripping never hides or creates an occurrence of a word that starts
      and ends with a non-space character (such as "TODO"). */
  lemma ContainsStrip(s: string, sub: string)
    requires |sub| > 0 && !IsSpace(sub[0]) && !IsSpace(sub[|sub| - 1])
    ensures Contains(Strip(s), sub) <==> Contains(s, sub)
  {
    if Contains(Strip(s), sub) {
      StripKeepsOccurrence(s, sub);
    }
    if Contains(s, sub) {
      StripFindsOccurrence(s, sub);
    }
  }

  lemma StripKeepsOccurrence(s: string, sub: string)
    requires Contains(Strip(s), sub)
    ensures Contains(s, sub)
  {
    var r := Strip(s);
    var a := StripOffset(s);
    var j :| 0 <= j <= |r| && StartsWith(r[j..], sub);
    StartsWithAtIndex(r, j, sub);
    forall k | 0 <= k < |sub|
      ensures s[a + j + k] == sub[k]
    {
      assert r[j + k] == s[a + j + k];
    }
    StartsWithAtIndex(s, a + j, sub);
    ContainsAt(s, sub, a + j);
  }

  lemma StripFindsOccurrence(s: string, sub: string)
    requires |sub| > 0 && !IsSpace(sub[0]) && !IsSpace(sub[|sub| - 1])
    requires Contains(s, sub)
    ensures Contains(Strip(s), sub)
  {
    var i :| 0 <= i <= |s| && StartsWith(s[i..], sub);
    StartsWithAtIndex(s, i, sub);
    StripFindsOccurrenceAt(s, sub, i);
  }

  /** An occurrence at `i` lies inside the stripped slice, since its first
      and last characters are not whitespace. */
  lemma StripFindsOccurrenceAt(s: string, sub: string, i: nat)
    requires |sub| > 0 && !IsSpace(sub[0]) && !IsSpace(sub[|sub| - 1])
    requires i + |sub| <= |s| && forall k :: 0 <= k < |sub| ==> s[i + k] == sub[k]
    ensures Contains(Strip(s), sub)
  {
    var r := Strip(s);
    var a := StripOffset(s);
    var last := i + |sub| - 1;
    assert s[i] == sub[0] && s[last] == sub[|sub| - 1];
    assert a <= i;
    assert last < a + |r|;
    forall k | 0 <= k < |sub|
      ensures r[i - a + k] == sub[k]
    {
      assert r[i - a + k] == s[i + k];
    }
    StartsWithAtIndex(r, i - a, sub);
    ContainsAt(r, sub, i - a);
  }

  /** The decimal digit character for `d`. */
  function DigitChar(d: nat): (c: char)
    requires d < 10
    ensures '0' <= c <= '9'
  {
    ('0' as int + d) as char
  }

  /** `str(n)` for a natural number: its decimal digits, without leading zeros. */
  function NatToString(n: nat): (r: string)
    ensures |r| >= 1
    ensures forall i :: 0 <= i < |r| ==> '0' <= r[i] <= '9'
    ensures n >= 10 ==> |r| >= 2
  {
    if n < 10 then [DigitChar(n)] else NatToString(n / 10) + [DigitChar(n % 10)]
  }

  /** Reads a string of decimal digits back as a number. */
  function ParseDigits(s: string): nat
    requires forall i :: 0 <= i < |s| ==> '0' <= s[i] <= '9'
  {
    if |s| == 0 then 0
    else ParseDigits(s[..|s| - 1]) * 10 + (s[|s| - 1] as int - '0' as int)
  }

  /** Reading the decimal rendering of `n` gives back `n`. */
  lemma {:induction false} ParseNatToString(n: nat)
    ensures ParseDigits(NatToString(n)) == n
  {
    var s := NatToString(n);
    if n >= 10 {
      ParseNatToString(n / 10);
      assert s[..|s| - 1] == NatToString(n / 10);
    }
  }

  /** Different numbers have different decimal renderings. */
  lemma NatToStringInjective(a: nat, b: nat)
    requires NatToString(a) == NatToString(b)
    ensures a == b
  {
    ParseNatToString(a);
    ParseNatToString(b);
  }

  /** `str(i)` for any integer. */
  function IntToString(i: int): string {
    if i < 0 then "-" + NatToString(-i) else NatToString(i)
  }

  /** Two texts built from the same frame around different middles differ. */
  lemma FramedInjective(prefix: string, x: string, y: string, suffix: string)
    requires prefix + x + suffix == prefix + y + suffix
    ensures x == y
  {
    var u := prefix + x + suffix;
    assert |x| == |y|;
    assert x == u[|prefix|..|prefix| + |x|];
  }

  /** `content.split("\n")`: the maximal newline-free pieces, in order. */
  function SplitLines(s: string): (r: seq<string>)
    ensures |r| >= 1
    ensures forall k :: 0 <= k < |r| ==> '\n' !in r[k]
  {
    if |s| == 0 then [""]
    else
      var rest := SplitLines(s[1..]);
      if s[0] == '\n' then [""] + rest
      else [[s[0]] + rest[0]] + rest[1..]
  }

  /** `"\n".join(lines)` */
  function JoinLines(lines: seq<string>): string
    requires |lines| >= 1
  {
    if |lines| == 1 then lines[0] else lines[0] + "\n" + JoinLines(lines[1..])
  }

  /** Splitting then joining reproduces the text. */
  lemma {:induction false} JoinSplitLines(s: string)
    ensures JoinLines(SplitLines(s)) == s
  {
    if |s| > 0 {
      var rest := SplitLines(s[1..]);
      JoinSplitLines(s[1..]);
      if s[0] == '\n' {
        assert SplitLines(s) == [""] + rest;
        assert JoinLines(SplitLines(s)) == "" + "\n" + JoinLines(rest);
        assert s == [s[0]] + s[1..];
      } else if |rest| == 1 {
        assert s == [s[0]] + s[1..];
      } else {
        var r := SplitLines(s);
        assert r[1..] == rest[1..];
        assert JoinLines(r) == [s[0]] + rest[0] + "\n" + JoinLines(rest[1..]);
        assert s == [s[0]] + s[1..];
      }
    }
  }

  /** Text without a newline glues onto the first line of whatever follows. */
  lemma {:induction false} SplitLinesPrefix(a: string, t: string)
    requires '\n' !in a
    ensures SplitLines(a + t) == [a + SplitLines(t)[0]] + SplitLines(t)[1..]
  {
    if |a| > 0 {
      var st := SplitLines(t);
      SplitLinesPrefix(a[1..], t);
      assert (a + t)[1..] == a[1..] + t;
      assert (a + t)[0] == a[0] && a[0] != '\n';
      var rest := SplitLines(a[1..] + t);
      assert rest == [a[1..] + st[0]] + st[1..];
      assert rest[0] == a[1..] + st[0];
      assert rest[1..] == st[1..];
      assert SplitLines(a + t) == [[a[0]] + rest[0]] + rest[1..];
      assert [a[0]] + (a[1..] + st[0]) == a + st[0];
    } else {
      var st := SplitLines(t);
      assert a + t == t && a + st[0] == st[0];
      assert st == [st[0]] + st[1..];
    }
  }

  /** Joining newline-free lines and splitting again gives the lines back. */
  lemma {:induction false} SplitJoinLines(lines: seq<string>)
    requires |lines| >= 1
    requires forall k :: 0 <= k < |lines| ==> '\n' !in lines[k]
    ensures SplitLines(JoinLines(lines)) == lines
  {
    if |lines| == 1 {
      SplitLinesPrefix(lines[0], "");
      assert lines[0] + "" == lines[0];
    } else {
      var tail := JoinLines(lines[1..]);
      SplitJoinLines(lines[1..]);
      SplitLinesPrefix(lines[0], "\n" + tail);
      assert lines[0] + "\n" + tail == lines[0] + ("\n" + tail);
      assert ("\n" + tail)[1..] == tail;
      var st := SplitLines("\n" + tail);
      assert ("\n" + tail)[0] == '\n';
      assert st == [""] + SplitLines(tail);
      assert st[0] == "" && st[1..] == lines[1..];
      assert JoinLines(lines) == lines[0] + ("\n" + tail);
      assert lines[0] + st[0] == lines[0];
      assert lines == [lines[0]] + lines[1..];
    }
  }

  /** `s.find(c)`: the first position of `c`, or -1. */
  function IndexOf(s: string, c: char): (r: int)
    ensures -1 <= r < |s|
    ensures r == -1 <==> c !in s
    ensures r >= 0 ==> s[r] == c && c !in s[..r]
  {
    if |s| == 0 then -1
    else if s[0] == c then 0
    else
      var k := IndexOf(s[1..], c);
      assert s == [s[0]] + s[1..];
      if k == -1 then -1
      else
        assert s[..k + 1] == [s[0]] + s[1..][..k];
        k + 1
  }

  /** `s.rfind(c)`: the last position of `c`, or -1. */
  function LastIndexOf(s: string, c: char): (r: int)
    ensures -1 <= r < |s|
    ensures r == -1 <==> c !in s
    ensures r >= 0 ==> s[r] == c && c !in s[r + 1..]
  {
    if |s| == 0 then -1
    else if s[|s| - 1] == c then |s| - 1
    else
      assert s == s[..|s| - 1] + [s[|s| - 1]];
      LastIndexOf(s[..|s| - 1], c)
  }

  // ------------------------------------------------------------------- paths

  /** A piece `PurePath` keeps: the empty pieces that repeated or trailing
      '/' leave, and "." pieces, are dropped. */
  predicate KeptPart(part: string) {
    part != "" && part != "."
  }

  /** The components of a POSIX path, in order: the pieces between the '/'
      characters that `PurePath` keeps. */
  function Parts(path: string): (r: seq<string>)
    ensures forall k :: 0 <= k < |r| ==> KeptPart(r[k]) && '/' !in r[k]
    decreases |path|
  {
    var i := IndexOf(path, '/');
    if i == -1 then (if KeptPart(path) then [path] else [])
    else (if KeptPart(path[..i]) then [path[..i]] else []) + Parts(path[i + 1..])
  }

  /** The root `PurePath` keeps on POSIX: "//" for exactly two leading
      slashes, "/" for one or more than two, nothing for a relative path. */
  function Root(path: string): (r: string)
    ensures r == "" || r == "/" || r == "//"
    ensures StartsWith(path, r)
  {
    if |path| == 0 || path[0] != '/' then ""
    else if |path| >= 2 && path[1] == '/' && (|path| == 2 || path[2] != '/') then "//"
    else "/"
  }

  /** `"/".join(parts)` */
  function JoinParts(parts: seq<string>): string {
    if |parts| == 0 then ""
    else if |parts| == 1 then parts[0]
    else parts[0] + "/" + JoinParts(parts[1..])
  }

  /** `str(PurePath(path))`: the root, then the kept components joined by
      '/', or "." when that leaves nothing. */
  function NormPath(path: string): (r: string)
    ensures |r| > 0
  {
    var s := Root(path) + JoinParts(Parts(path));
    if s == "" then "." else s
  }

  /** Components without '/' that `PurePath` keeps are read back from their join. */
  lemma {:induction false} PartsOfJoin(parts: seq<string>)
    requires forall k :: 0 <= k < |parts| ==> KeptPart(parts[k]) && '/' !in parts[k]
    ensures Parts(JoinParts(parts)) == parts
    ensures |parts| > 0 ==> |JoinParts(parts)| > 0 && JoinParts(parts)[0] != '/'
  {
    if |parts| == 1 {
      PartsSingle(parts[0]);
    } else if |parts| > 1 {
      var head := parts[0];
      var tail := JoinParts(parts[1..]);
      assert JoinParts(parts) == head + "/" + tail;
      PartsOfJoin(parts[1..]);
      PartsAppend(head, tail);
      PartsSingle(head);
      HeadTail(parts);
      assert (head + "/" + tail)[0] == head[0];
    }
  }

  /** A path without '/' is one piece: kept unless it is empty or ".". */
  lemma PartsSingle(piece: string)
    requires '/' !in piece
    ensures Parts(piece) == if KeptPart(piece) then [piece] else []
  {
  }

  /** Splitting at a '/' splits the components: every kept piece of either
      side is a component, in order, and nothing else is. */
  lemma {:induction false} PartsAppend(a: string, b: string)
    ensures Parts(a + "/" + b) == Parts(a) + Parts(b)
    decreases |a|
  {
    var s := a + "/" + b;
    var i := IndexOf(a, '/');
    assert s[..|a|] == a && s[|a|] == '/';
    if i == -1 {
      IndexOfAt(s, '/', |a|);
      assert s[|a| + 1..] == b;
    } else {
      assert s[..i] == a[..i];
      IndexOfAt(s, '/', i);
      assert s[i + 1..] == a[i + 1..] + "/" + b;
      PartsAppend(a[i + 1..], b);
      var h := if KeptPart(a[..i]) then [a[..i]] else [];
      ConcatAssoc(h, Parts(a[i + 1..]), Parts(b));
    }
  }

  /** Leading slashes only make the root: the components are those after them. */
  lemma PartsAfterSlash(rest: string)
    ensures Parts("/" + rest) == Parts(rest)
  {
    var s := "/" + rest;
    assert IndexOf(s, '/') == 0;
    assert s[..0] == "" && s[1..] == rest;
  }

  /** The first occurrence is the one with none before it. */
  lemma IndexOfAt(s: string, c: char, i: nat)
    requires i < |s| && s[i] == c && c !in s[..i]
    ensures IndexOf(s, c) == i
  {
    assert s[i] in s;
  }

  /** A root followed by components that do not start with '/' is read back
      as that root. */
  lemma RootOfJoin(root: string, joined: string)
    requires root == "" || root == "/" || root == "//"
    requires joined == "" || joined[0] != '/'
    ensures Root(root + joined) == root
  {
    if root == "/" {
      assert (root + joined)[0] == '/';
      assert |root + joined| >= 2 ==> (root + joined)[1] == joined[0];
    } else if root == "//" {
      assert (root + joined)[0] == '/' && (root + joined)[1] == '/';
      assert |root + joined| >= 3 ==> (root + joined)[2] == joined[0];
    }
  }

  /** A root in front of the components adds no component. */
  lemma PartsAfterRoot(root: string, joined: string)
    requires root == "" || root == "/" || root == "//"
    ensures Parts(root + joined) == Parts(joined)
  {
    if root == "" {
      assert root + joined == joined;
    } else if root == "/" {
      PartsAfterSlash(joined);
    } else {
      PartsAfterDoubleSlash(joined);
    }
  }

  lemma PartsAfterDoubleSlash(rest: string)
    ensures Parts("//" + rest) == Parts(rest)
  {
    var s := "//" + rest;
    assert s[0] == '/' && IndexOf(s, '/') == 0;
    assert s[1..] == "/" + rest;
    PartsAfterSlash(rest);
  }

  /** Normalising keeps the root and the components. */
  lemma NormPathKeepsParts(path: string)
    ensures Parts(NormPath(path)) == Parts(path)
    ensures Root(NormPath(path)) == Root(path)
  {
    var root := Root(path);
    var joined := JoinParts(Parts(path));
    PartsOfJoin(Parts(path));
    if root + joined == "" {
      assert NormPath(path) == ".";
      assert IndexOf(".", '/') == -1;
    } else {
      assert NormPath(path) == root + joined;
      RootOfJoin(root, joined);
      PartsAfterRoot(root, joined);
    }
  }

  /** `PurePath(str(PurePath(p)))` is `PurePath(p)`: normalising twice
      changes nothing more. */
  lemma NormPathIdempotent(path: string)
    ensures NormPath(NormPath(path)) == NormPath(path)
  {
    NormPathKeepsParts(path);
    var n := NormPath(path);
    if Root(path) + JoinParts(Parts(path)) == "" {
      assert Parts(n) == [] && Root(n) == "";
    }
  }

  /** `PurePath(path).name`: the last component, or empty when there is none. */
  function BaseName(path: string): (r: string)
    ensures '/' !in r && r != "."
  {
    var parts := Parts(path);
    if |parts| == 0 then "" else parts[|parts| - 1]
  }

  /** A non-empty name is the whole normal form or its tail after a '/'. */
  lemma BaseNameEndsNormPath(path: string)
    ensures BaseName(path) != "" ==>
      NormPath(path) == BaseName(path) || EndsWith(NormPath(path), "/" + BaseName(path))
  {
    var parts := Parts(path);
    if |parts| > 0 {
      var name := parts[|parts| - 1];
      var joined := JoinParts(parts);
      if |parts| == 1 {
        assert joined == name;
      } else {
        JoinEndsWithSlashLast(parts);
      }
      assert |joined| >= |name| > 0;
      RootedTail(Root(path), joined, name);
    }
  }

  /** A root in front keeps a '/'-separated tail, and puts a '/' in front of
      a bare name. */
  lemma RootedTail(root: string, joined: string, name: string)
    requires root == "" || root == "/" || root == "//"
    requires |name| > 0
    requires joined == name || EndsWith(joined, "/" + name)
    ensures root + joined == name || EndsWith(root + joined, "/" + name)
  {
    var n := root + joined;
    if root != "" {
      if joined == name {
        assert n[|n| - |name| - 1..] == "/" + name;
      } else {
        assert n[|n| - |name| - 1..] == joined[|joined| - |name| - 1..];
      }
    } else {
      assert n == joined;
    }
  }

  /** The name is empty exactly when the path has no component; otherwise it
      is one of the components. */
  lemma BaseNameSpec(path: string)
    ensures BaseName(path) == "" <==> Parts(path) == []
    ensures BaseName(path) != "" ==> BaseName(path) in Parts(path)
  {
    var parts := Parts(path);
    if |parts| > 0 {
      assert KeptPart(parts[|parts| - 1]);
    }
  }

  /** A join of two or more components ends with '/' and the last one. */
  lemma {:induction false} JoinEndsWithSlashLast(parts: seq<string>)
    requires |parts| > 1
    ensures EndsWith(JoinParts(parts), "/" + parts[|parts| - 1])
  {
    var j := JoinParts(parts[1..]);
    var last := parts[|parts| - 1];
    assert JoinParts(parts) == (parts[0] + "/") + j;
    if |parts| == 2 {
      assert j == last;
    } else {
      JoinEndsWithSlashLast(parts[1..]);
    }
    assert JoinParts(parts)[|JoinParts(parts)| - |j|..] == j;
  }

  /** The name of `dir/name` is `name`, whatever the directory. */
  lemma BaseNameOfChild(dir: string, name: string)
    requires '/' !in name && KeptPart(name)
    ensures BaseName(dir + "/" + name) == name
  {
    PartsAppend(dir, name);
    PartsSingle(name);
  }

  /** A path and its normal form have the same name. */
  lemma BaseNameOfNormPath(path: string)
    ensures BaseName(NormPath(path)) == BaseName(path)
  {
    NormPathKeepsParts(path);
  }

  /** A path and its normal form have the same suffix. */
  lemma SuffixOfNormPath(path: string)
    ensures Suffix(NormPath(path)) == Suffix(path)
  {
    BaseNameOfNormPath(path);
  }

  /** A single plain component is its own name. */
  lemma BaseNameWithoutDirectory(path: string)
    requires '/' !in path && KeptPart(path)
    ensures BaseName(path) == path
  {
    assert Parts(path) == [path];
  }

  /** A single plain component is its own normal form. */
  lemma NormPathOfName(name: string)
    requires '/' !in name && KeptPart(name)
    ensures NormPath(name) == name
  {
    PartsSingle(name);
  }

  /** A trailing '/' on a relative path changes nothing. */
  lemma NormPathTrailingSlash(p: string)
    requires |p| > 0 && p[0] != '/'
    ensures NormPath(p + "/") == NormPath(p)
  {
    var q := p + "/";
    assert Parts(q) == Parts(p) by {
      PartsAppend(p, "");
      PartsSingle("");
      assert p + "/" + "" == q;
      EmptyRight(Parts(p));
    }
    assert q[0] == p[0];
    SameRootAndParts(q, p);
  }

  /** A leading "./" on a relative path changes nothing. */
  lemma NormPathDotSlash(p: string)
    requires |p| > 0 && p[0] != '/'
    ensures NormPath("./" + p) == NormPath(p)
  {
    var q := "./" + p;
    assert Parts(q) == Parts(p) by {
      PartsAppend(".", p);
      PartsSingle(".");
      assert "." + "/" + p == q;
      EmptyLeft(Parts(p));
    }
    assert q[0] == '.';
    SameRootAndParts(q, p);
  }

  /** Two relative paths with the same components have the same normal form. */
  lemma SameRootAndParts(q: string, p: string)
    requires |q| > 0 && q[0] != '/' && |p| > 0 && p[0] != '/'
    requires Parts(q) == Parts(p)
    ensures NormPath(q) == NormPath(p)
  {
    assert Root(q) == "" && Root(p) == "";
  }

  lemma EmptyRight<T>(s: seq<T>)
    ensures s + [] == s
  {
  }

  lemma EmptyLeft<T>(s: seq<T>)
    ensures [] + s == s
  {
  }

  /** `PurePath(name).suffix`: from the last '.' of the name, provided that
      dot is neither the first nor the last character; otherwise empty. */
  function Suffix(path: string): (r: string)
    ensures r == [] || (r[0] == '.' && '.' !in r[1..] && EndsWith(BaseName(path), r) && |r| >= 2 && |r| < |BaseName(path)|)
  {
    var name := BaseName(path);
    var i := LastIndexOf(name, '.');
    if 0 < i < |name| - 1 then name[i..] else ""
  }

  /** Position `i` holds the last '.' of the name, and that dot is neither
      the first nor the last character. */
  predicate SuffixDotAt(name: string, i: int) {
    0 < i < |name| - 1 && name[i] == '.' && '.' !in name[i + 1..]
  }

  /** The suffix is non-empty exactly when the name has a last dot that is
      neither its first nor its last character, and it is then the name from
      that dot on. */
  lemma SuffixSpec(path: string)
    ensures Suffix(path) != "" <==> exists i :: SuffixDotAt(BaseName(path), i)
    ensures forall i :: SuffixDotAt(BaseName(path), i) ==> Suffix(path) == BaseName(path)[i..]
  {
    var name := BaseName(path);
    var r := LastIndexOf(name, '.');
    forall i | SuffixDotAt(name, i)
      ensures r == i
    {
      assert name[i] in name;
    }
    if Suffix(path) != "" {
      assert SuffixDotAt(name, r);
    }
  }

  /** The names the review dispatches on. */
  lemma SuffixExamples()
    ensures Suffix("a.py") == ".py"
    ensures Suffix(".env") == ""
  {
    BaseNameWithoutDirectory("a.py");
    BaseNameWithoutDirectory(".env");
    assert SuffixDotAt("a.py", 1);
    SuffixSpec("a.py");
  }

  /** A file under a directory takes its suffix from its own name, so
      `dir/a.py` has the suffix of `a.py` whatever `dir` is. */
  lemma SuffixOfChild(dir: string, name: string)
    requires '/' !in name && KeptPart(name)
    ensures Suffix(dir + "/" + name) == Suffix(name)
  {
    BaseNameOfChild(dir, name);
    BaseNameWithoutDirectory(name);
  }
}

=== FILE: utils.dfy ===
/** The shared helpers of the prompt tooling: the structural validator of a
    prompt document, the environment-variable check and the recovery of a
    JSON object from an LLM answer. */
module Utils {
  import opened Wrappers
  import opened Text
  import opened PyValue

  // ---------------------------------------------------------------- validate

  /** `PromptValidator.REQUIRED_FIELDS`. The script keeps them in a set, whose
      iteration order is not fixed; the contracts below count errors per field
      and so do not depend on the order chosen here. */
  const RequiredFields: seq<string> := ["description", "system_prompt", "version"]

  /** `PromptValidator.MIN_TECHNIQUES` */
  const MinTechniques: nat := 2

  const MissingFieldPrefix: string := "Campo obrigatório faltando: "
  const EmptySystemPromptError: string := "system_prompt está vazio"
  const TodoSystemPromptError: string := "system_prompt ainda contém TODOs"
  const FewTechniquesPrefix: string := "Mínimo de " + NatToString(MinTechniques) + " técnicas requeridas, encontradas: "

  function MissingFieldError(field: string): (r: string)
    ensures |r| > 0 && r[0] == 'C'
  {
    assert MissingFieldPrefix[0] == 'C';
    MissingFieldPrefix + field
  }

  /** The techniques error names the length that was found. */
  function FewTechniquesError(found: nat): (r: string)
    ensures |r| > 0 && r[0] == 'M'
  {
    assert FewTechniquesPrefix[0] == 'M';
    FewTechniquesPrefix + NatToString(found)
  }

  /** Different fields give different messages. */
  lemma MissingFieldErrorInjective(f: string, g: string)
    ensures MissingFieldError(f) == MissingFieldError(g) <==> f == g
  {
    if MissingFieldError(f) == MissingFieldError(g) {
      FramedInjective(MissingFieldPrefix, f, g, "");
    }
  }

  /** Different lengths give different messages. */
  lemma FewTechniquesErrorInjective(n: nat, m: nat)
    ensures FewTechniquesError(n) == FewTechniquesError(m) <==> n == m
  {
    if FewTechniquesError(n) == FewTechniquesError(m) {
      FramedInjective(FewTechniquesPrefix, NatToString(n), NatToString(m), "");
      NatToStringInjective(n, m);
    }
  }

  /** One message per field of `fields` that `data` lacks, in order. */
  function MissingFieldErrors(data: map<string, Value>, fields: seq<string>): (r: seq<string>)
    ensures |r| <= |fields|
    ensures Headed(r, 'C')
    ensures r == [] <==> forall f :: f in fields ==> f in data
  {
    if |fields| == 0 then []
    else
      (if fields[0] !in data then [MissingFieldError(fields[0])] else []) + MissingFieldErrors(data, fields[1..])
  }

  /** A field's message appears once per occurrence of the field, when the
      document lacks it. */
  lemma {:induction false} MissingFieldCount(data: map<string, Value>, fields: seq<string>, f: string)
    ensures multiset(MissingFieldErrors(data, fields))[MissingFieldError(f)]
      == if f in data then 0 else multiset(fields)[f]
  {
    if |fields| > 0 {
      var g := fields[0];
      var head := if g !in data then [MissingFieldError(g)] else [];
      var rest := MissingFieldErrors(data, fields[1..]);
      assert MissingFieldErrors(data, fields) == head + rest;
      MissingFieldCount(data, fields[1..], f);
      HeadCount(data, g, f);
      SplitCount(head, rest, MissingFieldError(f));
      SplitCount([g], fields[1..], f);
      assert fields == [g] + fields[1..];
    }
  }

  /** The message a single field contributes. */
  lemma HeadCount(data: map<string, Value>, g: string, f: string)
    ensures multiset(if g !in data then [MissingFieldError(g)] else [])[MissingFieldError(f)]
      == if g == f && f !in data then 1 else 0
  {
    MissingFieldErrorInjective(f, g);
  }

  /** Counting in a concatenation adds the counts of its halves. */
  lemma SplitCount<T>(a: seq<T>, b: seq<T>, x: T)
    ensures multiset(a + b)[x] == multiset(a)[x] + multiset(b)[x]
  {
  }

  /** Only missing-field messages appear among them. */
  lemma {:induction false} OnlyMissingFieldErrors(data: map<string, Value>, fields: seq<string>, x: string)
    requires forall f :: MissingFieldError(f) != x
    ensures x !in MissingFieldErrors(data, fields)
  {
    if |fields| > 0 {
      OnlyMissingFieldErrors(data, fields[1..], x);
    }
  }

  /** Every message names a field of `fields` that `data` lacks. */
  lemma {:induction false} MissingFieldErrorSource(data: map<string, Value>, fields: seq<string>, x: string)
    requires x in MissingFieldErrors(data, fields)
    ensures exists f :: f in fields && f !in data && x == MissingFieldError(f)
  {
    assert |fields| > 0;
    var head := if fields[0] !in data then [MissingFieldError(fields[0])] else [];
    assert MissingFieldErrors(data, fields) == head + MissingFieldErrors(data, fields[1..]);
    if x !in head {
      MissingFieldErrorSource(data, fields[1..], x);
      var f :| f in fields[1..] && f !in data && x == MissingFieldError(f);
      assert f in fields;
    }
  }

  /** A message whose seventh character is not the prefix's is not a
      missing-field message. */
  lemma NotMissingFieldError(x: string)
    requires |x| > 6 && x[6] != 'o'
    ensures forall f :: MissingFieldError(f) != x
  {
    assert MissingFieldPrefix[6] == 'o';
  }

  /** `prompt_data.get("system_prompt", "")` */
  function SystemPromptValue(data: map<string, Value>): Value {
    Get(data, "system_prompt", Str(""))
  }

  /** `prompt_data.get("techniques_applied", [])` */
  function TechniquesValue(data: map<string, Value>): Value {
    Get(data, "techniques_applied", List([]))
  }

  /** The system-prompt error, if any. `.strip()` on a value that is not a
      string raises, which is a `Failure`. */
  function SystemPromptErrors(data: map<string, Value>): (r: Result<seq<string>, string>)
    ensures r.Success? <==> SystemPromptValue(data).Str?
    ensures r.Success? ==> Headed(r.value, 's') && |r.value| <= 1
    ensures r.Success? ==> var s := SystemPromptValue(data).s;
      (IsBlank(s) ==> r.value == [EmptySystemPromptError])
      && (!IsBlank(s) && Contains(Strip(s), "TODO") ==> r.value == [TodoSystemPromptError])
      && (!IsBlank(s) && !Contains(Strip(s), "TODO") ==> r.value == [])
  {
    var v := SystemPromptValue(data);
    if !v.Str? then Failure("AttributeError: object has no attribute 'strip'")
    else
      var s := Strip(v.s);
      IsBlankIffStripEmpty(v.s);
      if |s| == 0 then Success([EmptySystemPromptError])
      else if Contains(s, "TODO") then Success([TodoSystemPromptError])
      else Success([])
  }

  /** The techniques error, if any. The message evaluates `len(techniques)`,
      which raises for a value without a length: a `Failure`. */
  function TechniquesErrors(data: map<string, Value>): (r: Result<seq<string>, string>)
    ensures var t := TechniquesValue(data);
      r.Success? <==> Len(t).Some?
    ensures r.Success? ==> Headed(r.value, 'M') && |r.value| <= 1
    ensures var t := TechniquesValue(data);
      r.Success? && t.List? && |t.items| >= MinTechniques ==> r.value == []
    ensures var t := TechniquesValue(data);
      r.Success? && !(t.List? && |t.items| >= MinTechniques) ==> r.value == [FewTechniquesError(Len(t).value)]
  {
    var t := TechniquesValue(data);
    if t.List? && |t.items| >= MinTechniques then Success([])
    else
      match Len(t)
      case None => Failure("TypeError: object has no len()")
      case Some(n) => Success([FewTechniquesError(n)])
  }

  /** `system_prompt` can be stripped and the techniques have a length, so
      validation raises nothing. */
  predicate Validatable(data: map<string, Value>) {
    SystemPromptValue(data).Str? && Len(TechniquesValue(data)).Some?
  }

  /** `PromptValidator.validate`: the validity flag and the list of errors,
      or the exception a malformed value raises. */
  function Validate(data: map<string, Value>): (r: Result<(bool, seq<string>), string>)
    ensures r.Success? <==> Validatable(data)
    ensures r.Success? ==> (r.value.0 <==> r.value.1 == [])
    ensures r.Success? ==> |r.value.1| <= 5
  {
    match SystemPromptErrors(data)
    case Failure(e) => Failure(e)
    case Success(promptErrors) =>
      match TechniquesErrors(data)
      case Failure(e) => Failure(e)
      case Success(techniqueErrors) =>
        var errors := MissingFieldErrors(data, RequiredFields) + promptErrors + techniqueErrors;
        Success((|errors| == 0, errors))
  }

  /** The errors of a validation that raises nothing, as its three groups. */
  lemma ValidateGroups(data: map<string, Value>)
    requires Validatable(data)
    ensures SystemPromptErrors(data).Success? && TechniquesErrors(data).Success?
    ensures Validate(data).value.1
      == MissingFieldErrors(data, RequiredFields) + SystemPromptErrors(data).value + TechniquesErrors(data).value
  {
  }

  /** Each required field the document lacks is reported exactly once, and a
      present one never. */
  lemma ValidateMissingFields(data: map<string, Value>, f: string)
    requires Validatable(data)
    requires f in RequiredFields
    ensures multiset(Validate(data).value.1)[MissingFieldError(f)] == if f in data then 0 else 1
  {
    ValidateGroups(data);
    var missing := MissingFieldErrors(data, RequiredFields);
    MissingFieldCount(data, RequiredFields, f);
    RequiredFieldsOnce(f);
    GroupCounts(missing, SystemPromptErrors(data).value, TechniquesErrors(data).value, MissingFieldError(f));
  }

  /** The system prompt is reported blank, or as still holding a TODO, and
      never both. */
  lemma ValidateSystemPrompt(data: map<string, Value>)
    requires Validatable(data)
    ensures var errors := Validate(data).value.1;
      var s := SystemPromptValue(data).s;
      (EmptySystemPromptError in errors <==> IsBlank(s))
      && (TodoSystemPromptError in errors <==> !IsBlank(s) && Contains(Strip(s), "TODO"))
      && !(EmptySystemPromptError in errors && TodoSystemPromptError in errors)
  {
    ValidateGroups(data);
    var missing := MissingFieldErrors(data, RequiredFields);
    var promptErrors := SystemPromptErrors(data).value;
    assert EmptySystemPromptError[0] == 's' && TodoSystemPromptError[0] == 's';
    GroupCounts(missing, promptErrors, TechniquesErrors(data).value, EmptySystemPromptError);
    GroupCounts(missing, promptErrors, TechniquesErrors(data).value, TodoSystemPromptError);
    SystemPromptVerdict(data, promptErrors);
  }

  /** Exactly one techniques error, naming the length found, unless the
      techniques are a list of at least `MinTechniques`. */
  lemma ValidateTechniques(data: map<string, Value>)
    requires Validatable(data)
    ensures var errors := Validate(data).value.1;
      var t := TechniquesValue(data);
      if t.List? && |t.items| >= MinTechniques then forall n: nat :: FewTechniquesError(n) !in errors
      else multiset(errors)[FewTechniquesError(Len(t).value)] == 1
  {
    ValidateGroups(data);
    var missing := MissingFieldErrors(data, RequiredFields);
    var promptErrors := SystemPromptErrors(data).value;
    var techniqueErrors := TechniquesErrors(data).value;
    var t := TechniquesValue(data);
    if t.List? && |t.items| >= MinTechniques {
      NoTechniquesError(missing, promptErrors, techniqueErrors);
    } else {
      var x := FewTechniquesError(Len(t).value);
      GroupCounts(missing, promptErrors, techniqueErrors, x);
    }
  }

  /** With an empty techniques group no techniques message appears. */
  lemma NoTechniquesError(missing: seq<string>, promptErrors: seq<string>, techniqueErrors: seq<string>)
    requires Headed(missing, 'C') && Headed(promptErrors, 's') && techniqueErrors == []
    ensures forall n: nat :: FewTechniquesError(n) !in missing + promptErrors + techniqueErrors
  {
    forall n: nat
      ensures FewTechniquesError(n) !in missing + promptErrors + techniqueErrors
    {
      var x := FewTechniquesError(n);
      assert x !in missing;
      assert x !in promptErrors;
    }
  }

  /** A blank system prompt and one with a TODO are reported apart. */
  lemma SystemPromptVerdict(data: map<string, Value>, promptErrors: seq<string>)
    requires SystemPromptErrors(data) == Success(promptErrors)
    ensures var s := SystemPromptValue(data).s;
      (EmptySystemPromptError in promptErrors <==> IsBlank(s))
      && (TodoSystemPromptError in promptErrors <==> !IsBlank(s) && Contains(Strip(s), "TODO"))
  {
    assert EmptySystemPromptError != TodoSystemPromptError;
  }

  /** Every message of a group starts with the group's letter. */
  predicate Headed(errors: seq<string>, c: char) {
    forall e :: e in errors ==> |e| > 0 && e[0] == c
  }

  /** The missing-field, system-prompt and techniques messages start with
      different letters, so a message of one group counts only there. */
  lemma {:induction false} GroupCounts(missing: seq<string>, promptErrors: seq<string>, techniqueErrors: seq<string>, x: string)
    requires Headed(missing, 'C') && Headed(promptErrors, 's') && Headed(techniqueErrors, 'M')
    requires |x| > 0
    ensures x[0] == 'C' ==> multiset(missing + promptErrors + techniqueErrors)[x] == multiset(missing)[x]
    ensures x[0] == 's' ==> multiset(missing + promptErrors + techniqueErrors)[x] == multiset(promptErrors)[x]
    ensures x[0] == 'M' ==> multiset(missing + promptErrors + techniqueErrors)[x] == multiset(techniqueErrors)[x]
  {
    assert multiset(missing + promptErrors + techniqueErrors)[x]
      == multiset(missing)[x] + multiset(promptErrors)[x] + multiset(techniqueErrors)[x];
    if x[0] != 'C' { assert x !in missing; }
    if x[0] != 's' { assert x !in promptErrors; }
    if x[0] != 'M' { assert x !in techniqueErrors; }
  }

  lemma RequiredFieldsOnce(f: string)
    requires f in RequiredFields
    ensures multiset(RequiredFields)[f] == 1
  {
  }

  /** What a valid prompt has: every required field, a system prompt that is
      neither blank nor still holding a TODO, and a list of at least two
      techniques. */
  predicate WellFormedPrompt(data: map<string, Value>) {
    && (forall f :: f in RequiredFields ==> f in data)
    && SystemPromptValue(data).Str?
    && !IsBlank(SystemPromptValue(data).s)
    && !Contains(Strip(SystemPromptValue(data).s), "TODO")
    && TechniquesValue(data).List? && |TechniquesValue(data).items| >= MinTechniques
  }

  /** `validate_prompt_structure`: the compatibility entry point answers
      exactly as the validator does; it raises exactly when a value cannot
      be inspected, and otherwise calls the prompt valid exactly when the
      prompt is well formed. */
  function ValidatePromptStructure(data: map<string, Value>): (r: Result<(bool, seq<string>), string>)
    ensures r == Validate(data)
    ensures r.Success? <==> Validatable(data)
    ensures r.Success? ==> (r.value.0 <==> r.value.1 == [])
    ensures r.Success? ==> (r.value.0 <==> WellFormedPrompt(data))
  {
    Validate(data)
  }

  // ------------------------------------------------------------ environment

  /** `os.getenv(name)` is truthy: set and not the empty string. */
  predicate Configured(env: map<string, string>, name: string) {
    name in env && env[name] != ""
  }

  /** The variables of `required` that are unset or empty, in order. */
  function MissingVars(env: map<string, string>, required: seq<string>): (r: seq<string>)
    ensures |r| <= |required|
    ensures forall v :: v in r <==> v in required && !Configured(env, v)
  {
    if |required| == 0 then []
    else (if Configured(env, required[0]) then [] else [required[0]]) + MissingVars(env, required[1..])
  }

  /** `check_env_vars`: true exactly when every required variable is set to a
      non-empty value. */
  function CheckEnvVars(env: map<string, string>, required: seq<string>): (ok: bool)
    ensures ok <==> forall v :: v in required ==> Configured(env, v)
  {
    var missing := MissingVars(env, required);
    assert missing != [] ==> missing[0] in missing;
    missing == []
  }

  // ------------------------------------------------------------------- JSON

  /** The slice `text[text.find("{"):text.rfind("}") + 1]`, taken only when
      the first '{' comes before the last '}'. */
  function BraceSlice(text: string): (r: Option<string>)
    ensures r.Some? <==> exists i, j :: 0 <= i < j < |text| && text[i] == '{' && text[j] == '}'
    ensures r.Some? ==> |r.value| >= 2 && r.value[0] == '{' && r.value[|r.value| - 1] == '}'
    ensures r.Some? ==> var i := IndexOf(text, '{');
      0 <= i && i + |r.value| <= |text|
      && r.value == text[i..i + |r.value|]
      && '{' !in text[..i]
      && '}' !in text[i + |r.value|..]
  {
    var start := IndexOf(text, '{');
    var end := LastIndexOf(text, '}') + 1;
    BraceSliceWitness(text);
    if start != -1 && end > start then
      BraceSliceBounds(text, start, end - 1);
      Some(text[start..end])
    else None
  }

  /** The slice between the first '{' and the last '}' starts with one and
      ends with the other. */
  lemma BraceSliceBounds(text: string, start: nat, last: nat)
    requires start <= last < |text| && text[start] == '{' && text[last] == '}'
    ensures last - start >= 1
    ensures var r := text[start..last + 1]; |r| >= 2 && r[0] == '{' && r[|r| - 1] == '}'
  {
  }

  /** A '{' before a '}' anywhere puts the first '{' before the last '}'. */
  lemma BraceSliceWitness(text: string)
    ensures (exists i, j :: 0 <= i < j < |text| && text[i] == '{' && text[j] == '}')
      <==> IndexOf(text, '{') != -1 && LastIndexOf(text, '}') + 1 > IndexOf(text, '{')
  {
    if exists i, j :: 0 <= i < j < |text| && text[i] == '{' && text[j] == '}' {
      var i, j :| 0 <= i < j < |text| && text[i] == '{' && text[j] == '}';
      BracesAround(text, i, j);
    }
    var start := IndexOf(text, '{');
    var last := LastIndexOf(text, '}');
    if start != -1 && last + 1 > start {
      assert text[start] != text[last];
      assert 0 <= start < last < |text| && text[start] == '{' && text[last] == '}';
    }
  }

  /** Any '{' lies at or after the first one, any '}' at or before the last. */
  lemma BracesAround(text: string, i: int, j: int)
    requires 0 <= i < j < |text| && text[i] == '{' && text[j] == '}'
    ensures 0 <= IndexOf(text, '{') <= i && j <= LastIndexOf(text, '}')
  {
  }

  /** `extract_json_from_response`: the whole text if it parses, otherwise
      the brace slice if that parses. `parse` stands for `json.loads`, with
      `None` for a decoding error. */
  function ExtractJson(text: string, parse: string -> Option<Value>): (r: Option<Value>)
    ensures |text| == 0 ==> r.None?
    ensures |text| > 0 && parse(text).Some? ==> r == parse(text)
    ensures r.Some? ==> r == parse(text) || (BraceSlice(text).Some? && r == parse(BraceSlice(text).value))
    ensures BraceSlice(text).None? && parse(text).None? ==> r.None?
    ensures |text| > 0 && parse(text).None? && BraceSlice(text).Some? ==> r == parse(BraceSlice(text).value)
  {
    if |text| == 0 then None
    else if parse(text).Some? then parse(text)
    else
      match BraceSlice(text)
      case None => None
      case Some(s) => parse(s)
  }

  /** An object wrapped in prose that holds no braces is recovered, even
      though the whole answer does not parse. */
  lemma ExtractEmbeddedObject(prose: string, obj: string, trailer: string, parse: string -> Option<Value>)
    requires '{' !in prose && '}' !in trailer
    requires |obj| >= 2 && obj[0] == '{' && obj[|obj| - 1] == '}'
    requires parse(prose + obj + trailer).None?
    ensures ExtractJson(prose + obj + trailer, parse) == parse(obj)
  {
    var text := prose + obj + trailer;
    assert text[|prose|] == '{' && text[|prose| + |obj| - 1] == '}';
    var r := BraceSlice(text);
    assert r.Some?;
    var i := IndexOf(text, '{');
    assert i == |prose|;
    var e := i + |r.value|;
    assert e == |prose| + |obj|;
    assert r.value == obj;
  }
}

=== FILE: wrappers.dfy ===
/** Failure-carrying wrappers shared by every module of the model. */
module Wrappers {

  /** A value that may be absent (Python's `None` return or `Optional[...]`). */
  datatype Option<+T> = None | Some(value: T)

  /** The outcome of a computation that may raise: `Failure` carries the text
      of the exception that escapes the modelled Python function. */
  datatype Result<+T, +E> = Success(value: T) | Failure(error: E)
}
